=== FILE: README.md ===
# AI Fitness Agent — a verified model of its rules

AI Fitness Agent is a mobile coaching app. A React Native frontend onboards
the user: profile, body fat, strength, equipment and dietary preferences. It
then shows today's workout and records per-exercise feedback. A FastAPI
backend asks a language model for a week of workouts and rounds every
prescribed weight to the gym grid. From the feedback it decides whether the
next workout is regenerated or only nudged up one notch. It also builds a
seven-day meal plan from a meal catalogue.

This project models the deterministic rules of both halves as pure Dafny
functions over immutable datatypes, and proves what they promise.

- **Weights** (`weights.dfy`, `progression.dfy`) are integers in tenths of
  a kilogram. Python's `round` is modelled exactly: it rounds half to even.
- **Reading the model's reply** (`fences.dfy`) covers the Markdown-fence
  stripping and the rebuilding of the decoded days.
- **Nutrition** (`nutrition.dfy`) covers the Mifflin-St Jeor energy
  target, the macro split, and the per-day meal choice with portion
  scaling. It also covers the weekly loop that keeps meals from repeating.
- **Request handlers** (`endpoints.dfy`) cover the decisions of
  `backend/main.py`: the user-id guard, reuse of stored data, filling and
  sorting the week, and progression versus regeneration.
- **Records and validation** (`models.dfy`, `schemas.dfy`) cover the
  record classes with their `dict()` serialisers, and the request
  validators with their defaults. Round trips between the two are proved.
- **Frontend**: `api_client.dfy` (`apiRequest`), `forms.dfy` (shared form
  semantics), `equipment.dfy`, `onboarding.dfy`, `dietary.dfy`,
  `exercise_screen.dfy`, `home.dfy` and `workout_context.dfy`.
- **Helpers**: `wrappers.dfy`, `seqs.dfy`, `text.dfy` (Python and
  JavaScript string operations) and `json.dfy` (JSON values and JavaScript
  truthiness).

The model works on these terms:

- **Form fields.** The text in a field is an `Input`: blank, non-numeric,
  or numeric with its value. `parseInt` truncates toward zero.
- **Effects become parameters.** Storage reads, the clock, the random
  choice, the language model and the database are all parameters. Every
  exception is an `Err`.

## Model

| member | source | states |
|---|---|---|
| Weights.Increment | backend/workout_generator.py:16-24 | The grid step is 5 kg for barbell-class names and 2.5 kg otherwise, and the 20 kg floor lies on both grids |
| Weights.RoundHalfEven | backend/workout_generator.py:18 | The quotient is the integer nearest to n/d, with ties going to the even neighbour, as Python's `round` does |
| Weights.NearestEvenUnique | backend/workout_generator.py:18 | At most one integer is nearest-with-ties-to-even, so the rounding is determined |
| Weights.SnapTenths | backend/workout_generator.py:16-25 | The snapped weight is a multiple of the class's step and the nearest-even multiple to the parsed value; a barbell weight is never below 20 kg |
| Weights.FormatTenths | backend/workout_generator.py:26 | The formatted weight ends in "kg" after at least one digit, a dot and one decimal |
| Weights.ParseFormat | backend/workout_generator.py:15 | Removing "kg" from a formatted weight and reading it as a float gives back exactly the tenths it was printed from |
| Weights.FormatNotSentinel | backend/workout_generator.py:13 | No formatted weight is "N/A" or "bodyweight" |
| Weights.RoundToStandardWeight | backend/workout_generator.py:12-26 | "N/A" and "bodyweight" come back unchanged; a weight `float` cannot read is an error; any other weight is snapped to its class's grid and printed with one decimal and "kg" |
| Weights.SnapOnGrid | backend/workout_generator.py:16-25 | An on-grid weight (at least 20 kg for barbells) snaps to itself |
| Weights.RoundIdempotent | backend/workout_generator.py:12-26 | Rounding a rounded weight again returns the same string |
| Weights.NonBarbellBranchesAgree | backend/workout_generator.py:20-25 | The Dumbbell/Raise/Extension branch and the fallback branch give the same result for every weight |
| Weights.StepWeight | backend/workout_generator.py:367-378 | Sentinel weights stay; an unreadable weight is an error; any other weight becomes the nearest-even multiple of the step to one step above it, with no floor |
| Weights.StepOnGrid | backend/workout_generator.py:367-378 | An on-grid weight goes up by exactly one step: 5 kg for barbells, 2.5 kg otherwise |
| Weights.StepOffGridTies | backend/workout_generator.py:369-371 | Off the grid a barbell weight can move by more or less than one step: 22.5 kg and 27.5 kg both become 30 kg |
| Progression.NextReps | backend/workout_generator.py:363-364 | "AMRAP" stays "AMRAP"; a count goes up by one |
| Progression.ProgressExercise | backend/workout_generator.py:360-381 | One exercise keeps its name and sets, gains a rep, and steps its weight; it fails exactly when the weight is missing or cannot be stepped |
| Progression.ProgressAll | backend/workout_generator.py:360-382 | Every exercise is progressed, in order, and the whole call fails if any one fails |
| Progression.ApplySlightProgression | backend/workout_generator.py:358-383 | The day, exercise count, order, names and sets are kept; counted reps go up by one; sentinel weights are kept and every other weight is its grid step up; it succeeds exactly when every weight can be stepped |
| Progression.ProgressionOnGrid | backend/workout_generator.py:367-378 | A workout whose weights are all on their grids succeeds, and every weight goes up by exactly one step |
| Progression.PrescribedLastWins | backend/workout_generator.py:386 | Each name of the workout maps to the sets and reps of the last exercise with that name |
| Progression.PrescribedKeys | backend/workout_generator.py:386 | Exactly the names of the workout have an entry |
| Progression.ScanExists | backend/workout_generator.py:387-395 | The early-return loop answers true exactly when some entry triggers |
| Progression.NeedsModificationIff | backend/workout_generator.py:385-395 | `needs_modification` holds iff some entry has difficulty 1, 2, 4 or 5, or falls short of its prescription in sets or reps with no "AMRAP" on either side; no feedback gives false |
| Progression.AmrapSkipsShortfall | backend/workout_generator.py:391-394 | With "AMRAP" on either side only the difficulty counts, so a sets shortfall is not checked either |
| Fences.UpTo | backend/workout_generator.py:148 | The result is `s.split(sep)[0]`: a prefix of `s` that ends where the first separator starts, or all of `s` when there is none |
| Fences.JsonPiece | backend/workout_generator.py:148 | After a "```json" marker the selected piece ends at the next fence, or at a second marker if that comes first |
| Fences.FencePiece | backend/workout_generator.py:150 | After the first fence the selected piece is the text up to the next fence |
| Fences.JsonFenceIsFence | backend/workout_generator.py:147-149 | Text containing "```json" contains "```" |
| Fences.StripFences | backend/workout_generator.py:147-150 | Text without a fence is unchanged; with a "```json" marker the result equals `text.split("```json")[1].split("```")[0].strip()`; with only plain fences it equals `text.split("```")[1].split("```")[0].strip()`, and both split chains are shown to have a second piece |
| Fences.StripJsonFence | backend/workout_generator.py:147-148 | With a single "```json" marker the payload is the stripped text between it and the next fence or the end |
| Fences.DecodeExercise | backend/workout_generator.py:154-161 | A decoded exercise came from an object holding its name, sets and reps as given, and a string weight that rounds to the exercise's weight |
| Fences.Iterate | backend/workout_generator.py:153-161 | `for x in v` over a list walks its elements; an empty object or empty string yields nothing; anything else fails once its elements are indexed |
| Fences.DecodeExercises | backend/workout_generator.py:154-162 | Every listed exercise is decoded, in order |
| Fences.DecodeDay | backend/workout_generator.py:153-163 | A decoded day keeps the day string of its object and its exercises were iterable; an empty object or empty string as exercises gives a day with no exercises |
| Fences.DecodeDays | backend/workout_generator.py:153-163 | Every listed day is decoded, in order |
| Fences.DecodeWeek | backend/workout_generator.py:151-164 | A list yields one day per element; iterating an empty object or string yields no days |
| Fences.DecodedWeightsStandard | backend/workout_generator.py:151-164 | Every weight the generator returns is already standard: rounding it again changes nothing |
| Nutrition.Bmr | backend/nutrition_generator.py:11-14 | The Mifflin-St Jeor formula with +5 for "male" and -161 for every other gender |
| Nutrition.BmrGenderGap | backend/nutrition_generator.py:11-14 | The male and non-male formulas differ by exactly 166 kcal |
| Nutrition.ActivityMultiplier | backend/nutrition_generator.py:17-25 | The level table gives a value in 1.2..1.9, and any level outside 1..5 gives 1.55 |
| Nutrition.GoalFactor | backend/nutrition_generator.py:30-36 | The factor is 0.8 to lose weight, 1.15 to build muscle, and 1.0 for anything else |
| Nutrition.CaloricNeeds | backend/nutrition_generator.py:9-36 | The target is BMR × activity × goal, and it is an error exactly when the age is missing |
| Nutrition.CaloricNeedsGrowWithWeight | backend/nutrition_generator.py:9-36 | A heavier user with otherwise equal details needs strictly more energy |
| Nutrition.MacroRatios | backend/nutrition_generator.py:38-44 | Each goal's protein/carbs/fat split, or 0.3/0.4/0.3 for any other goal |
| Nutrition.MacroRatiosSumToOne | backend/nutrition_generator.py:38-44 | Every split sums to 1 |
| Nutrition.Candidates | backend/nutrition_generator.py:118-131 | The candidates are exactly the available meals of the type whose id is not used yet |
| Nutrition.Choose | backend/nutrition_generator.py:135 | The chosen meal is the candidate at position n modulo the number of candidates, so any candidate can be chosen |
| Nutrition.PickMeals | backend/nutrition_generator.py:125-147 | At most one meal per type; every meal is available with an unused id, of a listed type; no id is chosen twice in a day |
| Nutrition.PickMealsOrdered | backend/nutrition_generator.py:130-136 | The chosen meals follow the order of the types, so breakfast, lunch, dinner and snack come at most once each, in that order |
| Nutrition.PickedInTypeOrder | backend/nutrition_generator.py:130-136 | Picking from the four meal types in their fixed order yields meals whose types rise strictly in that order |
| Nutrition.RankIncreasingCons | backend/nutrition_generator.py:136 | Appending after a meal of an earlier type keeps the types in order |
| Nutrition.PickMealsComplete | backend/nutrition_generator.py:130-133 | A type is skipped only when it has no unused candidate: if every type has one, every type is served |
| Nutrition.Clamp | backend/nutrition_generator.py:153 | `max(0.5, min(2.0, x))`: 0.5 below the range, 2.0 above it, and the value itself inside it |
| Nutrition.PortionMultiplier | backend/nutrition_generator.py:150-153 | With a positive total and target the multiplier is the clamped ratio of target to total; otherwise it is 1.0 |
| Nutrition.Scale | backend/nutrition_generator.py:154-159 | A scaled meal keeps its id, name and type, and its calories are multiplied by the multiplier |
| Nutrition.ScaleAll | backend/nutrition_generator.py:154-159 | Every meal of the day is scaled by the same multiplier, in order |
| Nutrition.ScaleAllKeeps | backend/nutrition_generator.py:154-159 | Scaling keeps ids distinct, types in order, and one common multiplier |
| Nutrition.SelectMeals | backend/nutrition_generator.py:117-161 | At most four meals with distinct ids, in type order, all with one common multiplier in 0.5..2.0 |
| Nutrition.SumScaled | backend/nutrition_generator.py:154-159 | The scaled calories add up to the chosen calories times the multiplier |
| Nutrition.RatioInRange | backend/nutrition_generator.py:151-153 | A target within a factor of two of the total is not clamped |
| Nutrition.PortionHitsTarget | backend/nutrition_generator.py:150-159 | When the chosen meals are within a factor of two of the target, the scaled meals add up to the target exactly |
| Nutrition.SelectMealsHitsTarget | backend/nutrition_generator.py:125-159 | The same holds for a whole day's selection |
| Nutrition.InIds | backend/nutrition_generator.py:191-192 | An id is in the day's id set exactly when some meal of the day carries it |
| Nutrition.Query | backend/nutrition_generator.py:79-107 | The rows are exactly the catalogue meals that the diet admits and whose id is not excluded, in catalogue order |
| Nutrition.SelectionFromQuery | backend/nutrition_generator.py:79-135 | Every id a day serves is a non-excluded catalogue meal that the diet admits |
| Nutrition.DaySelectionServed | backend/nutrition_generator.py:181-188 | Each day's selection serves only admitted, non-excluded meals |
| Nutrition.PlanFrom | backend/nutrition_generator.py:180-194 | The loop yields one entry per remaining weekday, in order |
| Nutrition.NutritionPlan | backend/nutrition_generator.py:166-196 | The plan has exactly seven entries, Monday to Sunday |
| Nutrition.DisjointFromPart | backend/nutrition_generator.py:178 | A set disjoint from a union is disjoint from each part |
| Nutrition.PlanFromFresh | backend/nutrition_generator.py:178-192 | If each day avoids the ids excluded before it, every later day avoids the starting exclusion and no two days share an id |
| Nutrition.NutritionPlanVariety | backend/nutrition_generator.py:171-192 | No meal of the week was used in the last three days, and no meal is served on two days |
| Nutrition.ExcludedBefore | backend/nutrition_generator.py:178-192 | The exclusion contains the recent ids and only grows from day to day |
| Nutrition.PlanSuffix | backend/nutrition_generator.py:180-194 | The plan from day d on is the loop restarted at d with everything excluded before it |
| Nutrition.PlanDayUsesExclusion | backend/nutrition_generator.py:180-192 | Day d is exactly the selection over the query that excludes the recent ids and every earlier day's meals |
| Nutrition.PlanMealsAdmitted | backend/nutrition_generator.py:79-90 | Every meal of the week is a catalogue meal that the stored diet admits |
| Nutrition.NonZeroIds | backend/nutrition_generator.py:61-64 | The ids kept are exactly the non-zero ids present |
| Nutrition.RecentIds | backend/nutrition_generator.py:55-64 | The recent ids are exactly the non-zero meal ids of the recent plans, without duplicates |
| Endpoints.WeekDistinct | backend/main.py:133 | The seven weekdays are distinct |
| Endpoints.DaysOf | backend/main.py:134 | The set holds exactly the days of the fetched workouts |
| Endpoints.MissingDays | backend/main.py:135-137 | Only weekdays absent from the rows are added, each with no exercises |
| Endpoints.OfDay | backend/main.py:140 | A day's group holds only workouts of that day, taken from the list |
| Endpoints.SortByDays | backend/main.py:139-140 | The sorted list holds only workouts of listed days, taken from the input |
| Endpoints.IndexOf | backend/main.py:139 | `day_order[d]` is the position of d among the weekdays |
| Endpoints.FillWeek | backend/main.py:121-140 | No rows is an error, and so is a row whose day is not a weekday (the sort key lookup raises); otherwise the week is filled and sorted |
| Endpoints.OfDayAppend | backend/main.py:137 | Grouping by day distributes over concatenation |
| Endpoints.OfDayOfDay | backend/main.py:140 | Grouping twice by the same day changes nothing; by two different days gives nothing |
| Endpoints.SortByDaysStable | backend/main.py:139-140 | The sort is stable: each day's group keeps its fetched order |
| Endpoints.SortByDaysSorted | backend/main.py:139-140 | The result is ordered by weekday position |
| Endpoints.OfDayCount | backend/main.py:140 | A day's group holds each workout of that day as often as the list does |
| Endpoints.SortByDaysCount | backend/main.py:139-140 | The sort neither adds nor loses a workout |
| Endpoints.SortByDaysPermutation | backend/main.py:139-140 | When every workout's day is among the distinct sort keys, the sorted list is a permutation of the input |
| Endpoints.MissingOfDay | backend/main.py:135-137 | For a weekday, the added workouts are one empty workout if the day is absent and none otherwise |
| Endpoints.OfDayEmpty | backend/main.py:134-136 | A day has no workouts exactly when no row carries it |
| Endpoints.FillWeekDays | backend/main.py:133-140 | Each weekday holds its fetched workouts in fetched (newest first) order, or a single empty workout if none was fetched |
| Endpoints.FillWeekSorted | backend/main.py:139-140 | The filled week is sorted Monday to Sunday |
| Endpoints.FillWeekPermutation | backend/main.py:125-140 | The filled week is a permutation of the fetched rows plus the added days, so its length is their sum |
| Endpoints.FillWeekCoversWeek | backend/main.py:133-137 | Every weekday appears in the filled week |
| Endpoints.UserIdOf | backend/main.py:41-43 | A `user_id` that is not an int (a bool counts as an int) is rejected |
| Endpoints.CurrentWorkout | backend/main.py:39-94 | An invalid id fails; seven or more recent workouts are returned as stored; otherwise the generated week is returned |
| Endpoints.CurrentWorkoutReuse | backend/main.py:60-86 | With seven or more recent workouts the generator's result does not matter |
| Endpoints.NutritionPlanRequest | backend/main.py:255-283 | An invalid id fails; a non-empty stored plan is returned; otherwise the generated plan is returned |
| Endpoints.NextWorkout | backend/main.py:215-218 | Hard feedback gives the regenerated workout; otherwise the slight progression of the previous workout |
| Endpoints.NextWorkoutProgresses | backend/main.py:215-220 | Without a modification the saved workout is the progression of the previous one, whatever regeneration would give, and it keeps the day and the exercise count |
| Endpoints.NextWorkoutAsShipped | backend/main.py:215-218 | As shipped, without a modification the result is the progression; the modification branch raises |
| Endpoints.AsShippedFailsOnHardFeedback | backend/main.py:215-216 | Feedback of difficulty 5 makes the shipped handler fail where the intended one returns the regenerated workout |
| Models.RepsFromJson | backend/schemas.py:33 | `Union[int, Literal["AMRAP"]]` accepts exactly an integer, a float with no fractional part (read as that integer) or the literal "AMRAP"; a count is the lax integer reading of the value, and `Amrap` comes from "AMRAP" and nothing else |
| Models.RepsReadBack | backend/schemas.py:33 | A repetition value written out reads back as itself, and a count written as a whole float reads back as that count |
| Models.ExerciseFromKwargs | backend/models.py:72-82 | `Exercise(**kw)` needs name, sets and reps, refuses unknown keywords, and defaults the weight to "N/A" |
| Models.ExerciseToDict | backend/models.py:84-90 | `dict()` emits exactly the four fields, and `Exercise(**d)` rebuilds the same exercise |
| Models.DailyWorkoutToDict | backend/models.py:97-101 | `dict()` emits the day and one entry per exercise, in order, each rebuilding its exercise |
| Models.ExerciseFeedbackToDict | backend/models.py:120-128 | `dict()` emits exactly the six feedback fields |
| Models.DailyWorkoutFeedbackToDict | backend/models.py:135-139 | `dict()` emits exactly the day and the feedback list |
| Models.GymStrengthToDict | backend/models.py:9-14 | `dict()` emits exactly the three lift maxima |
| Models.HomeStrengthToDict | backend/models.py:22-27 | `dict()` emits exactly the three repetition counts |
| Models.UserToDict | backend/models.py:56-69 | `dict()` emits the eleven fields, with None exactly for an absent gym or home strength record |
| Schemas.ReqStr | backend/schemas.py:15 | A required string field reads only a string |
| Schemas.ReqInt | backend/schemas.py:10-12 | A required int field reads an integer, or a float with no fractional part as that integer, and nothing else |
| Json.LaxIntReadsBack | backend/schemas.py:10-12 | An integer reads back as itself whether written as an integer or as a whole float |
| Schemas.OptIntIn | backend/schemas.py:16 | An optional restricted int is read like a required one and allowed by its constraint, is `None` for null, or is the declared default when the key is missing |
| Schemas.ReqLiteral | backend/schemas.py:50 | A required integer literal is accepted exactly when it is one of the listed integers |
| Schemas.OptLiteral | backend/schemas.py:20 | An optional integer literal is one of the listed integers, `None` for null, or the declared default when the key is missing |
| Schemas.StrList | backend/schemas.py:21 | A string list reads back only the strings it was built from |
| Schemas.StrListRoundTrip | backend/schemas.py:21 | A list of strings reads back as itself |
| Schemas.ListOf | backend/schemas.py:41 | A list field validates every element, in order, and fails iff some element fails |
| Schemas.ListOfMap | backend/schemas.py:41 | Validating a list of encoded elements gives the list back exactly when each element decodes back to itself |
| Schemas.ValidateExercise | backend/schemas.py:30-34 | The weight defaults to "N/A"; the reps are what `Union[int, Literal["AMRAP"]]` reads from the `reps` field |
| Schemas.ValidateDailyWorkout | backend/schemas.py:39-41 | A day is valid with one exercise per list element |
| Schemas.ValidateExerciseFeedback | backend/schemas.py:46-52 | Accepted feedback has difficulty 1..5 and a soreness that is absent or 1..5; the reps completed are what `Union[int, Literal["AMRAP"]]` reads from the `reps_completed` field |
| Schemas.ValidateDailyWorkoutFeedback | backend/schemas.py:57-59 | Every accepted entry satisfies the feedback constraints |
| Schemas.ValidateUser | backend/schemas.py:14-25 | An accepted profile has age ≥ 1 if present, level in {1,2,3}, a listed goal or none, and a listed gender; a missing level defaults to 1 |
| Schemas.DailyWorkoutRoundTrip | backend/schemas.py:39-41 | A workout's `dict()` validates back to the same workout |
| Schemas.ExerciseFeedbackRoundTrip | backend/schemas.py:46-52 | Feedback survives `dict()` and validation exactly when it satisfies the constraints |
| Schemas.DailyFeedbackRoundTrip | backend/schemas.py:57-59 | A day's feedback survives `dict()` and validation exactly when every entry is valid |
| Schemas.UserRoundTrip | backend/schemas.py:14-25 | A profile survives `dict()` and validation exactly when it satisfies the schema's constraints |
| Schemas.ValidateUserFields | backend/schemas.py:14-25 | An object whose every field reads back as a valid profile's field validates to that profile |
| ApiClient.BuildUrl | frontend/src/utils/api.js:5-9 | The URL is base + endpoint, then "?" and the encoded query exactly when query parameters are given |
| ApiClient.UrlSplitsAtQuery | frontend/src/utils/api.js:5-9 | When the path has no "?", the URL's first "?" separates the path from the query, and there is one iff parameters were given |
| ApiClient.ParsedBody | frontend/src/utils/api.js:19-27 | An empty body is `{}`, JSON is parsed, and other text becomes `{detail: text}` (or "Empty response") |
| ApiClient.MsgOf | frontend/src/utils/api.js:32 | Reading `msg` fails exactly on a null entry |
| ApiClient.MsgsOf | frontend/src/utils/api.js:32 | The messages are read in order, and reading fails iff some entry is null |
| ApiClient.ErrorMessage | frontend/src/utils/api.js:29-37 | An array detail gives the `msg`s joined by "; "; a truthy detail gives itself; otherwise "Request failed: <status> <statusText>" |
| ApiClient.Unwrap | frontend/src/utils/api.js:44 | Only a message carrying the endpoint's prefix is unwrapped |
| ApiClient.UnwrapWrap | frontend/src/utils/api.js:44 | A wrapped message unwraps to the original |
| ApiClient.ApiRequest | frontend/src/utils/api.js:3-46 | An ok response returns the parsed body; every failure is "API error at <endpoint>: <message>" with the chosen message |
| ApiClient.ApiRequestOutcome | frontend/src/utils/api.js:29-45 | The call succeeds iff the response is ok; each failure unwraps to its message; an ok empty body gives `{}` |
| ApiClient.FindAfterClean | frontend/src/utils/api.js:32 | In a joined message the first "; " follows the first `msg` when that `msg` holds none |
| ApiClient.SplitJoinMessages | frontend/src/utils/api.js:32 | Splitting the joined message at "; " recovers the individual messages when none contains "; " |
| ApiClient.ApiRequestAsWritten | frontend/src/utils/api.js:20-27 | As written, an unparseable body fails because `text` is out of scope; everything else is as intended |
| ApiClient.AsWrittenLosesBodyText | frontend/src/utils/api.js:20-27 | A non-JSON error page gives a `ReferenceError` for `text` as written, instead of the page's text; an ok non-JSON reply fails as written |
| ApiClient.UnparseableErrorCarriesText | frontend/src/utils/api.js:24-38 | With the fallback in scope, a failed non-JSON response reports the body text |
| Forms.Trunc | frontend/src/screens/ExerciseScreen.js:75 | `parseInt` of a numeric field written with a leading digit truncates toward zero |
| Forms.LoadUserId | frontend/src/screens/HomeScreen.js:36-40 | A stored id is accepted iff it is present, non-empty and parses, and the parsed value is kept |
| EquipmentPicker.Remove | frontend/src/screens/onboarding/EquipmentScreen.js:27 | Filtering out an id removes it and keeps every other id |
| EquipmentPicker.RemoveAppend | frontend/src/screens/onboarding/GymEquipmentScreen.js:29 | Filtering works piecewise, so the remaining ids keep their order |
| EquipmentPicker.RemoveNoDuplicates | frontend/src/screens/onboarding/GymEquipmentScreen.js:29 | Filtering keeps a list duplicate-free |
| EquipmentPicker.ToggleHome | frontend/src/screens/onboarding/EquipmentScreen.js:19-32 | "none" gives ["none"]; an item while "none" is selected gives [item]; the selection is never empty; "none" never coexists with another id |
| EquipmentPicker.ToggleHomeKeepsSelection | frontend/src/screens/onboarding/EquipmentScreen.js:19-32 | Every tap keeps the selection duplicate-free, with "none" only on its own |
| EquipmentPicker.ToggleHomeFlips | frontend/src/screens/onboarding/EquipmentScreen.js:23-29 | Without "none" a tap flips exactly the tapped item, and "none" appears iff it was the last item |
| EquipmentPicker.ToggleHomeTwice | frontend/src/screens/onboarding/EquipmentScreen.js:23-29 | Tapping an unselected item twice restores the selection, except that an empty one becomes ["none"] |
| EquipmentPicker.ToggleGym | frontend/src/screens/onboarding/GymEquipmentScreen.js:26-32 | The tapped id flips; every other id is unaffected |
| EquipmentPicker.ToggleGymTwice | frontend/src/screens/onboarding/GymEquipmentScreen.js:27-30 | Tapping an absent id twice restores the list exactly |
| EquipmentPicker.RemoveAt | frontend/src/screens/onboarding/GymEquipmentScreen.js:29 | When an id occurs only at position i, removing it takes out exactly that position and keeps the rest in order |
| EquipmentPicker.ToggleGymShape | frontend/src/screens/onboarding/GymEquipmentScreen.js:27-30 | A duplicate-free list stays duplicate-free; an absent id is appended; a present one is taken out in place |
| EquipmentPicker.ForwardEquipment | frontend/src/screens/onboarding/EquipmentScreen.js:34-46 | An empty selection is refused; otherwise the profile goes on to FitnessGoal with `equipment` set to the selection and its other fields kept |
| EquipmentPicker.HomeNextAfterTap | frontend/src/screens/onboarding/EquipmentScreen.js:19-46 | On the home picker one tap is enough for Next to go through |
| Onboarding.FormatUser | frontend/src/screens/onboarding/UserInfoScreen.js:50-56 | The formatted profile has name, height, weight and gender, and an `age` key iff an age was entered |
| Onboarding.UserInfoNext | frontend/src/screens/onboarding/UserInfoScreen.js:39-80 | The required-field error is given iff `isFormValid` fails; it goes through iff the numbers are valid; a new profile goes to BodyFat; an edit merges into the stored profile with `updatedAt` and goes back |
| Onboarding.BodyFatNext | frontend/src/screens/onboarding/BodyFatScreen.js:9-30 | A blank field passes the profile on untouched; a number in 0..100 inclusive is added as `fat_percentage`; anything else is refused |
| Onboarding.ProfileThroughBodyFat | frontend/src/screens/onboarding/BodyFatScreen.js:24-29 | The profile built by the first two screens reads back, field by field, as the backend's profile schema reads it |
| Onboarding.InitialStrength | frontend/src/screens/onboarding/StrengthScreen.js:16-20 | The form starts with the three fields of its kind, all empty |
| Onboarding.FirstInvalid | frontend/src/screens/onboarding/StrengthScreen.js:30-35 | The loop stops at the first field that is empty, non-numeric or negative, and at none iff all pass |
| Onboarding.ReplaceFirstUnderscore | frontend/src/screens/onboarding/StrengthScreen.js:32 | Only the first underscore of the field name is replaced by a space |
| Onboarding.FormatStrength | frontend/src/screens/onboarding/StrengthScreen.js:37-39 | Every field is converted to its number |
| Onboarding.StrengthNext | frontend/src/screens/onboarding/StrengthScreen.js:8-47 | Without `workoutType` nothing goes through; the first invalid field is named; a gym profile goes to GymEquipment with `gym_strength`, a home profile to Equipment with `home_strength` |
| Onboarding.GymStrengthAccepted | frontend/src/screens/onboarding/StrengthScreen.js:26-47 | Valid gym numbers go through and the backend's gym strength schema reads them back |
| Onboarding.HomeStrengthAccepted | frontend/src/screens/onboarding/StrengthScreen.js:26-47 | Counts that are not negative always get past the screen; the backend's home strength schema then accepts them exactly when all three are whole numbers, and reads them back |
| Onboarding.EmptyStrengthRefused | frontend/src/screens/onboarding/StrengthScreen.js:16-35 | An untouched form is refused at its first field |
| Dietary.TrimAll | frontend/src/screens/DietaryPreferencesScreen.js:22 | Each piece is trimmed, in place |
| Dietary.DropEmpty | frontend/src/screens/DietaryPreferencesScreen.js:22 | Empty pieces are dropped and every non-empty piece is kept |
| Dietary.ParseAllergies | frontend/src/screens/DietaryPreferencesScreen.js:22 | No parsed allergy is empty or has surrounding whitespace |
| Dietary.CommaAt | frontend/src/screens/DietaryPreferencesScreen.js:22 | The pattern "," occurs exactly where a comma is |
| Dietary.SplitNoComma | frontend/src/screens/DietaryPreferencesScreen.js:22 | The pieces of a split at "," contain no comma |
| Dietary.StripNoComma | frontend/src/screens/DietaryPreferencesScreen.js:22 | Trimming does not introduce a comma |
| Dietary.ParsedNoComma | frontend/src/screens/DietaryPreferencesScreen.js:22 | No parsed allergy contains a comma |
| Dietary.FindAfterComma | frontend/src/screens/DietaryPreferencesScreen.js:22 | The first comma of a joined list follows its first entry |
| Dietary.SplitJoinComma | frontend/src/screens/DietaryPreferencesScreen.js:22 | Splitting comma-joined, comma-free entries recovers them |
| Dietary.TrimAllStripped | frontend/src/screens/DietaryPreferencesScreen.js:22 | Trimming already trimmed pieces changes nothing |
| Dietary.DropEmptyNone | frontend/src/screens/DietaryPreferencesScreen.js:22 | A list without empty pieces passes the filter unchanged |
| Dietary.ParseJoinRoundTrip | frontend/src/screens/DietaryPreferencesScreen.js:22 | Entries that are non-empty, trimmed and comma-free, written back comma-separated, parse to the same list |
| Dietary.ParseIdempotent | frontend/src/screens/DietaryPreferencesScreen.js:22 | Re-entering the parsed list parses to the same list |
| Dietary.SetVegan | frontend/src/screens/DietaryPreferencesScreen.js:52-57 | Vegan on also turns vegetarian on; vegan off leaves vegetarian unchanged |
| Dietary.SetVegetarian | frontend/src/screens/DietaryPreferencesScreen.js:64-70 | Vegetarian off also turns vegan off; vegetarian on leaves vegan unchanged |
| Dietary.SwitchesStayConsistent | frontend/src/screens/DietaryPreferencesScreen.js:52-70 | Both handlers keep vegan ⇒ vegetarian |
| Dietary.TapsStayConsistent | frontend/src/screens/DietaryPreferencesScreen.js:52-71 | Any sequence of taps from a consistent state stays consistent |
| Dietary.SavePreferences | frontend/src/screens/DietaryPreferencesScreen.js:15-25 | The save is refused iff the user id is missing; otherwise the preferences hold the allergies and the two switches |
| Dietary.SavedPreferencesSound | frontend/src/screens/DietaryPreferencesScreen.js:15-25 | After any taps, the saved preferences never claim vegan without vegetarian, and the allergy list reads back as the parsed field |
| ExerciseScreen.RecordedReps | frontend/src/screens/ExerciseScreen.js:76 | Reps that parse to 0 are recorded as "AMRAP", anything else as the parsed count |
| ExerciseScreen.HandleDone | frontend/src/screens/ExerciseScreen.js:50-82 | Blank or non-numeric sets, reps or difficulty are refused; difficulty and any soreness must be 1..5 after truncation; the day and the user id must be present; the record carries the parsed values, with null notes and soreness when empty |
| ExerciseScreen.SubmittedFeedbackAccepted | frontend/src/screens/ExerciseScreen.js:69-85 | Whatever the screen submits, the backend's feedback schema accepts it and reads back the same record |
| ExerciseScreen.NextStep | frontend/src/screens/ExerciseScreen.js:88-97 | The screen advances to index+1 iff index < length−1, and otherwise completes |
| ExerciseScreen.SubmissionsVisitAll | frontend/src/screens/ExerciseScreen.js:88-97 | From exercise i of n, the screen takes exactly n−i submissions to complete |
| Home.FindToday | frontend/src/screens/HomeScreen.js:48 | `find` returns the first workout for today with exercises, or none |
| Home.TodayWorkout | frontend/src/screens/HomeScreen.js:46-51 | Nothing only for an empty list; the shown workout is today's iff one with exercises exists; otherwise it is the first entry |
| Home.TodayWorkoutIsFirst | frontend/src/screens/HomeScreen.js:48 | A shown workout for today comes before every other workout for today with exercises |
| Home.HomeLoad | frontend/src/screens/HomeScreen.js:14-74 | Nothing loads unless `isLoggedIn` is "true"; a missing or unreadable id, a failed request or an empty list is an error; otherwise the id and today's workout are kept |
| WorkoutContext.OrDefault | frontend/src/context/WorkoutContext.js:17-19 | `ex[key] \|\| fallback` gives the property exactly when it is truthy |
| WorkoutContext.StartExercise | frontend/src/context/WorkoutContext.js:14-20 | A prepared exercise is not completed and has falsy sets, reps and weight replaced by 3, 12 and 0; its other properties are copied; a null entry raises |
| WorkoutContext.StartExercises | frontend/src/context/WorkoutContext.js:14-20 | Every exercise is prepared, in order and with the same count; it fails iff some entry is null |
| WorkoutContext.StartWorkout | frontend/src/context/WorkoutContext.js:10-22 | The workout in progress is a stamped copy with prepared exercises; the workout list and the history are untouched |
| WorkoutContext.CompleteWorkout | frontend/src/context/WorkoutContext.js:24-35 | With a workout in progress, a completed, stamped copy goes to the front of the history and nothing is in progress; without one nothing changes |
| WorkoutContext.AddWorkout | frontend/src/context/WorkoutContext.js:37-39 | The workout is appended and everything else is unchanged |
| WorkoutContext.ZeroSetsAndRepsDefault | frontend/src/context/WorkoutContext.js:17-18 | An explicit zero is replaced like a missing value |
| WorkoutContext.StartThenComplete | frontend/src/context/WorkoutContext.js:10-35 | A started, then completed workout heads the history, completed, with its start time and prepared exercises |
| WorkoutContext.CompleteTwice | frontend/src/context/WorkoutContext.js:24-35 | Completing twice is the same as completing once |
| WorkoutContext.RunOnlyGrows | frontend/src/context/WorkoutContext.js:24-39 | Over any run of actions the history keeps its old entries at its end, and the workout list keeps its old entries at its start |
| WorkoutContext.RunKeepsHistoryCompleted | frontend/src/context/WorkoutContext.js:24-35 | From the initial state, or any state whose history is all completed, no run of actions puts an unfinished workout in the history |

## Left out

- The language model calls and prompt assembly in `generate_workout` and `generate_next_week_workout`, and `json.loads`. The decoded JSON is an input to `Fences.DecodeWeek`.
- All SQL and database plumbing: the queries, the `INTERVAL` windows, `db_ops.py` and `db.py`. Rows, counts, stored plans and the diet-compatible catalogue are inputs. The diet filter of the meal query is stated by `Nutrition.Admits`.
- `load_recent_meal_ids`: only its final `set(filter(None, ...))` step is modelled (`Nutrition.RecentIds`). The query and the swallowed exceptions are left out.
- HTTP status codes, logging, and the `finally: cursor.close()` blocks of `backend/main.py`. Every failure is an `Err`.
- `backend/main.py` uses `Exercise` at lines 76, 128 and 208 without importing it. As shipped, those paths raise whenever a fetched row holds at least one exercise; a row with an empty `exercises` list reaches the modelled logic. The fill and sort are modelled as written at lines 133-140.
- The backend does not import as shipped. `nutrition_generator.py` imports `MealSchema`, and `main.py` imports three dietary and nutrition schemas. None of these is defined in `backend/schemas.py`. The model assumes the modules load.
- The dietary-preference endpoints and `submit_workout_feedback` only store and load rows, so they have no logic to model.
- The CLI scripts `currWorkout.py` and `nextWorkout.py`.
- `round(..., 2)` on the scaled meal figures: calories and multipliers are exact reals.
- `Nutrition.Scale`: does not round to two decimals, because the rounding is presentation of floats.
- Floating-point arithmetic in general: energy figures are reals, and weights are exact tenths.
- `Weights.RoundToStandardWeight`: reads only plain decimal notation. Python's `float` also accepts exponents, "inf", "nan" and digit underscores; those are errors here.
- `Weights.StepWeight`: the same reading restriction applies.
- `Fences.DecodeExercise`: refuses a name, sets or reps of the wrong JSON type. `Exercise(...)` stores such values unchecked, but the record datatype cannot hold them. This includes a float such as `12.0` for sets or reps.
- `Fences.DecodeDay`: refuses a day that is not a string. `DailyWorkout(day=...)` stores any value, but the record holds a string.
- `Schemas.ReqInt`: numeric strings and booleans, which pydantic's lax mode also reads as integers, are refused. The app never sends either to an int field.
- `Schemas.FloatOf`: numeric strings and booleans, which pydantic's lax mode also reads as floats, are refused. The app sends numbers there.
- `Schemas.ReqLiteral`: integer literals are read from JSON integers only. A float such as 3.0 is refused. The app sends `parseInt` results there.
- `Models.ExerciseFromKwargs`: refuses values of the wrong JSON type, which the Python class would store unchecked. The datatype cannot hold them. This includes a float such as `12.0` for sets or reps.
- `Models.RepsFromJson`: numeric strings such as `"12"` and booleans, which pydantic's lax mode also reads as integers, are refused. The app sends integers or "AMRAP" there.
- `Schemas.ValidateExercise`: the same gap for `reps`, through `Models.RepsFromJson`.
- `Schemas.ValidateExerciseFeedback`: the same gap for `reps_completed`, through `Models.RepsFromJson`.
- JavaScript's string-to-number coercions (`isNaN`, `parseFloat`, `parseInt` on whitespace, hex, exponent or leading-dot text such as `.5`, which `parseInt` reads as NaN). A field arrives already classified as an `Forms.Input`.
- The user is assumed to fill a field with text whose `parseFloat` and `isNaN` readings agree.
- `WorkoutContext.StartExercise`: copies the own properties of object entries only. A string or array entry's index keys are not copied.
- Timestamps (`startTime`, `endTime`, `updatedAt`) are parameters. `new Date().getDay()` is a weekday parameter.
- The React UI: rendering, styles, navigation wiring, Alerts and AsyncStorage. A screen's result is the route and the data it passes on, or an error.
- The screens that only pass selections through, and the static screens.
- The profile prefill of `UserInfoScreen` in edit mode (its `useEffect`).
- The Exercise screen's "Loading" guard, and the Home screen's display name.
- `StrengthScreen` returns its error view before calling its hooks. The model only states that nothing goes through.
- `fetch` itself, response-body reading, and the per-endpoint wrappers at `frontend/src/utils/api.js:48-74`. The settled response is an input of `ApiClient.ApiRequest`.
- `URLSearchParams` percent-encoding is a parameter of `ApiClient.QueryString`.
- `random.choice` is an arbitrary choice among the candidates, not a distribution.

## Findings

| source | as written | input that shows it | evidently intended | confidence | as-written member | corrected member |
|---|---|---|---|---|---|---|
| backend/main.py:215-218 | `generate_next_week_workout` is called but never imported into `main.py` | feedback with difficulty 5 for a stored previous workout | the modification branch returns the regenerated workout | not executed | Endpoints.AsShippedFailsOnHardFeedback | Endpoints.NextWorkoutProgresses |
| frontend/src/utils/api.js:20-27 | the fallback `{ detail: text \|\| 'Empty response' }` reads `text`, which is scoped to the `try` block, so it raises a `ReferenceError` for `text` | a 502 response whose body is the text "Bad Gateway" | the error carries the body text | not executed | ApiClient.AsWrittenLosesBodyText | ApiClient.UnparseableErrorCarriesText |

The first finding is modelled by `Endpoints.NextWorkoutAsShipped`. The
intended decision is `Endpoints.NextWorkout`, which the rest of the model
uses.

The second is modelled by `ApiClient.ApiRequestAsWritten`. The intended
behaviour is `ApiClient.ApiRequest`.

=== FILE: api_client.dfy ===
/** `apiRequest` of frontend/src/utils/api.js: how the request URL is built
    and what the caller gets back from a response. `fetch` itself is replaced
    by its outcome, which is an input; the console logging is not modelled. */
module ApiClient {
  import opened Wrappers
  import opened Json
  import opened Text

  /** The body text of a response: empty, valid JSON, or text that
      `JSON.parse` rejects. */
  datatype Body = NoText | Parsed(v: Value) | Unparseable(text: string)

  /** What `fetch` produced: a response with its status line and body, or a
      thrown error. */
  datatype Response =
    | Response(ok: bool, status: int, statusText: string, body: Body)
    | NetworkFailure(message: string)

  // ---------------------------------------------------------------------------
  // URL building

  /** `new URLSearchParams(queryParams).toString()`: `key=value` pairs in
      order, joined by "&", each side passed through the form encoder. */
  function QueryString(params: seq<(string, string)>, encode: string -> string): string {
    if |params| == 0 then ""
    else
      var first := encode(params[0].0) + "=" + encode(params[0].1);
      if |params| == 1 then first else first + "&" + QueryString(params[1..], encode)
  }

  /** The request URL: the base and the endpoint, then "?" and the query
      string whenever query parameters are given (even an empty set of them,
      since any object is truthy). */
  function BuildUrl(base: string, endpoint: string, query: Option<seq<(string, string)>>,
                    encode: string -> string): (url: string)
    ensures IsPrefix(base + endpoint, url)
    ensures query.None? <==> |url| == |base + endpoint|
    ensures query.Some? ==> url[|base + endpoint|] == '?' && url[|base + endpoint| + 1..] == QueryString(query.value, encode)
  {
    var path := base + endpoint;
    match query
    case None => path
    case Some(params) => path + "?" + QueryString(params, encode)
  }

  /** When the base and the endpoint hold no "?", splitting the URL at its
      first "?" gives back the path and the query string. */
  lemma UrlSplitsAtQuery(base: string, endpoint: string, query: Option<seq<(string, string)>>, encode: string -> string)
    requires !Contains(base + endpoint, "?")
    ensures var url := BuildUrl(base, endpoint, query, encode);
      && Split(url, "?")[0] == base + endpoint
      && (query.Some? <==> Contains(url, "?"))
  {
    var path := base + endpoint;
    var url := BuildUrl(base, endpoint, query, encode);
    assert forall j | 0 <= j <= |path| :: !OccursAt(path, "?", j);
    match query
    case None =>
      assert url == path;
    case Some(params) =>
      assert OccursAt(url, "?", |path|);
      forall j | 0 <= j < |path| ensures !OccursAt(url, "?", j) {
        assert !OccursAt(path, "?", j);
        assert url[j..j + 1] == path[j..j + 1];
      }
      assert Find(url, "?") == Some(|path|);
  }

  // ---------------------------------------------------------------------------
  // Responses

  /** `text ? JSON.parse(text) : {}`, falling back to
      `{detail: text || 'Empty response'}` when the text is not JSON. */
  function ParsedBody(body: Body): (v: Value)
    ensures body.NoText? ==> v == JObj(map[])
    ensures body.Parsed? ==> v == body.v
    ensures body.Unparseable? ==>
      (v.JObj? && v.fields.Keys == {"detail"} && v.fields["detail"].JStr? &&
       (body.text != "" ==> v.fields["detail"].s == body.text))
  {
    match body
    case NoText => JObj(map[])
    case Parsed(v) => v
    case Unparseable(text) => JObj(map["detail" := JStr(if text != "" then text else "Empty response")])
  }

  /** The message of the `TypeError` raised by reading a property of `null`. */
  const NULL_PROPERTY: string := "Cannot read property of null"

  /** `err.msg` as `join` renders it: a missing or null `msg` becomes the
      empty string, a string is itself, and anything else is rendered by
      `String` (the `str` parameter). Reading `msg` of `null` throws. */
  function MsgOf(err: Value, str: Value -> string): (r: Result<string>)
    ensures r.Err? <==> err == JNull
    ensures r.Err? ==> r.error == NULL_PROPERTY
  {
    match err
    case JNull => Err(NULL_PROPERTY)
    case JObj(fields) =>
      if "msg" !in fields || fields["msg"] == JNull then Ok("")
      else if fields["msg"].JStr? then Ok(fields["msg"].s)
      else Ok(str(fields["msg"]))
    case _ => Ok("")
  }

  function MsgsOf(items: seq<Value>, str: Value -> string): (r: Result<seq<string>>)
    ensures r.Ok? <==> forall i | 0 <= i < |items| :: items[i] != JNull
    ensures r.Err? ==> r.error == NULL_PROPERTY
    ensures r.Ok? ==> |r.value| == |items| && forall i | 0 <= i < |items| :: MsgOf(items[i], str) == Ok(r.value[i])
  {
    if |items| == 0 then Ok([])
    else
      var m :- MsgOf(items[0], str);
      var rest :- MsgsOf(items[1..], str);
      Ok([m] + rest)
  }

  /** `result.detail`, `None` standing for `undefined`. */
  function Detail(result: Value): Option<Value> {
    if result.JObj? && "detail" in result.fields then Some(result.fields["detail"]) else None
  }

  /** The message of the error a non-ok response raises: the `msg` of every
      entry of an array `detail` joined by "; ", otherwise a truthy `detail`
      itself, otherwise the status line. A `null` body, or a `null` entry of
      the array, raises a `TypeError` instead, whose message is used. */
  function ErrorMessage(result: Value, status: int, statusText: string, str: Value -> string): (m: string)
    ensures (result != JNull && Detail(result).Some? && Detail(result).value.JArr? &&
             MsgsOf(Detail(result).value.items, str).Ok?) ==>
      m == Join(MsgsOf(Detail(result).value.items, str).value, "; ")
    ensures (result != JNull && Detail(result).Some? && Truthy(Detail(result).value) &&
             Detail(result).value.JStr?) ==> m == Detail(result).value.s
    ensures result != JNull && (Detail(result).None? || !Truthy(Detail(result).value)) ==>
      m == "Request failed: " + IntToString(status) + " " + statusText
    ensures result == JNull ==> m == NULL_PROPERTY
    ensures (result != JNull && Detail(result).Some? && Detail(result).value.JArr? &&
             MsgsOf(Detail(result).value.items, str).Err?) ==> m == NULL_PROPERTY
    ensures (result != JNull && Detail(result).Some? && Truthy(Detail(result).value) &&
             !Detail(result).value.JArr? && !Detail(result).value.JStr?) ==> m == str(Detail(result).value)
  {
    if result == JNull then NULL_PROPERTY
    else
      match Detail(result)
      case Some(JArr(items)) =>
        (match MsgsOf(items, str)
         case Ok(msgs) => Join(msgs, "; ")
         case Err(e) => e)
      case Some(JStr(s)) => if s != "" then s else "Request failed: " + IntToString(status) + " " + statusText
      case Some(d) => if Truthy(d) then str(d) else "Request failed: " + IntToString(status) + " " + statusText
      case None => "Request failed: " + IntToString(status) + " " + statusText
  }

  const ERROR_PREFIX: string := "API error at "

  /** The message every error leaving `apiRequest` carries. */
  function Wrap(endpoint: string, message: string): string {
    ERROR_PREFIX + endpoint + ": " + message
  }

  /** Reading the inner message back out of a wrapped one. */
  function Unwrap(endpoint: string, e: string): (r: Option<string>)
    ensures r.Some? ==> e == Wrap(endpoint, r.value)
  {
    var p := ERROR_PREFIX + endpoint + ": ";
    if IsPrefix(p, e) then
      assert e == p + e[|p|..];
      Some(e[|p|..])
    else None
  }

  lemma UnwrapWrap(endpoint: string, message: string)
    ensures Unwrap(endpoint, Wrap(endpoint, message)) == Some(message)
  {
    var p := ERROR_PREFIX + endpoint + ": ";
    assert Wrap(endpoint, message)[..|p|] == p;
  }

  /** `apiRequest(endpoint, ...)` once `fetch` has settled. */
  function ApiRequest(endpoint: string, response: Response, str: Value -> string): (r: Result<Value>)
    ensures response.NetworkFailure? ==> r == Err(Wrap(endpoint, response.message))
    ensures response.Response? && response.ok ==> r == Ok(ParsedBody(response.body))
    ensures response.Response? && !response.ok ==>
      r == Err(Wrap(endpoint, ErrorMessage(ParsedBody(response.body), response.status, response.statusText, str)))
  {
    match response
    case NetworkFailure(message) => Err(Wrap(endpoint, message))
    case Response(ok, status, statusText, body) =>
      var result := ParsedBody(body);
      if !ok then Err(Wrap(endpoint, ErrorMessage(result, status, statusText, str)))
      else Ok(result)
  }

  /** Every failure names the endpoint and carries a message that can be read
      back; success is exactly an ok response, returned unchanged, with an
      empty body read as `{}`. */
  lemma ApiRequestOutcome(endpoint: string, response: Response, str: Value -> string)
    ensures ApiRequest(endpoint, response, str).Ok? <==> response.Response? && response.ok
    ensures ApiRequest(endpoint, response, str).Err? ==>
      Unwrap(endpoint, ApiRequest(endpoint, response, str).error).Some?
    ensures response.Response? && response.ok && response.body.NoText? ==>
      ApiRequest(endpoint, response, str) == Ok(JObj(map[]))
  {
    match response
    case NetworkFailure(message) => UnwrapWrap(endpoint, message);
    case Response(ok, status, statusText, body) =>
      if !ok {
        UnwrapWrap(endpoint, ErrorMessage(ParsedBody(body), status, statusText, str));
      }
  }

  // ---------------------------------------------------------------------------
  // Reading the messages back

  /** The first "; " of `x + "; " + rest` is the one after `x` when `x` holds
      none: no occurrence can straddle the boundary, because "; " starts
      with ';' and ends with ' '. */
  lemma FindAfterClean(x: string, rest: string)
    requires !Contains(x, "; ")
    ensures Find(x + "; " + rest, "; ") == Some(|x|)
  {
    var s := x + "; " + rest;
    assert OccursAt(s, "; ", |x|) by {
      assert s[|x|..|x| + 2] == "; ";
    }
    forall j | 0 <= j < |x| ensures !OccursAt(s, "; ", j) {
      NoStraddle(x, rest, j);
    }
  }

  /** No "; " starts inside `x` in `x + "; " + rest` when `x` holds none. */
  lemma NoStraddle(x: string, rest: string, j: int)
    requires !Contains(x, "; ") && 0 <= j < |x|
    ensures !OccursAt(x + "; " + rest, "; ", j)
  {
    var s := x + "; " + rest;
    if j + 2 <= |x| {
      assert s[j..j + 2] == x[j..j + 2];
      assert !OccursAt(x, "; ", j);
    } else {
      assert s[j..j + 2][1] == s[|x|] == ';';
    }
  }

  /** Splitting a joined message at "; " recovers the individual `msg`
      texts when none of them contains "; ". */
  lemma {:induction false} SplitJoinMessages(msgs: seq<string>)
    requires |msgs| > 0
    requires forall i | 0 <= i < |msgs| :: !Contains(msgs[i], "; ")
    ensures Split(Join(msgs, "; "), "; ") == msgs
  {
    if |msgs| == 1 {
      assert Join(msgs, "; ") == msgs[0];
    } else {
      var rest := Join(msgs[1..], "; ");
      SplitJoinMessages(msgs[1..]);
      FindAfterClean(msgs[0], rest);
      var s := msgs[0] + "; " + rest;
      assert Join(msgs, "; ") == s;
      assert s[|msgs[0]| + 2..] == rest;
      assert s[..|msgs[0]|] == msgs[0];
      assert Split(s, "; ") == [msgs[0]] + Split(rest, "; ");
    }
  }

  // ---------------------------------------------------------------------------
  // The parse fallback as written

  /** Stands for the message of the `ReferenceError` raised by reading the
      block-scoped `text` of the inner `try` from its `catch`, where it is out
      of scope. Its exact wording depends on the JavaScript engine; all the
      model relies on is that it is not the body text. */
  const UNBOUND_TEXT: string := "ReferenceError: text"

  /** `apiRequest` as written: the fallback for an unparseable body reads
      `text`, which is declared with `const` inside the `try` block and is not
      visible in the `catch` block, so a `ReferenceError` reaches the outer
      handler instead. All other responses behave as in `ApiRequest`. */
  function ApiRequestAsWritten(endpoint: string, response: Response, str: Value -> string): (r: Result<Value>)
    ensures response.Response? && response.body.Unparseable? ==> r == Err(Wrap(endpoint, UNBOUND_TEXT))
    ensures !(response.Response? && response.body.Unparseable?) ==> r == ApiRequest(endpoint, response, str)
  {
    if response.Response? && response.body.Unparseable? then Err(Wrap(endpoint, UNBOUND_TEXT))
    else ApiRequest(endpoint, response, str)
  }

  const PAGE: string := "Bad Gateway"

  /** A server error page that is not JSON: as written the caller sees the
      scoping error, not the page text; an ok response with such a body
      fails as written instead of returning `{detail: text}`. */
  lemma AsWrittenLosesBodyText(endpoint: string, str: Value -> string)
    ensures ApiRequestAsWritten(endpoint, Response(false, 502, PAGE, Unparseable(PAGE)), str) ==
      Err(Wrap(endpoint, UNBOUND_TEXT))
    ensures ApiRequest(endpoint, Response(false, 502, PAGE, Unparseable(PAGE)), str) ==
      Err(Wrap(endpoint, PAGE))
    ensures UNBOUND_TEXT != PAGE
    ensures ApiRequestAsWritten(endpoint, Response(true, 200, "OK", Unparseable(PAGE)), str).Err?
    ensures ApiRequest(endpoint, Response(true, 200, "OK", Unparseable(PAGE)), str) ==
      Ok(JObj(map["detail" := JStr(PAGE)]))
  {
    UnparseableErrorCarriesText(endpoint, 502, PAGE, PAGE, str);
    assert UNBOUND_TEXT[0] != PAGE[0];
  }

  /** With the fallback in scope, a failed response whose body is not JSON
      reports the body text itself. */
  lemma UnparseableErrorCarriesText(endpoint: string, status: int, statusText: string, text: string, str: Value -> string)
    requires text != ""
    ensures ApiRequest(endpoint, Response(false, status, statusText, Unparseable(text)), str) ==
      Err(Wrap(endpoint, text))
  {
    var d := ParsedBody(Unparseable(text));
    assert Detail(d) == Some(JStr(text));
  }
}

=== FILE: dietary.dfy ===
/** The dietary preferences form (frontend/src/screens/DietaryPreferencesScreen.js):
    the comma-separated allergy field, the linked vegan and vegetarian
    switches, and what "Save Preferences" sends. */
module Dietary {
  import opened Wrappers
  import opened Json
  import opened Text
  import Schemas

  const COMMA: string := ","

  /** `.map(item => item.trim())`. */
  function TrimAll(parts: seq<string>): (r: seq<string>)
    ensures |r| == |parts|
    ensures forall i | 0 <= i < |parts| :: r[i] == Strip(parts[i], JsIsSpace)
  {
    if |parts| == 0 then [] else [Strip(parts[0], JsIsSpace)] + TrimAll(parts[1..])
  }

  /** `.filter(item => item)`: drops the empty strings, keeping the order. */
  function DropEmpty(parts: seq<string>): (r: seq<string>)
    ensures |r| <= |parts|
    ensures forall i | 0 <= i < |r| :: r[i] != "" && r[i] in parts
    ensures forall i | 0 <= i < |parts| && parts[i] != "" :: parts[i] in r
  {
    if |parts| == 0 then []
    else if parts[0] == "" then DropEmpty(parts[1..])
    else [parts[0]] + DropEmpty(parts[1..])
  }

  /** `allergies.split(',').map(item => item.trim()).filter(item => item)`. */
  function ParseAllergies(text: string): (r: seq<string>)
    ensures forall i | 0 <= i < |r| :: r[i] != "" && Stripped(r[i], JsIsSpace)
  {
    DropEmpty(TrimAll(Split(text, COMMA)))
  }

  // ---------------------------------------------------------------------------
  // No allergy holds a comma

  predicate NoComma(s: string) {
    forall i | 0 <= i < |s| :: s[i] != ','
  }

  /** A one-character pattern occurs exactly where that character is. */
  lemma CommaAt(s: string, j: int)
    ensures OccursAt(s, COMMA, j) <==> 0 <= j < |s| && s[j] == ','
  {
    if 0 <= j < |s| {
      assert s[j..j + 1] == [s[j]];
    }
  }

  /** The pieces of a split at "," hold no comma. */
  lemma {:induction false} SplitNoComma(s: string)
    ensures forall i | 0 <= i < |Split(s, COMMA)| :: NoComma(Split(s, COMMA)[i])
    decreases |s|
  {
    match Find(s, COMMA)
    case None =>
      forall j | 0 <= j < |s| ensures s[j] != ',' {
        CommaAt(s, j);
      }
    case Some(k) =>
      forall j | 0 <= j < k ensures s[j] != ',' {
        CommaAt(s, j);
      }
      assert NoComma(s[..k]);
      SplitNoComma(s[k + 1..]);
  }

  lemma StripNoComma(s: string)
    requires NoComma(s)
    ensures NoComma(Strip(s, JsIsSpace))
  {
  }

  /** Every parsed allergy is free of commas. */
  lemma ParsedNoComma(text: string)
    ensures forall i | 0 <= i < |ParseAllergies(text)| :: NoComma(ParseAllergies(text)[i])
  {
    var parts := Split(text, COMMA);
    SplitNoComma(text);
    forall i | 0 <= i < |parts| ensures NoComma(TrimAll(parts)[i]) {
      StripNoComma(parts[i]);
    }
  }

  // ---------------------------------------------------------------------------
  // Round trip

  /** The first "," of `x + "," + rest` is the one after `x` when `x` has
      none. */
  lemma FindAfterComma(x: string, rest: string)
    requires NoComma(x)
    ensures Find(x + COMMA + rest, COMMA) == Some(|x|)
  {
    var s := x + COMMA + rest;
    CommaAt(s, |x|);
    forall j | 0 <= j < |x| ensures !OccursAt(s, COMMA, j) {
      CommaAt(s, j);
    }
  }

  lemma {:induction false} SplitJoinComma(xs: seq<string>)
    requires |xs| > 0
    requires forall i | 0 <= i < |xs| :: NoComma(xs[i])
    ensures Split(Join(xs, COMMA), COMMA) == xs
  {
    if |xs| == 1 {
      assert Join(xs, COMMA) == xs[0];
      forall j | 0 <= j <= |xs[0]| ensures !OccursAt(xs[0], COMMA, j) {
        CommaAt(xs[0], j);
      }
    } else {
      var rest := Join(xs[1..], COMMA);
      SplitJoinComma(xs[1..]);
      FindAfterComma(xs[0], rest);
      var s := xs[0] + COMMA + rest;
      assert Join(xs, COMMA) == s;
      assert s[|xs[0]| + 1..] == rest;
      assert s[..|xs[0]|] == xs[0];
    }
  }

  lemma {:induction false} TrimAllStripped(xs: seq<string>)
    requires forall i | 0 <= i < |xs| :: Stripped(xs[i], JsIsSpace)
    ensures TrimAll(xs) == xs
  {
    if |xs| > 0 {
      StripFixpoint(xs[0], JsIsSpace);
      TrimAllStripped(xs[1..]);
    }
  }

  lemma {:induction false} DropEmptyNone(xs: seq<string>)
    requires forall i | 0 <= i < |xs| :: xs[i] != ""
    ensures DropEmpty(xs) == xs
  {
    if |xs| > 0 {
      DropEmptyNone(xs[1..]);
    }
  }

  /** Writing a list of allergies back into the field, separated by commas,
      parses to the same list, provided each entry could have come from the
      field: non-empty, trimmed and comma-free. */
  lemma ParseJoinRoundTrip(xs: seq<string>)
    requires forall i | 0 <= i < |xs| :: xs[i] != "" && Stripped(xs[i], JsIsSpace) && NoComma(xs[i])
    ensures ParseAllergies(Join(xs, COMMA)) == xs
  {
    if |xs| == 0 {
      assert Split("", COMMA) == [""];
      assert TrimAll([""]) == [""];
    } else {
      SplitJoinComma(xs);
      TrimAllStripped(xs);
      DropEmptyNone(xs);
    }
  }

  /** Parsing is idempotent: re-entering the parsed list changes nothing. */
  lemma ParseIdempotent(text: string)
    ensures ParseAllergies(Join(ParseAllergies(text), COMMA)) == ParseAllergies(text)
  {
    ParsedNoComma(text);
    ParseJoinRoundTrip(ParseAllergies(text));
  }

  // ---------------------------------------------------------------------------
  // The switches

  datatype Switches = Switches(isVegan: bool, isVegetarian: bool)

  /** The consistency the switches keep: vegan implies vegetarian. */
  predicate Consistent(s: Switches) {
    s.isVegan ==> s.isVegetarian
  }

  /** The vegan switch: turning it on turns vegetarian on too; turning it
      off leaves vegetarian as it was. */
  function SetVegan(s: Switches, value: bool): (r: Switches)
    ensures r.isVegan == value
    ensures value ==> r.isVegetarian
    ensures !value ==> r.isVegetarian == s.isVegetarian
  {
    Switches(value, if value then true else s.isVegetarian)
  }

  /** The vegetarian switch: turning it off turns vegan off too; turning it
      on leaves vegan as it was. */
  function SetVegetarian(s: Switches, value: bool): (r: Switches)
    ensures r.isVegetarian == value
    ensures !value ==> !r.isVegan
    ensures value ==> r.isVegan == s.isVegan
  {
    Switches(if value then s.isVegan else false, value)
  }

  /** Both handlers keep the switches consistent; the vegan switch even
      restores consistency from any state. */
  lemma SwitchesStayConsistent(s: Switches, value: bool)
    ensures Consistent(SetVegan(s, value))
    ensures Consistent(s) ==> Consistent(SetVegetarian(s, value))
  {
  }

  /** Any sequence of taps from the initial (off, off) state. */
  datatype Tap = VeganTap(on: bool) | VegetarianTap(on: bool)

  function ApplyTaps(s: Switches, taps: seq<Tap>): Switches
    decreases |taps|
  {
    if |taps| == 0 then s
    else
      var next := match taps[0]
        case VeganTap(v) => SetVegan(s, v)
        case VegetarianTap(v) => SetVegetarian(s, v);
      ApplyTaps(next, taps[1..])
  }

  lemma {:induction false} TapsStayConsistent(s: Switches, taps: seq<Tap>)
    requires Consistent(s)
    ensures Consistent(ApplyTaps(s, taps))
    decreases |taps|
  {
    if |taps| > 0 {
      var next := match taps[0]
        case VeganTap(v) => SetVegan(s, v)
        case VegetarianTap(v) => SetVegetarian(s, v);
      SwitchesStayConsistent(s, taps[0].on);
      TapsStayConsistent(next, taps[1..]);
    }
  }

  // ---------------------------------------------------------------------------
  // Saving

  /** `handleSave`: refused without a user id; otherwise the preferences
      object sent to the backend. */
  function SavePreferences(userId: Value, allergies: string, s: Switches): (r: Result<Value>)
    ensures r.Ok? <==> Truthy(userId)
    ensures r.Ok? ==> r.value.JObj? && r.value.fields.Keys == {"allergies", "is_vegan", "is_vegetarian"}
    ensures r.Ok? ==> r.value.fields["is_vegan"] == JBool(s.isVegan) && r.value.fields["is_vegetarian"] == JBool(s.isVegetarian)
  {
    if !Truthy(userId) then Err("User ID is missing.")
    else
      Ok(JObj(map["allergies" := StrArray(ParseAllergies(allergies)),
                  "is_vegan" := JBool(s.isVegan), "is_vegetarian" := JBool(s.isVegetarian)]))
  }

  /** What is saved after any taps from the initial state never claims
      vegan without vegetarian, and its allergy list reads back as a list of
      strings equal to the parsed field. */
  lemma SavedPreferencesSound(userId: Value, allergies: string, taps: seq<Tap>)
    requires Truthy(userId)
    ensures var p := SavePreferences(userId, allergies, ApplyTaps(Switches(false, false), taps)).value.fields;
      && (p["is_vegan"] == JBool(true) ==> p["is_vegetarian"] == JBool(true))
      && p["allergies"].JArr?
      && Schemas.StrList(p["allergies"].items) == Ok(ParseAllergies(allergies))
  {
    TapsStayConsistent(Switches(false, false), taps);
    Schemas.StrListRoundTrip(ParseAllergies(allergies));
  }
}

=== FILE: endpoints.dfy ===
/** The request handlers of backend/main.py, reduced to their decisions:
    the database rows they read are inputs, and what they would store or
    generate is a parameter. HTTP status codes are not modelled; every
    failure is an `Err`. */
module Endpoints {
  import opened Wrappers
  import opened Json
  import opened Models
  import opened Progression
  import Seqs

  const DAYS_OF_WEEK: seq<string> := ["Monday", "Tuesday", "Wednesday", "Thursday", "Friday", "Saturday", "Sunday"]

  predicate Distinct(days: seq<string>) {
    forall i, j | 0 <= i < j < |days| :: days[i] != days[j]
  }

  lemma WeekDistinct()
    ensures Distinct(DAYS_OF_WEEK)
  {
  }

  // ---------------------------------------------------------------------------
  // get_weekly_workout: filling in and sorting the week

  /** `{workout.day for workout in weekly_workouts}`. */
  function DaysOf(ws: seq<DailyWorkout>): (r: set<string>)
    ensures forall d :: d in r <==> exists i | 0 <= i < |ws| :: ws[i].day == d
  {
    if |ws| == 0 then {}
    else
      var rest := DaysOf(ws[1..]);
      assert forall i | 1 <= i < |ws| :: ws[i] == ws[1..][i - 1];
      {ws[0].day} + rest
  }

  /** One empty workout for every day of `days` that is not `present`, in
      the order of `days`. */
  function MissingDays(days: seq<string>, present: set<string>): (r: seq<DailyWorkout>)
    ensures forall i | 0 <= i < |r| :: r[i].day in days && r[i].day !in present && r[i].exercises == []
  {
    if |days| == 0 then []
    else (if days[0] in present then [] else [DailyWorkout(days[0], [])]) + MissingDays(days[1..], present)
  }

  /** The workouts of day `d`, in their order. */
  function OfDay(ws: seq<DailyWorkout>, d: string): (r: seq<DailyWorkout>)
    ensures |r| <= |ws|
    ensures forall i | 0 <= i < |r| :: r[i].day == d && r[i] in ws
  {
    if |ws| == 0 then []
    else (if ws[0].day == d then [ws[0]] else []) + OfDay(ws[1..], d)
  }

  /** A stable sort by position in `days`: the workouts of each day in turn,
      each group in its original order. Workouts of other days are dropped
      (the source raises before it sorts them). */
  function SortByDays(ws: seq<DailyWorkout>, days: seq<string>): (r: seq<DailyWorkout>)
    ensures forall i | 0 <= i < |r| :: r[i].day in days && r[i] in ws
  {
    if |days| == 0 then [] else OfDay(ws, days[0]) + SortByDays(ws, days[1..])
  }

  /** `day_order[d]`: the position of `d` in `days`, or `|days|` if absent. */
  function IndexOf(days: seq<string>, d: string): (k: nat)
    ensures k <= |days|
    ensures k < |days| <==> d in days
    ensures k < |days| ==> days[k] == d
  {
    if |days| == 0 then 0 else if days[0] == d then 0 else 1 + IndexOf(days[1..], d)
  }

  predicate SortedByDay(ws: seq<DailyWorkout>, days: seq<string>) {
    forall i, j | 0 <= i < j < |ws| :: IndexOf(days, ws[i].day) <= IndexOf(days, ws[j].day)
  }

  predicate AllWeekdays(ws: seq<DailyWorkout>) {
    forall i | 0 <= i < |ws| :: ws[i].day in DAYS_OF_WEEK
  }

  /** Lines 121-140 of `get_weekly_workout` once the rows are decoded: no
      rows is an error; otherwise every weekday without a row gets an empty
      workout, and the list is sorted Monday to Sunday. A row whose day is
      not a weekday has no `day_order` entry, so the sort raises. */
  function FillWeek(fetched: seq<DailyWorkout>): (r: Result<seq<DailyWorkout>>)
    ensures r.Ok? <==> |fetched| > 0 && AllWeekdays(fetched)
  {
    if |fetched| == 0 then Err("No workouts found for this user in the current week")
    else if !AllWeekdays(fetched) then Err("KeyError")
    else Ok(SortByDays(fetched + MissingDays(DAYS_OF_WEEK, DaysOf(fetched)), DAYS_OF_WEEK))
  }

  lemma {:induction false} OfDayAppend(a: seq<DailyWorkout>, b: seq<DailyWorkout>, d: string)
    ensures OfDay(a + b, d) == OfDay(a, d) + OfDay(b, d)
  {
    if |a| > 0 {
      var head := if a[0].day == d then [a[0]] else [];
      assert OfDay(a + b, d) == head + OfDay(a[1..] + b, d) by {
        assert (a + b)[0] == a[0] && (a + b)[1..] == a[1..] + b;
      }
      OfDayAppend(a[1..], b, d);
      assert OfDay(a, d) == head + OfDay(a[1..], d);
    } else {
      assert a + b == b;
    }
  }

  lemma {:induction false} OfDayOfDay(ws: seq<DailyWorkout>, d: string, e: string)
    ensures OfDay(OfDay(ws, e), d) == if d == e then OfDay(ws, d) else []
  {
    if |ws| > 0 {
      OfDayOfDay(ws[1..], d, e);
      var head := if ws[0].day == e then [ws[0]] else [];
      OfDayAppend(head, OfDay(ws[1..], e), d);
    }
  }

  /** Sorting keeps every day's group exactly as it was. */
  lemma {:induction false} SortByDaysStable(ws: seq<DailyWorkout>, days: seq<string>, d: string)
    requires Distinct(days)
    ensures OfDay(SortByDays(ws, days), d) == if d in days then OfDay(ws, d) else []
  {
    if |days| > 0 {
      SortByDaysStable(ws, days[1..], d);
      OfDayAppend(OfDay(ws, days[0]), SortByDays(ws, days[1..]), d);
      OfDayOfDay(ws, d, days[0]);
      if d == days[0] {
        assert d !in days[1..];
      }
    }
  }

  lemma {:induction false} SortByDaysSorted(ws: seq<DailyWorkout>, days: seq<string>)
    requires Distinct(days)
    ensures SortedByDay(SortByDays(ws, days), days)
  {
    if |days| > 0 {
      var head, rest := OfDay(ws, days[0]), SortByDays(ws, days[1..]);
      assert Distinct(days[1..]);
      SortByDaysSorted(ws, days[1..]);
      SortedShift(rest, days);
      SortedAfterFirst(head, rest, days);
    }
  }

  /** A day listed after the first of distinct days is not the first. */
  lemma NotFirst(days: seq<string>, d: string)
    requires |days| > 0 && Distinct(days) && d in days[1..]
    ensures d != days[0] && IndexOf(days, d) == 1 + IndexOf(days[1..], d)
  {
    var k :| 0 <= k < |days[1..]| && days[1..][k] == d;
    assert days[k + 1] == d;
  }

  /** Order by the later days carries over to order by all of them. */
  lemma SortedShift(rest: seq<DailyWorkout>, days: seq<string>)
    requires |days| > 0 && Distinct(days)
    requires forall i | 0 <= i < |rest| :: rest[i].day in days[1..]
    requires SortedByDay(rest, days[1..])
    ensures SortedByDay(rest, days)
  {
    forall i, j | 0 <= i < j < |rest| ensures IndexOf(days, rest[i].day) <= IndexOf(days, rest[j].day) {
      NotFirst(days, rest[i].day);
      NotFirst(days, rest[j].day);
    }
  }

  /** The first day's workouts in front of a sorted list keep it sorted. */
  lemma SortedAfterFirst(head: seq<DailyWorkout>, rest: seq<DailyWorkout>, days: seq<string>)
    requires |days| > 0 && forall i | 0 <= i < |head| :: head[i].day == days[0]
    requires SortedByDay(rest, days)
    ensures SortedByDay(head + rest, days)
  {
    var r := head + rest;
    forall i, j | 0 <= i < j < |r| ensures IndexOf(days, r[i].day) <= IndexOf(days, r[j].day) {
      if j < |head| {
        assert r[i] == head[i] && r[j] == head[j];
      } else if i < |head| {
        assert r[i] == head[i];
      } else {
        assert r[i] == rest[i - |head|] && r[j] == rest[j - |head|];
      }
    }
  }

  lemma {:induction false} OfDayCount(ws: seq<DailyWorkout>, d: string, x: DailyWorkout)
    ensures multiset(OfDay(ws, d))[x] == if x.day == d then multiset(ws)[x] else 0
  {
    if |ws| > 0 {
      OfDayCount(ws[1..], d, x);
      Seqs.CountCons(ws, x);
      if ws[0].day == d {
        assert OfDay(ws, d) == [ws[0]] + OfDay(ws[1..], d);
        Seqs.CountCons(OfDay(ws, d), x);
      } else {
        assert OfDay(ws, d) == OfDay(ws[1..], d);
      }
    }
  }

  /** Sorting neither adds nor loses a workout of the listed days. */
  lemma {:induction false} SortByDaysCount(ws: seq<DailyWorkout>, days: seq<string>, x: DailyWorkout)
    requires Distinct(days)
    ensures multiset(SortByDays(ws, days))[x] == if x.day in days then multiset(ws)[x] else 0
  {
    if |days| > 0 {
      SortByDaysCount(ws, days[1..], x);
      OfDayCount(ws, days[0], x);
      if x.day == days[0] {
        assert x.day !in days[1..];
      }
    }
  }

  lemma {:induction false} MissingOfDay(days: seq<string>, present: set<string>, d: string)
    requires Distinct(days)
    ensures OfDay(MissingDays(days, present), d) == if d in days && d !in present then [DailyWorkout(d, [])] else []
  {
    if |days| > 0 {
      MissingOfDay(days[1..], present, d);
      var head := if days[0] in present then [] else [DailyWorkout(days[0], [])];
      OfDayAppend(head, MissingDays(days[1..], present), d);
      if d == days[0] {
        assert d !in days[1..];
      }
    }
  }

  /** A day has no workouts exactly when no row carries it. */
  lemma {:induction false} OfDayEmpty(ws: seq<DailyWorkout>, d: string)
    ensures OfDay(ws, d) == [] <==> d !in DaysOf(ws)
  {
    if |ws| > 0 {
      OfDayEmpty(ws[1..], d);
      assert d in DaysOf(ws) <==> ws[0].day == d || d in DaysOf(ws[1..]);
    }
  }

  /** What the filled week holds for each weekday: the fetched workouts of
      that day in their fetched (newest first) order when there are any,
      otherwise one workout with no exercises. */
  lemma FillWeekDays(fetched: seq<DailyWorkout>, d: string)
    requires FillWeek(fetched).Ok?
    requires d in DAYS_OF_WEEK
    ensures OfDay(FillWeek(fetched).value, d) ==
      if d in DaysOf(fetched) then OfDay(fetched, d) else [DailyWorkout(d, [])]
  {
    WeekDistinct();
    var missing := MissingDays(DAYS_OF_WEEK, DaysOf(fetched));
    SortByDaysStable(fetched + missing, DAYS_OF_WEEK, d);
    OfDayAppend(fetched, missing, d);
    MissingOfDay(DAYS_OF_WEEK, DaysOf(fetched), d);
    OfDayEmpty(fetched, d);
  }

  /** The filled week is sorted Monday to Sunday. */
  lemma FillWeekSorted(fetched: seq<DailyWorkout>)
    requires FillWeek(fetched).Ok?
    ensures SortedByDay(FillWeek(fetched).value, DAYS_OF_WEEK)
  {
    WeekDistinct();
    SortByDaysSorted(fetched + MissingDays(DAYS_OF_WEEK, DaysOf(fetched)), DAYS_OF_WEEK);
  }

  /** The filled week is a permutation of the fetched rows plus the added
      empty days, and so has their combined length. */
  lemma FillWeekPermutation(fetched: seq<DailyWorkout>)
    requires FillWeek(fetched).Ok?
    ensures multiset(FillWeek(fetched).value) == multiset(fetched + MissingDays(DAYS_OF_WEEK, DaysOf(fetched)))
    ensures |FillWeek(fetched).value| == |fetched| + |MissingDays(DAYS_OF_WEEK, DaysOf(fetched))|
  {
    WeekDistinct();
    var missing := MissingDays(DAYS_OF_WEEK, DaysOf(fetched));
    var all := fetched + missing;
    assert AllWeekdays(all) by {
      forall i | 0 <= i < |all| ensures all[i].day in DAYS_OF_WEEK {
        if i < |fetched| {
          assert all[i] == fetched[i];
        } else {
          assert all[i] == missing[i - |fetched|];
        }
      }
    }
    SortByDaysPermutation(all, DAYS_OF_WEEK);
    var r := FillWeek(fetched).value;
    assert |r| == |multiset(r)| == |multiset(all)| == |all|;
  }

  /** Sorting a list whose every day is listed is a permutation. */
  lemma SortByDaysPermutation(ws: seq<DailyWorkout>, days: seq<string>)
    requires Distinct(days)
    requires forall i | 0 <= i < |ws| :: ws[i].day in days
    ensures multiset(SortByDays(ws, days)) == multiset(ws)
  {
    forall x ensures multiset(SortByDays(ws, days))[x] == multiset(ws)[x] {
      SortByDaysCount(ws, days, x);
      if x in ws {
        var i :| 0 <= i < |ws| && ws[i] == x;
      }
    }
  }

  /** Every weekday appears in the filled week. */
  lemma FillWeekCoversWeek(fetched: seq<DailyWorkout>, d: string)
    requires FillWeek(fetched).Ok?
    requires d in DAYS_OF_WEEK
    ensures exists i | 0 <= i < |FillWeek(fetched).value| :: FillWeek(fetched).value[i].day == d
  {
    var r := FillWeek(fetched).value;
    FillWeekDays(fetched, d);
    var group := OfDay(r, d);
    OfDayEmpty(fetched, d);
    assert |group| > 0;
    var j :| 0 <= j < |r| && r[j] == group[0];
  }

  // ---------------------------------------------------------------------------
  // The user_id guard of generate_current_workout and get_or_generate_nutrition_plan

  /** `request.get('user_id')` checked by `isinstance(user_id, int)`: a
      Python `bool` is an `int`, so `true` and `false` pass as 1 and 0. */
  function UserIdOf(request: Obj): (r: Result<int>)
    ensures r.Ok? <==> "user_id" in request && (request["user_id"].JInt? || request["user_id"].JBool?)
    ensures r.Ok? && request["user_id"].JInt? ==> r.value == request["user_id"].i
  {
    match Get(request, "user_id")
    case Some(JInt(i)) => Ok(i)
    case Some(JBool(b)) => Ok(if b then 1 else 0)
    case _ => Err("Invalid user_id")
  }

  /** `generate_current_workout`: with seven or more workouts stored in the
      last seven days they are returned as stored; otherwise the freshly
      generated week is returned. */
  function CurrentWorkout(request: Obj, recentCount: int, stored: seq<DailyWorkout>,
                          generated: Result<seq<DailyWorkout>>): (r: Result<seq<DailyWorkout>>)
    ensures UserIdOf(request).Err? ==> r.Err?
    ensures UserIdOf(request).Ok? && recentCount >= 7 ==> r == Ok(stored)
    ensures UserIdOf(request).Ok? && recentCount < 7 ==> r == generated
  {
    var _ :- UserIdOf(request);
    if recentCount >= 7 then Ok(stored) else generated
  }

  /** A week already stored is returned whatever the generator would give:
      the generator is not consulted, and a request without a valid user id
      fails whatever is stored. */
  lemma CurrentWorkoutReuse(request: Obj, recentCount: int, stored: seq<DailyWorkout>,
                            g1: Result<seq<DailyWorkout>>, g2: Result<seq<DailyWorkout>>)
    ensures recentCount >= 7 ==> CurrentWorkout(request, recentCount, stored, g1) == CurrentWorkout(request, recentCount, stored, g2)
    ensures UserIdOf(request).Err? ==> CurrentWorkout(request, recentCount, stored, g1).Err?
  {
  }

  /** `get_or_generate_nutrition_plan`: a non-empty plan stored in the last
      seven days is returned; otherwise the new plan is generated. */
  function NutritionPlanRequest(request: Obj, existing: seq<Value>, generated: Result<seq<Value>>): (r: Result<seq<Value>>)
    ensures UserIdOf(request).Err? ==> r.Err?
    ensures UserIdOf(request).Ok? && |existing| > 0 ==> r == Ok(existing)
    ensures UserIdOf(request).Ok? && |existing| == 0 ==> r == generated
  {
    var _ :- UserIdOf(request);
    if |existing| > 0 then Ok(existing) else generated
  }

  // ---------------------------------------------------------------------------
  // generate_next_workout

  /** The decision of `generate_next_workout` with the regeneration it
      intends: the regenerated workout when the feedback calls for a
      modification, the slight progression of the previous workout
      otherwise. */
  function NextWorkout(feedback: DailyWorkoutFeedback, previous: DailyWorkout,
                       regenerated: Result<DailyWorkout>): (r: Result<DailyWorkout>)
    ensures NeedsModification(feedback, previous) ==> r == regenerated
    ensures !NeedsModification(feedback, previous) ==> r == ApplySlightProgression(previous)
  {
    if NeedsModification(feedback, previous) then regenerated else ApplySlightProgression(previous)
  }

  /** Without a modification the saved workout is the progression of the
      previous one, whatever a regeneration would have produced; in
      particular it keeps the day, the exercises and their order. */
  lemma NextWorkoutProgresses(feedback: DailyWorkoutFeedback, previous: DailyWorkout,
                              g1: Result<DailyWorkout>, g2: Result<DailyWorkout>)
    requires forall i | 0 <= i < |feedback.feedback| :: !Triggers(feedback.feedback[i], Prescribed(previous.exercises))
    ensures NextWorkout(feedback, previous, g1) == NextWorkout(feedback, previous, g2) == ApplySlightProgression(previous)
    ensures NextWorkout(feedback, previous, g1).Ok? ==>
      && NextWorkout(feedback, previous, g1).value.day == previous.day
      && |NextWorkout(feedback, previous, g1).value.exercises| == |previous.exercises|
  {
    NeedsModificationIff(feedback, previous);
  }

  /** The same decision as shipped: `generate_next_week_workout` is called
      but never imported into backend/main.py, so the modification branch
      raises `NameError`. */
  function NextWorkoutAsShipped(feedback: DailyWorkoutFeedback, previous: DailyWorkout): (r: Result<DailyWorkout>)
    ensures NeedsModification(feedback, previous) ==> r.Err?
    ensures !NeedsModification(feedback, previous) ==> r == ApplySlightProgression(previous)
  {
    if NeedsModification(feedback, previous) then Err("name 'generate_next_week_workout' is not defined")
    else ApplySlightProgression(previous)
  }

  /** Hard feedback makes the shipped handler fail, whatever the previous
      workout was, where the intended one returns the regenerated workout. */
  lemma AsShippedFailsOnHardFeedback(previous: DailyWorkout, f: ExerciseFeedback, regenerated: DailyWorkout)
    requires f.difficulty == 5
    ensures NextWorkoutAsShipped(DailyWorkoutFeedback(previous.day, [f]), previous).Err?
    ensures NextWorkout(DailyWorkoutFeedback(previous.day, [f]), previous, Ok(regenerated)) == Ok(regenerated)
  {
    var feedback := DailyWorkoutFeedback(previous.day, [f]);
    NeedsModificationIff(feedback, previous);
    assert Triggers(feedback.feedback[0], Prescribed(previous.exercises));
  }
}

=== FILE: equipment.dfy ===
/** The equipment pickers of onboarding
    (frontend/src/screens/onboarding/EquipmentScreen.js and
    GymEquipmentScreen.js): how a tap changes the selection and what
    "Next" forwards. */
module EquipmentPicker {
  import opened Wrappers
  import opened Json
  import opened Forms
  import opened Seqs

  /** The home picker's exclusive "No Equipment" option. */
  const NONE: string := "none"

  /** `s.filter(id => id !== x)`. */
  function Remove(s: seq<string>, x: string): (r: seq<string>)
    ensures x !in r
    ensures forall y | y != x :: y in r <==> y in s
    ensures x !in s ==> r == s
    ensures |r| <= |s|
  {
    if |s| == 0 then []
    else
      assert s == [s[0]] + s[1..];
      (if s[0] == x then [] else [s[0]]) + Remove(s[1..], x)
  }

  /** Removal works piecewise, so the remaining ids keep their order. */
  lemma {:induction false} RemoveAppend(a: seq<string>, b: seq<string>, x: string)
    ensures Remove(a + b, x) == Remove(a, x) + Remove(b, x)
  {
    if |a| == 0 {
      assert a + b == b;
    } else {
      assert (a + b)[1..] == a[1..] + b;
      RemoveAppend(a[1..], b, x);
    }
  }

  lemma {:induction false} RemoveNoDuplicates(s: seq<string>, x: string)
    requires NoDuplicates(s)
    ensures NoDuplicates(Remove(s, x))
  {
    if |s| > 0 {
      RemoveNoDuplicates(s[1..], x);
      assert s[0] !in s[1..];
      assert s[0] !in Remove(s[1..], x);
    }
  }

  // ---------------------------------------------------------------------------
  // Home equipment: `toggleEquipment` with an exclusive "none"

  function ToggleHome(prev: seq<string>, id: string): (r: seq<string>)
    ensures id == NONE ==> r == [NONE]
    ensures id != NONE && NONE in prev ==> r == [id]
    ensures |r| > 0
    ensures NONE in r ==> r == [NONE]
  {
    if id == NONE then [NONE]
    else
      var next := if NONE in prev then [id]
                  else if id in prev then Remove(prev, id)
                  else prev + [id];
      if |next| == 0 then [NONE] else Remove(next, NONE)
  }

  /** The selections the home picker can be in: no id twice, and "none"
      only on its own. The initial empty selection is one of them. */
  predicate HomeSelection(s: seq<string>) {
    NoDuplicates(s) && (NONE in s ==> s == [NONE])
  }

  /** Every tap keeps the selection well formed. */
  lemma ToggleHomeKeepsSelection(prev: seq<string>, id: string)
    requires HomeSelection(prev)
    ensures HomeSelection(ToggleHome(prev, id))
  {
    if id != NONE && NONE !in prev {
      if id in prev {
        RemoveNoDuplicates(prev, id);
      } else {
        assert NoDuplicates(prev + [id]);
      }
    }
  }

  /** Without "none" selected, a tap on an item flips exactly that item:
      it is selected afterwards iff it was not before, every other id keeps
      its state, and deselecting the last item selects "none". */
  lemma ToggleHomeFlips(prev: seq<string>, id: string)
    requires HomeSelection(prev)
    requires id != NONE && NONE !in prev
    ensures var r := ToggleHome(prev, id);
      && (id in r <==> id !in prev)
      && (forall y | y != id && y != NONE :: y in r <==> y in prev)
      && (NONE in r <==> prev == [id])
  {
    var r := ToggleHome(prev, id);
    if id in prev {
      if Remove(prev, id) == [] {
        assert forall y | y in prev :: y == id;
        assert prev[0] == id;
        assert |prev| == 1;
      } else {
        assert prev != [id];
      }
    } else {
      assert prev + [id] != [];
    }
  }

  /** Tapping an unselected item twice restores the selection, except that
      the empty start becomes "none". */
  lemma ToggleHomeTwice(prev: seq<string>, id: string)
    requires id != NONE && NONE !in prev && id !in prev
    ensures ToggleHome(ToggleHome(prev, id), id) == if prev == [] then [NONE] else prev
  {
    var once := ToggleHome(prev, id);
    assert once == prev + [id];
    RemoveAppend(prev, [id], id);
    assert Remove([id], id) == [];
    assert Remove(once, id) == prev;
  }

  // ---------------------------------------------------------------------------
  // Gym equipment: a plain multi-select

  function ToggleGym(prev: seq<string>, id: string): (r: seq<string>)
    ensures id in r <==> id !in prev
    ensures forall y | y != id :: y in r <==> y in prev
  {
    if id in prev then Remove(prev, id) else prev + [id]
  }

  /** Tapping an unselected id twice restores the selection exactly. */
  lemma ToggleGymTwice(prev: seq<string>, id: string)
    requires id !in prev
    ensures ToggleGym(ToggleGym(prev, id), id) == prev
  {
    RemoveAppend(prev, [id], id);
    assert Remove([id], id) == [];
  }

  /** Removing an id that occurs only at position `i` takes out exactly that
      position. */
  lemma RemoveAt(s: seq<string>, i: int)
    requires 0 <= i < |s| && s[i] !in s[..i] && s[i] !in s[i + 1..]
    ensures Remove(s, s[i]) == s[..i] + s[i + 1..]
  {
    Around(s, i);
    RemoveMiddle(s[..i], s[i], s[i + 1..]);
  }

  /** Removing an id that occurs once, between `a` and `b`, leaves `a + b`. */
  lemma RemoveMiddle(a: seq<string>, x: string, b: seq<string>)
    requires x !in a && x !in b
    ensures Remove(a + ([x] + b), x) == a + b
  {
    assert Remove([x], x) == [];
    calc {
      Remove(a + ([x] + b), x);
      { RemoveAppend(a, [x] + b, x); }
      Remove(a, x) + Remove([x] + b, x);
      { RemoveAppend([x], b, x); }
      a + ([] + b);
      a + b;
    }
  }

  /** In a duplicate-free list an id occurs at one position only. */
  lemma NoDuplicatesApart(s: seq<string>, i: int)
    requires NoDuplicates(s) && 0 <= i < |s|
    ensures s[i] !in s[..i] && s[i] !in s[i + 1..]
  {
  }

  /** A duplicate-free selection stays duplicate-free; a tap on a selected
      id takes out just that position, so the others keep their order, and
      a tap on a new id puts it last. */
  lemma ToggleGymShape(prev: seq<string>, id: string)
    requires NoDuplicates(prev)
    ensures NoDuplicates(ToggleGym(prev, id))
    ensures id !in prev ==> ToggleGym(prev, id) == prev + [id]
    ensures forall i | 0 <= i < |prev| && prev[i] == id ::
      ToggleGym(prev, id) == prev[..i] + prev[i + 1..]
  {
    if id in prev {
      RemoveNoDuplicates(prev, id);
      forall i | 0 <= i < |prev| && prev[i] == id
        ensures ToggleGym(prev, id) == prev[..i] + prev[i + 1..]
      {
        NoDuplicatesApart(prev, i);
        RemoveAt(prev, i);
      }
    } else {
      assert NoDuplicates(prev + [id]);
    }
  }

  // ---------------------------------------------------------------------------
  // "Next"

  /** `handleNext` of both pickers: an empty selection is refused, otherwise
      the collected profile goes on to the goal screen with `equipment` set
      to the selection and every other field kept. */
  function ForwardEquipment(selected: seq<string>, userData: Option<Obj>): (r: Result<Nav>)
    ensures r.Ok? <==> |selected| > 0
    ensures r.Ok? ==> r.value.route == FitnessGoal
    ensures r.Ok? ==> r.value.userData.Keys == SpreadOpt(userData).Keys + {"equipment"}
    ensures r.Ok? ==> r.value.userData["equipment"] == StrArray(selected)
    ensures r.Ok? ==> forall k | k in SpreadOpt(userData) && k != "equipment" ::
      r.value.userData[k] == SpreadOpt(userData)[k]
  {
    if |selected| == 0 then Err("Selection Required")
    else Ok(Nav(FitnessGoal, Spread(SpreadOpt(userData), map["equipment" := StrArray(selected)])))
  }

  /** On the home picker a single tap is enough for "Next" to go through:
      only the untouched start is refused. */
  lemma HomeNextAfterTap(prev: seq<string>, id: string, userData: Option<Obj>)
    ensures ForwardEquipment(ToggleHome(prev, id), userData).Ok?
  {
  }
}

=== FILE: exercise_screen.dfy ===
/** Logging one exercise (frontend/src/screens/ExerciseScreen.js): the checks
    of `handleDone`, the feedback record it submits, and where the screen
    goes after a successful submission. */
module ExerciseScreen {
  import opened Wrappers
  import opened Json
  import opened Forms
  import opened Models
  import opened Schemas
  import Seqs

  /** The five fields of the feedback form. */
  datatype FeedbackForm = FeedbackForm(sets: Input, reps: Input, difficulty: Input, notes: string, soreness: Input)

  const INVALID_NUMBERS: string := "Please enter valid numbers for sets, reps, and difficulty (1-5)."
  const OUT_OF_RANGE: string := "Difficulty and soreness must be between 1 and 5."
  const DAY_MISSING: string := "Workout day is missing. Please try again."
  const USER_MISSING: string := "User ID is missing. Please log in again."

  /** Sets, reps and difficulty are filled and numeric. */
  predicate NumbersGiven(f: FeedbackForm) {
    f.sets.Numeric? && f.reps.Numeric? && f.difficulty.Numeric?
  }

  /** Difficulty, and soreness when given, lie in 1..5 after `parseInt`. */
  predicate InRange(f: FeedbackForm)
    requires NumbersGiven(f)
  {
    && 1 <= Trunc(f.difficulty.value) <= 5
    && (Filled(f.soreness) ==> f.soreness.Numeric? && 1 <= Trunc(f.soreness.value) <= 5)
  }

  /** `parseInt(reps_completed) || 'AMRAP'`: zero repetitions are recorded as
      "as many as possible". */
  function RecordedReps(v: real): (r: Reps)
    ensures r.Amrap? <==> Trunc(v) == 0
    ensures r.Count? ==> r.n == Trunc(v) && r.n != 0
  {
    if Trunc(v) == 0 then Amrap else Count(Trunc(v))
  }

  /** `handleDone` up to the submission: the checks in order, then the
      day's feedback with this one exercise. `day` is `workout?.day` and
      `userId` the id loaded from storage (`None` while missing); a day or an
      id that is falsy stops the submission. */
  function HandleDone(form: FeedbackForm, name: string, day: Option<string>, userId: Option<int>): (r: Result<DailyWorkoutFeedback>)
    ensures r == Err(INVALID_NUMBERS) <==> !NumbersGiven(form)
    ensures r.Ok? <==> && NumbersGiven(form) && InRange(form)
                       && day.Some? && day.value != "" && userId.Some? && userId.value != 0
    ensures r.Ok? ==> r.value.day == day.value && |r.value.feedback| == 1
    ensures r.Ok? ==>
      var e := r.value.feedback[0];
      && e.name == name
      && e.setsCompleted == Trunc(form.sets.value)
      && e.repsCompleted == RecordedReps(form.reps.value)
      && e.difficulty == Trunc(form.difficulty.value)
      && (e.notes.None? <==> form.notes == "") && (e.notes.Some? ==> e.notes.value == form.notes)
      && (e.sorenessLevel.None? <==> !Filled(form.soreness))
      && (e.sorenessLevel.Some? ==> e.sorenessLevel.value == Trunc(form.soreness.value))
  {
    if !NumbersGiven(form) then Err(INVALID_NUMBERS)
    else if !InRange(form) then Err(OUT_OF_RANGE)
    else if day.None? || day.value == "" then Err(DAY_MISSING)
    else if userId.None? || userId.value == 0 then Err(USER_MISSING)
    else
      var entry := ExerciseFeedback(
        name,
        Trunc(form.sets.value),
        RecordedReps(form.reps.value),
        Trunc(form.difficulty.value),
        if form.notes == "" then None else Some(form.notes),
        if Filled(form.soreness) then Some(Trunc(form.soreness.value)) else None);
      Ok(DailyWorkoutFeedback(day.value, [entry]))
  }

  /** `feedbackData` as the screen writes it, key by key. */
  function FeedbackPayload(d: DailyWorkoutFeedback): Value
    requires |d.feedback| == 1
  {
    var e := d.feedback[0];
    JObj(map[
      "day" := JStr(d.day),
      "feedback" := JArr([JObj(map[
        "name" := JStr(e.name),
        "sets_completed" := JInt(e.setsCompleted),
        "reps_completed" := if e.repsCompleted.Amrap? then JStr("AMRAP") else JInt(e.repsCompleted.n),
        "difficulty" := JInt(e.difficulty),
        "notes" := if e.notes.Some? then JStr(e.notes.value) else JNull,
        "soreness_level" := if e.sorenessLevel.Some? then JInt(e.sorenessLevel.value) else JNull])])])
  }

  /** Whatever the screen lets through, the backend's feedback schema
      accepts, and it reads back exactly the record the screen built. */
  lemma SubmittedFeedbackAccepted(form: FeedbackForm, name: string, day: Option<string>, userId: Option<int>)
    requires HandleDone(form, name, day, userId).Ok?
    ensures var d := HandleDone(form, name, day, userId).value;
      && ValidDailyFeedback(d)
      && ValidateDailyWorkoutFeedback(FeedbackPayload(d)) == Ok(d)
  {
    var d := HandleDone(form, name, day, userId).value;
    assert ValidFeedback(d.feedback[0]);
    assert ValidDailyFeedback(d);
    var e := d.feedback[0];
    assert RepsToJson(e.repsCompleted) == (if e.repsCompleted.Amrap? then JStr("AMRAP") else JInt(e.repsCompleted.n));
    assert ExerciseFeedbackToDict(e) == FeedbackPayload(d).fields["feedback"].items[0];
    assert Seqs.Map(d.feedback, ExerciseFeedbackToDict) == [ExerciseFeedbackToDict(e)];
    assert DailyWorkoutFeedbackToDict(d) == FeedbackPayload(d);
    DailyFeedbackRoundTrip(d);
  }

  // ---------------------------------------------------------------------------
  // After the submission

  datatype Step = Advance(next: int) | Complete

  /** Move on to the next exercise while there is one; after the last, the
      workout is complete. */
  function NextStep(index: int, count: int): (s: Step)
    ensures s.Advance? <==> index < count - 1
    ensures s.Advance? ==> s.next == index + 1
  {
    if index < count - 1 then Advance(index + 1) else Complete
  }

  /** How many submissions the screen takes from `index` to completion. */
  function Submissions(index: int, count: int): nat
    requires 0 <= index < count
    decreases count - index
  {
    match NextStep(index, count)
    case Complete => 1
    case Advance(next) => 1 + Submissions(next, count)
  }

  /** Starting at any exercise, the screen asks for feedback on every later
      exercise once and then completes: from the first of `count` exercises
      that is exactly `count` submissions. */
  lemma {:induction false} SubmissionsVisitAll(index: int, count: int)
    requires 0 <= index < count
    ensures Submissions(index, count) == count - index
    decreases count - index
  {
    if index < count - 1 {
      SubmissionsVisitAll(index + 1, count);
    }
  }
}

=== FILE: fences.dfy ===
/** Reading the language model's reply (backend/workout_generator.py,
    `generate_workout` and `generate_next_week_workout` after the model call):
    the Markdown code fence is cut away, and the decoded days are rebuilt
    with every weight snapped by `round_to_standard_weight`. The model call
    and `json.loads` themselves are not part of this model; the decoded JSON
    is taken as input. */
module Fences {
  import opened Wrappers
  import opened Text
  import opened Json
  import opened Models
  import opened Weights

  const FENCE: string := "```"
  const JSON_FENCE: string := "```json"

  /** The text before the first `sep`, or all of it (`s.split(sep)[0]`). */
  function UpTo(s: string, sep: string): (r: string)
    requires |sep| > 0
    ensures r == Split(s, sep)[0]
    ensures |r| <= |s| && r == s[..|r|]
    ensures Contains(s, sep) ==> OccursAt(s, sep, |r|)
    ensures !Contains(s, sep) ==> r == s
  {
    s[..FirstCut(s, sep)]
  }

  /** An occurrence inside a prefix is an occurrence that ends inside it. */
  lemma OccursInPrefix(s: string, pat: string, k: nat, j: int)
    requires k <= |s|
    ensures OccursAt(s[..k], pat, j) <==> OccursAt(s, pat, j) && j + |pat| <= k
  {
    if 0 <= j && j + |pat| <= k {
      assert s[..k][j..j + |pat|] == s[j..j + |pat|];
    }
  }

  /** Where a prefix is cut: at the first occurrence of `pat` in the whole
      string if that occurrence fits inside the prefix, otherwise nowhere. */
  lemma FirstCutOfPrefix(s: string, pat: string, k: nat)
    requires |pat| > 0 && k <= |s|
    ensures FirstCut(s[..k], pat) ==
      (if FirstCut(s, pat) + |pat| <= k then FirstCut(s, pat) else k)
  {
    var p := FirstCut(s, pat);
    forall j | 0 <= j <= k
      ensures OccursAt(s[..k], pat, j) <==> OccursAt(s, pat, j) && j + |pat| <= k
    {
      OccursInPrefix(s, pat, k, j);
    }
    if p + |pat| <= k {
      assert Find(s, pat) == Some(p);
      assert OccursAt(s[..k], pat, p);
    } else {
      assert Find(s[..k], pat) == None;
    }
  }

  /** The part of the text after a "```json" marker that is kept: up to the
      next fence, unless another "```json" starts first, in which case up to
      that marker. */
  function JsonSlice(after: string): (r: string)
    ensures |r| <= |after| && r == after[..|r|]
  {
    var p, k := FirstCut(after, FENCE), FirstCut(after, JSON_FENCE);
    after[..if p + |FENCE| <= k then p else k]
  }

  /** What `text.split("```json")[1].split("```")[0]` selects. */
  lemma JsonPiece(text: string, i: nat)
    requires Find(text, JSON_FENCE) == Some(i)
    ensures |Split(text, JSON_FENCE)| >= 2
    ensures Split(Split(text, JSON_FENCE)[1], FENCE)[0] == JsonSlice(text[i + |JSON_FENCE|..])
  {
    var after := text[i + |JSON_FENCE|..];
    var k := FirstCut(after, JSON_FENCE);
    SplitSecond(text, JSON_FENCE, i);
    FirstCutOfPrefix(after, FENCE, k);
  }

  /** What `text.split("```")[1].split("```")[0]` selects. */
  lemma FencePiece(text: string, i: nat)
    requires Find(text, FENCE) == Some(i)
    ensures |Split(text, FENCE)| >= 2
    ensures Split(Split(text, FENCE)[1], FENCE)[0] == UpTo(text[i + |FENCE|..], FENCE)
  {
    var after := text[i + |FENCE|..];
    SplitSecond(text, FENCE, i);
    FirstCutOfPrefix(after, FENCE, FirstCut(after, FENCE));
  }

  /** A "```json" marker is itself a fence. */
  lemma JsonFenceIsFence(text: string)
    ensures Contains(text, JSON_FENCE) ==> Contains(text, FENCE)
  {
    if Contains(text, JSON_FENCE) {
      var i := Find(text, JSON_FENCE).value;
      assert text[i..i + |FENCE|] == text[i..i + |JSON_FENCE|][..|FENCE|];
      assert OccursAt(text, FENCE, i);
    }
  }

  /** The fence stripping of the reply text: `text.split("```json")[1].split("```")[0].strip()`
      when a "```json" marker is present, `text.split("```")[1].split("```")[0].strip()`
      when only a plain fence is, and the text as it is otherwise. The body
      finds the same piece by position. */
  function StripFences(text: string): (r: string)
    ensures !Contains(text, FENCE) ==> r == text
    ensures Contains(text, JSON_FENCE) ==>
      && |Split(text, JSON_FENCE)| >= 2
      && r == Strip(Split(Split(text, JSON_FENCE)[1], FENCE)[0], PyIsSpace)
    ensures !Contains(text, JSON_FENCE) && Contains(text, FENCE) ==>
      && |Split(text, FENCE)| >= 2
      && r == Strip(Split(Split(text, FENCE)[1], FENCE)[0], PyIsSpace)
  {
    JsonFenceIsFence(text);
    match Find(text, JSON_FENCE)
    case Some(i) =>
      JsonPiece(text, i);
      Strip(JsonSlice(text[i + |JSON_FENCE|..]), PyIsSpace)
    case None =>
      match Find(text, FENCE)
      case Some(i) =>
        FencePiece(text, i);
        Strip(UpTo(text[i + |FENCE|..], FENCE), PyIsSpace)
      case None => text
  }

  /** With a single "```json" marker, the payload is the stripped text between
      the marker and the next fence (or the end of the text). */
  lemma StripJsonFence(text: string, i: nat)
    requires Find(text, JSON_FENCE) == Some(i)
    requires !Contains(text[i + |JSON_FENCE|..], JSON_FENCE)
    ensures StripFences(text) == Strip(UpTo(text[i + |JSON_FENCE|..], FENCE), PyIsSpace)
  {
    PieceWithoutSecondJson(text[i + |JSON_FENCE|..]);
  }

  /** Without a second "```json", the piece after the marker ends at the
      next fence or at the end of the text. */
  lemma PieceWithoutSecondJson(after: string)
    requires !Contains(after, JSON_FENCE)
    ensures JsonSlice(after) == UpTo(after, FENCE)
  {
    var p, k := FirstCut(after, FENCE), FirstCut(after, JSON_FENCE);
    assert k == |after|;
    assert p + |FENCE| <= k || p == k by {
      if p < |after| {
        assert OccursAt(after, FENCE, p);
      }
    }
  }

  // ---------------------------------------------------------------------------
  // Rebuilding the decoded days

  /** `Exercise(name=ex["name"], sets=ex["sets"], reps=ex["reps"],
      weight=round_to_standard_weight(ex["weight"], ex["name"]))`. A missing
      key is a `KeyError`; a name that is not a string cannot be searched
      and a weight that is not a string has no `replace`, so both raise. */
  function DecodeExercise(v: Value): (r: Result<Exercise>)
    ensures r.Ok? ==> v.JObj? && "weight" in v.fields && v.fields["weight"].JStr?
    ensures r.Ok? ==> {"name", "sets", "reps"} <= v.fields.Keys
    ensures r.Ok? ==> v.fields["name"] == JStr(r.value.name) && v.fields["sets"] == JInt(r.value.sets)
    ensures r.Ok? ==> v.fields["reps"] == RepsToJson(r.value.reps)
    ensures r.Ok? ==> (r.value.weight.Some? &&
      RoundToStandardWeight(v.fields["weight"].s, r.value.name) == Ok(r.value.weight.value))
  {
    if !v.JObj? then Err("indices must be integers")
    else
      var o := v.fields;
      if !("name" in o && "sets" in o && "reps" in o && "weight" in o) then Err("KeyError")
      else if !o["name"].JStr? || !o["sets"].JInt? || !RepsShaped(o["reps"]) then Err("unsupported value")
      else
        var reps :- RepsFromJson(o["reps"]);
        if o["weight"].JStr? && o["weight"].s in SENTINELS then
          Ok(Exercise(o["name"].s, o["sets"].i, reps, Some(o["weight"].s)))
        else if !o["weight"].JStr? then Err("'weight' has no attribute 'replace'")
        else
          var w :- RoundToStandardWeight(o["weight"].s, o["name"].s);
          Ok(Exercise(o["name"].s, o["sets"].i, reps, Some(w)))
  }

  function DecodeExercises(items: seq<Value>): (r: Result<seq<Exercise>>)
    ensures r.Ok? ==> |r.value| == |items|
    ensures r.Ok? ==> forall i | 0 <= i < |items| :: DecodeExercise(items[i]) == Ok(r.value[i])
  {
    if |items| == 0 then Ok([])
    else
      var e :- DecodeExercise(items[0]);
      var rest :- DecodeExercises(items[1..]);
      Ok([e] + rest)
  }

  /** What `for x in v` walks over when every element is then indexed by a
      key: the elements of a list, nothing for an empty object or an empty
      string. A non-empty object or string yields keys or characters, which
      cannot be indexed by a key, and any other value is not iterable. */
  function Iterate(v: Value): (r: Result<seq<Value>>)
    ensures v.JArr? ==> r == Ok(v.items)
    ensures (v == JObj(map[]) || v == JStr("")) ==> r == Ok([])
    ensures r.Ok? ==> v.JArr? || r.value == []
  {
    match v
    case JArr(items) => Ok(items)
    case JObj(fields) => if |fields| == 0 then Ok([]) else Err("string indices must be integers")
    case JStr(s) => if s == "" then Ok([]) else Err("string indices must be integers")
    case _ => Err("object is not iterable")
  }

  /** `DailyWorkout(day=d["day"], exercises=[... for ex in d["exercises"]])`:
      the exercises are walked first, then the day is read. */
  function DecodeDay(v: Value): (r: Result<DailyWorkout>)
    ensures r.Ok? ==> v.JObj? && "day" in v.fields && v.fields["day"] == JStr(r.value.day)
    ensures r.Ok? ==> "exercises" in v.fields && Iterate(v.fields["exercises"]).Ok?
    ensures v.JObj? && "day" in v.fields && v.fields["day"].JStr? && "exercises" in v.fields
            && (v.fields["exercises"] == JObj(map[]) || v.fields["exercises"] == JStr("")) ==>
              r == Ok(DailyWorkout(v.fields["day"].s, []))
  {
    if !v.JObj? then Err("indices must be integers")
    else if "exercises" !in v.fields then Err("KeyError: 'exercises'")
    else
      var items :- Iterate(v.fields["exercises"]);
      var exs :- DecodeExercises(items);
      if "day" in v.fields && v.fields["day"].JStr? then Ok(DailyWorkout(v.fields["day"].s, exs))
      else Err("KeyError: 'day'")
  }

  function DecodeDays(items: seq<Value>): (r: Result<seq<DailyWorkout>>)
    ensures r.Ok? ==> |r.value| == |items|
    ensures r.Ok? ==> forall i | 0 <= i < |items| :: DecodeDay(items[i]) == Ok(r.value[i])
  {
    if |items| == 0 then Ok([])
    else
      var d :- DecodeDay(items[0]);
      var rest :- DecodeDays(items[1..]);
      Ok([d] + rest)
  }

  /** `for workout_data in weekly_workouts_data`, each element indexed by
      "exercises" and "day". */
  function DecodeWeek(v: Value): (r: Result<seq<DailyWorkout>>)
    ensures v.JArr? && r.Ok? ==> |r.value| == |v.items|
    ensures (v == JObj(map[]) || v == JStr("")) ==> r == Ok([])
    ensures r.Ok? ==> Iterate(v).Ok? && |r.value| == |Iterate(v).value|
  {
    var items :- Iterate(v);
    DecodeDays(items)
  }

  /** Every weight the generator returns is already standard: rounding it
      again gives it back unchanged. */
  lemma DecodedWeightsStandard(v: Value)
    requires DecodeWeek(v).Ok?
    ensures forall d, e | d in DecodeWeek(v).value && e in d.exercises ::
      e.weight.Some? && RoundToStandardWeight(e.weight.value, e.name) == Ok(e.weight.value)
  {
    forall d, e | d in DecodeWeek(v).value && e in d.exercises
      ensures e.weight.Some? && RoundToStandardWeight(e.weight.value, e.name) == Ok(e.weight.value)
    {
      var days := DecodeWeek(v).value;
      var i :| 0 <= i < |days| && days[i] == d;
      var items := Iterate(v).value;
      var day := items[i];
      var exItems := Iterate(day.fields["exercises"]).value;
      var j :| 0 <= j < |d.exercises| && d.exercises[j] == e;
      assert DecodeExercise(exItems[j]) == Ok(e);
      RoundIdempotent(exItems[j].fields["weight"].s, e.name);
    }
  }
}

=== FILE: forms.dfy ===
/** What the frontend screens share: the content of a text field as
    JavaScript's coercions see it, `parseInt` truncation, the stored user id,
    and the navigation a screen ends in. */
module Forms {
  import opened Wrappers
  import opened Json

  /** A text field: empty (falsy, and `isNaN("")` is false), text that
      `isNaN` rejects, or text whose numeric value is `value`. `parseFloat`
      of a numeric field is taken to be that same value. */
  datatype Input = Blank | NonNumeric | Numeric(value: real)

  /** `!!field`: every non-empty string, "0" included, is truthy. */
  predicate Filled(i: Input) {
    !i.Blank?
  }

  /** `parseInt` of a numeric field: its value truncated toward zero. */
  function Trunc(r: real): (n: int)
    ensures r >= 0.0 ==> n as real <= r < n as real + 1.0
    ensures r < 0.0 ==> n as real - 1.0 < r <= n as real
  {
    if r >= 0.0 then r.Floor else -((-r).Floor)
  }

  /** Where a screen sends the user next; `GoBack` is `navigation.goBack()`. */
  datatype Route = BodyFat | ExperienceLevel | FitnessGoal | GymEquipment | Equipment | GoBack

  datatype Nav = Nav(route: Route, userData: Obj)

  /** Reading `user_id` from storage: a missing or empty entry, or one that
      `parseInt` cannot read (`parseInt` is the parameter, `None` for NaN),
      is refused. */
  function LoadUserId(stored: Option<string>, parseInt: string -> Option<int>): (r: Result<int>)
    ensures r.Ok? <==> stored.Some? && stored.value != "" && parseInt(stored.value).Some?
    ensures r.Ok? ==> r.value == parseInt(stored.value).value
  {
    match stored
    case None => Err("Invalid or missing user ID")
    case Some(s) =>
      if s == "" then Err("Invalid or missing user ID")
      else
        match parseInt(s)
        case None => Err("Invalid or missing user ID")
        case Some(n) => Ok(n)
  }
}

=== FILE: home.dfy ===
/** The home screen's start-up (`checkAuth` and `loadData` in
    frontend/src/screens/HomeScreen.js): who is logged in, and which of the
    week's workouts is shown as today's. Storage reads and the clock are
    inputs. */
module Home {
  import opened Wrappers
  import opened Forms
  import opened Models

  /** `new Date().getDay()` indexes this list: Sunday is day 0. */
  const WEEKDAYS: seq<string> := ["Sunday", "Monday", "Tuesday", "Wednesday", "Thursday", "Friday", "Saturday"]

  /** A workout that can be shown as today's: for today, with exercises. */
  predicate ForToday(w: DailyWorkout, today: string) {
    w.day == today && |w.exercises| > 0
  }

  /** `response.find(workout => workout.day === today && workout.exercises.length > 0)`
      as a position. */
  function FindToday(ws: seq<DailyWorkout>, today: string): (r: Option<nat>)
    ensures r.Some? ==> r.value < |ws| && ForToday(ws[r.value], today)
    ensures r.Some? ==> forall j | 0 <= j < r.value :: !ForToday(ws[j], today)
    ensures r.None? <==> forall j | 0 <= j < |ws| :: !ForToday(ws[j], today)
  {
    if |ws| == 0 then None
    else if ForToday(ws[0], today) then Some(0)
    else
      match FindToday(ws[1..], today)
      case None => None
      case Some(k) => Some(k + 1)
  }

  /** `find(...) || response[0]`: today's first workout with exercises, or
      else the first workout of the list; nothing only for an empty list. */
  function TodayWorkout(ws: seq<DailyWorkout>, today: string): (r: Option<DailyWorkout>)
    ensures r.None? <==> |ws| == 0
    ensures r.Some? ==> r.value in ws
    ensures r.Some? ==> (ForToday(r.value, today) <==> exists j | 0 <= j < |ws| :: ForToday(ws[j], today))
    ensures (forall j | 0 <= j < |ws| :: !ForToday(ws[j], today)) && |ws| > 0 ==> r == Some(ws[0])
  {
    match FindToday(ws, today)
    case Some(k) => Some(ws[k])
    case None => if |ws| == 0 then None else Some(ws[0])
  }

  /** A shown workout that is today's comes before every other workout of
      today that has exercises. */
  lemma TodayWorkoutIsFirst(ws: seq<DailyWorkout>, today: string)
    requires TodayWorkout(ws, today).Some? && ForToday(TodayWorkout(ws, today).value, today)
    ensures exists k | 0 <= k < |ws| ::
      (ws[k] == TodayWorkout(ws, today).value && forall j | 0 <= j < k :: !ForToday(ws[j], today))
  {
    var k := FindToday(ws, today).value;
    assert ws[k] == TodayWorkout(ws, today).value;
  }

  datatype HomeOutcome =
    | NotLoggedIn
    | LoadFailed(message: string)
    | Loaded(userId: int, workout: DailyWorkout)

  /** `checkAuth` then `loadData`: nothing happens unless `isLoggedIn` is
      exactly "true"; a missing or unreadable user id, a failed request
      (`response`) or an empty list of workouts shows an error; otherwise
      the id and today's workout are kept. */
  function HomeLoad(isLoggedIn: Option<string>, storedUserId: Option<string>, parseInt: string -> Option<int>,
                    response: Result<seq<DailyWorkout>>, weekday: int): (r: HomeOutcome)
    requires 0 <= weekday < 7
    ensures r.NotLoggedIn? <==> isLoggedIn != Some("true")
    ensures r.Loaded? <==> && isLoggedIn == Some("true")
                           && LoadUserId(storedUserId, parseInt).Ok?
                           && response.Ok? && |response.value| > 0
    ensures r.Loaded? ==> && r.userId == LoadUserId(storedUserId, parseInt).value
                          && r.workout in response.value
                          && (ForToday(r.workout, WEEKDAYS[weekday]) <==>
                                exists j | 0 <= j < |response.value| :: ForToday(response.value[j], WEEKDAYS[weekday]))
  {
    if isLoggedIn != Some("true") then NotLoggedIn
    else
      match LoadUserId(storedUserId, parseInt)
      case Err(_) => LoadFailed("Invalid or missing user ID. Please complete onboarding.")
      case Ok(id) =>
        match response
        case Err(e) => LoadFailed(e)
        case Ok(ws) =>
          match TodayWorkout(ws, WEEKDAYS[weekday])
          case None => LoadFailed("No workout available for today.")
          case Some(w) => Loaded(id, w)
  }
}

=== FILE: json.dfy ===
/** JSON-shaped values exchanged between the mobile client and the backend:
    Python dicts from `dict()` serialisers, request bodies, parsed responses and
    the plain JavaScript objects the screens pass to each other. Integers and
    reals are kept apart because Python distinguishes `int` from `float`. */
module Json {
  import opened Wrappers

  datatype Value =
    | JNull
    | JBool(b: bool)
    | JInt(i: int)
    | JNum(r: real)
    | JStr(s: string)
    | JArr(items: seq<Value>)
    | JObj(fields: map<string, Value>)

  /** A JavaScript object / Python dict with string keys. */
  type Obj = map<string, Value>

  /** Property access: `None` stands for a missing key (`undefined`). */
  function Get(o: Obj, key: string): Option<Value> {
    if key in o then Some(o[key]) else None
  }

  /** A number with no fractional part. */
  predicate Whole(x: real) {
    x == x.Floor as real
  }

  /** An `int` field in pydantic's lax mode: an integer, or a float with no
      fractional part, which it reads as that integer. */
  function LaxInt(v: Value): (r: Result<int>)
    ensures r.Ok? <==> v.JInt? || (v.JNum? && Whole(v.r))
    ensures r.Ok? ==> v == JInt(r.value) || v == JNum(r.value as real)
  {
    match v
    case JInt(n) => Ok(n)
    case JNum(x) => if Whole(x) then Ok(x.Floor) else Err("fractional part")
    case _ => Err("integer required")
  }

  /** An integer written either way reads back as itself. */
  lemma LaxIntReadsBack(n: int)
    ensures LaxInt(JInt(n)) == Ok(n) && LaxInt(JNum(n as real)) == Ok(n)
  {
  }

  /** JavaScript truthiness of a present value. */
  predicate Truthy(v: Value) {
    match v
    case JNull => false
    case JBool(b) => b
    case JInt(i) => i != 0
    case JNum(r) => r != 0.0
    case JStr(s) => s != ""
    case JArr(_) => true
    case JObj(_) => true
  }

  /** Truthiness of `o[key]`, where a missing key reads as `undefined`. */
  predicate PropTruthy(o: Obj, key: string) {
    key in o && Truthy(o[key])
  }

  /** JavaScript `{...a, ...b}`: keys of `b` win. */
  function Spread(a: Obj, b: Obj): (r: Obj)
    ensures r.Keys == a.Keys + b.Keys
    ensures forall k | k in b :: r[k] == b[k]
    ensures forall k | k in a && k !in b :: r[k] == a[k]
  {
    a + b
  }

  /** `{...x}` where `x` may be `undefined`: spreading `undefined` adds nothing. */
  function SpreadOpt(x: Option<Obj>): Obj {
    match x
    case Some(o) => o
    case None => map[]
  }

  function OptStr(x: Option<string>): Value {
    match x
    case Some(s) => JStr(s)
    case None => JNull
  }

  function OptInt(x: Option<int>): Value {
    match x
    case Some(n) => JInt(n)
    case None => JNull
  }

  function OptNum(x: Option<real>): Value {
    match x
    case Some(r) => JNum(r)
    case None => JNull
  }

  function StrArray(xs: seq<string>): (v: Value)
    ensures v.JArr? && |v.items| == |xs|
    ensures forall i | 0 <= i < |xs| :: v.items[i] == JStr(xs[i])
  {
    if |xs| == 0 then JArr([]) else JArr([JStr(xs[0])] + StrArray(xs[1..]).items)
  }
}

=== FILE: models.dfy ===
/** The backend's record classes (backend/models.py): exercises, daily workouts,
    per-exercise feedback and the user's fitness profile, with their `dict()`
    serialisers and the keyword-argument constructor `Exercise(**row)` that the
    API uses to rebuild exercises from stored rows. */
module Models {
  import opened Wrappers
  import opened Json
  import Seqs

  /** A repetition count: an integer or the literal `"AMRAP"`. */
  datatype Reps = Count(n: int) | Amrap

  datatype Exercise = Exercise(name: string, sets: int, reps: Reps, weight: Option<string>)

  datatype DailyWorkout = DailyWorkout(day: string, exercises: seq<Exercise>)

  datatype ExerciseFeedback = ExerciseFeedback(
    name: string,
    setsCompleted: int,
    repsCompleted: Reps,
    difficulty: int,
    notes: Option<string>,
    sorenessLevel: Option<int>)

  datatype DailyWorkoutFeedback = DailyWorkoutFeedback(day: string, feedback: seq<ExerciseFeedback>)

  datatype GymStrength = GymStrength(benchPressMax: real, squatMax: real, deadliftMax: real)

  datatype HomeStrength = HomeStrength(pushupsReps: int, pullupsReps: int, bodyweightSquatsReps: int)

  datatype UserFitnessInput = UserFitnessInput(
    name: string,
    age: Option<int>,
    heightCm: real,
    weightKg: real,
    fatPercentage: Option<real>,
    experienceLevel: Option<int>,
    equipment: seq<string>,
    fitnessGoal: Option<string>,
    gender: string,
    gymStrength: Option<GymStrength>,
    homeStrength: Option<HomeStrength>)

  /** The weight an exercise gets when none is given. */
  const DEFAULT_WEIGHT: string := "N/A"

  const EXERCISE_KEYS: set<string> := {"name", "sets", "reps", "weight"}

  function RepsToJson(r: Reps): Value {
    match r
    case Count(n) => JInt(n)
    case Amrap => JStr("AMRAP")
  }

  /** `Union[int, Literal["AMRAP"]]` as pydantic reads it in lax mode: an
      integer, a float with no fractional part read as that integer, or
      exactly `"AMRAP"`. */
  function RepsFromJson(v: Value): (r: Result<Reps>)
    ensures r.Ok? <==> LaxInt(v).Ok? || v == JStr("AMRAP")
    ensures r.Ok? && r.value.Count? ==> LaxInt(v) == Ok(r.value.n)
    ensures r == Ok(Amrap) <==> v == JStr("AMRAP")
  {
    if v == JStr("AMRAP") then Ok(Amrap)
    else
      match LaxInt(v)
      case Ok(n) => Ok(Count(n))
      case Err(_) => Err("reps must be an int or 'AMRAP'")
  }

  /** A repetition value written out reads back as itself, and so does a
      count written as a whole float. */
  lemma RepsReadBack(r: Reps)
    ensures RepsFromJson(RepsToJson(r)) == Ok(r)
    ensures r.Count? ==> RepsFromJson(JNum(r.n as real)) == Ok(r)
  {
  }

  /** The JSON shapes a `Reps` is held as without conversion. */
  predicate RepsShaped(v: Value) {
    v.JInt? || v == JStr("AMRAP")
  }

  /** `Exercise(**kw)`: the required arguments are `name`, `sets` and `reps`,
      `weight` defaults to "N/A", and an unknown keyword is a `TypeError`.
      The Python class does not check types; a value of the wrong JSON type is
      refused here because the datatype cannot hold it. */
  function ExerciseFromKwargs(kw: Obj): (r: Result<Exercise>)
    ensures r.Ok? ==> kw.Keys <= EXERCISE_KEYS && {"name", "sets", "reps"} <= kw.Keys
    ensures r.Ok? && "weight" !in kw ==> r.value.weight == Some(DEFAULT_WEIGHT)
    ensures r.Ok? ==> kw["name"] == JStr(r.value.name) && kw["sets"] == JInt(r.value.sets)
    ensures r.Ok? ==> kw["reps"] == RepsToJson(r.value.reps)
    ensures !(kw.Keys <= EXERCISE_KEYS) ==> r.Err?
  {
    if !(kw.Keys <= EXERCISE_KEYS) then Err("Exercise() got an unexpected keyword argument")
    else if !("name" in kw && "sets" in kw && "reps" in kw) then
      Err("Exercise() missing a required positional argument")
    else if !kw["name"].JStr? || !kw["sets"].JInt? || !RepsShaped(kw["reps"]) then Err("unsupported argument type")
    else
      match RepsFromJson(kw["reps"])
      case Err(e) => Err(e)
      case Ok(reps) =>
        if "weight" !in kw then Ok(Exercise(kw["name"].s, kw["sets"].i, reps, Some(DEFAULT_WEIGHT)))
        else if kw["weight"] == JNull then Ok(Exercise(kw["name"].s, kw["sets"].i, reps, None))
        else if kw["weight"].JStr? then Ok(Exercise(kw["name"].s, kw["sets"].i, reps, Some(kw["weight"].s)))
        else Err("unsupported argument type")
  }

  /** `Exercise.dict()`: exactly the four constructor fields, and rebuilding
      an exercise from them gives the same exercise. */
  function ExerciseToDict(e: Exercise): (v: Value)
    ensures v.JObj? && v.fields.Keys == EXERCISE_KEYS
    ensures ExerciseFromKwargs(v.fields) == Ok(e)
  {
    JObj(map["name" := JStr(e.name), "sets" := JInt(e.sets), "reps" := RepsToJson(e.reps),
             "weight" := OptStr(e.weight)])
  }

  /** `DailyWorkout.dict()`: the day and one entry per exercise, in order. */
  function DailyWorkoutToDict(w: DailyWorkout): (v: Value)
    ensures v.JObj? && v.fields.Keys == {"day", "exercises"}
    ensures v.fields["day"] == JStr(w.day)
    ensures v.fields["exercises"].JArr? && |v.fields["exercises"].items| == |w.exercises|
    ensures forall i | 0 <= i < |w.exercises| ::
      v.fields["exercises"].items[i].JObj? &&
      ExerciseFromKwargs(v.fields["exercises"].items[i].fields) == Ok(w.exercises[i])
  {
    JObj(map["day" := JStr(w.day), "exercises" := JArr(Seqs.Map(w.exercises, ExerciseToDict))])
  }

  function ExerciseFeedbackToDict(f: ExerciseFeedback): (v: Value)
    ensures v.JObj?
    ensures v.fields.Keys == {"name", "sets_completed", "reps_completed", "difficulty", "notes", "soreness_level"}
  {
    JObj(map["name" := JStr(f.name), "sets_completed" := JInt(f.setsCompleted),
             "reps_completed" := RepsToJson(f.repsCompleted), "difficulty" := JInt(f.difficulty),
             "notes" := OptStr(f.notes), "soreness_level" := OptInt(f.sorenessLevel)])
  }

  function DailyWorkoutFeedbackToDict(d: DailyWorkoutFeedback): (v: Value)
    ensures v.JObj? && v.fields.Keys == {"day", "feedback"}
  {
    JObj(map["day" := JStr(d.day), "feedback" := JArr(Seqs.Map(d.feedback, ExerciseFeedbackToDict))])
  }

  function GymStrengthToDict(g: GymStrength): (v: Value)
    ensures v.JObj? && v.fields.Keys == {"bench_press_max", "squat_max", "deadlift_max"}
  {
    JObj(map["bench_press_max" := JNum(g.benchPressMax), "squat_max" := JNum(g.squatMax),
             "deadlift_max" := JNum(g.deadliftMax)])
  }

  function HomeStrengthToDict(h: HomeStrength): (v: Value)
    ensures v.JObj? && v.fields.Keys == {"pushups_reps", "pullups_reps", "bodyweight_squats_reps"}
  {
    JObj(map["pushups_reps" := JInt(h.pushupsReps), "pullups_reps" := JInt(h.pullupsReps),
             "bodyweight_squats_reps" := JInt(h.bodyweightSquatsReps)])
  }

  /** An optional strength record: `None`, or the record's own `dict()`. */
  function OptGym(g: Option<GymStrength>): (v: Value)
    ensures g.None? <==> v == JNull
  {
    match g case Some(x) => GymStrengthToDict(x) case None => JNull
  }

  function OptHome(h: Option<HomeStrength>): (v: Value)
    ensures h.None? <==> v == JNull
  {
    match h case Some(x) => HomeStrengthToDict(x) case None => JNull
  }

  const USER_KEYS: set<string> := {"name", "age", "height_cm", "weight_kg", "fat_percentage",
    "experience_level", "equipment", "fitness_goal", "gender", "gym_strength", "home_strength"}

  /** The eleven constructor fields of a profile, by key; an absent
      strength record becomes `None`, a present one its own `dict()`. */
  function UserFields(u: UserFitnessInput): map<string, Value> {
    map[
      "name" := JStr(u.name),
      "age" := OptInt(u.age),
      "height_cm" := JNum(u.heightCm),
      "weight_kg" := JNum(u.weightKg),
      "fat_percentage" := OptNum(u.fatPercentage),
      "experience_level" := OptInt(u.experienceLevel),
      "equipment" := StrArray(u.equipment),
      "fitness_goal" := OptStr(u.fitnessGoal),
      "gender" := JStr(u.gender),
      "gym_strength" := OptGym(u.gymStrength),
      "home_strength" := OptHome(u.homeStrength)
    ]
  }

  /** `UserFitnessInput.dict()`. */
  function UserToDict(u: UserFitnessInput): (v: Value)
    ensures v.JObj? && v.fields.Keys == USER_KEYS
    ensures u.gymStrength.None? <==> v.fields["gym_strength"] == JNull
    ensures u.homeStrength.None? <==> v.fields["home_strength"] == JNull
  {
    JObj(UserFields(u))
  }
}

=== FILE: nutrition.dfy ===
/** Daily energy needs and the weekly meal plan (backend/nutrition_generator.py).

    The database query of `select_meals` (the vegan, vegetarian and allergy
    tags, and the "meal_id NOT IN ..." exclusion) is represented by its
    result: the diet-compatible catalogue is an input, and the exclusion of
    already used ids is applied here as a filter. `random.choice` is an
    arbitrary `pick` function: it may return any index, which is taken
    modulo the number of candidates, so every candidate can be chosen. */
module Nutrition {
  import opened Wrappers
  import opened Models

  // ---------------------------------------------------------------------------
  // calculate_caloric_needs

  /** Mifflin-St Jeor basal metabolic rate, with the male constant +5 and the
      constant -161 for every other gender. */
  function Bmr(weightKg: real, heightCm: real, age: int, gender: string): (bmr: real)
    ensures gender == "male" ==> bmr == 10.0 * weightKg + 6.25 * heightCm - 5.0 * age as real + 5.0
    ensures gender != "male" ==> bmr == 10.0 * weightKg + 6.25 * heightCm - 5.0 * age as real - 161.0
  {
    var base := 10.0 * weightKg + 6.25 * heightCm - 5.0 * age as real;
    if gender == "male" then base + 5.0 else base - 161.0
  }

  /** The male and non-male formulas differ by exactly 166 kcal. */
  lemma BmrGenderGap(weightKg: real, heightCm: real, age: int, other: string)
    requires other != "male"
    ensures Bmr(weightKg, heightCm, age, "male") - Bmr(weightKg, heightCm, age, other) == 166.0
  {
  }

  /** `activity_level_map.get(experience_level, 1.55)`. */
  function ActivityMultiplier(level: Option<int>): (m: real)
    ensures 1.2 <= m <= 1.9
    ensures level.None? || !(1 <= level.value <= 5) ==> m == 1.55
  {
    match level
    case Some(1) => 1.2
    case Some(2) => 1.375
    case Some(3) => 1.55
    case Some(4) => 1.725
    case Some(5) => 1.9
    case _ => 1.55
  }

  /** `goal_adjustments.get(fitness_goal, 1.0)`: a 20% deficit to lose weight,
      a 15% surplus to build muscle, no change otherwise. */
  function GoalFactor(goal: Option<string>): (f: real)
    ensures 0.8 <= f <= 1.15
    ensures goal == Some("lose_weight") ==> f == 0.8
    ensures goal == Some("build_muscle") ==> f == 1.15
    ensures goal != Some("lose_weight") && goal != Some("build_muscle") ==> f == 1.0
  {
    match goal
    case Some("lose_weight") => 0.8
    case Some("build_muscle") => 1.15
    case Some("stay_fit") => 1.0
    case _ => 1.0
  }

  /** `calculate_caloric_needs(user)`: BMR times activity times goal factor.
      A profile without an age makes the source compute `5 * None` and raise. */
  function CaloricNeeds(u: UserFitnessInput): (r: Result<real>)
    ensures r.Ok? <==> u.age.Some?
    ensures r.Ok? ==>
      r.value == Bmr(u.weightKg, u.heightCm, u.age.value, u.gender) * ActivityMultiplier(u.experienceLevel) * GoalFactor(u.fitnessGoal)
  {
    match u.age
    case None => Err("unsupported operand type(s) for *: 'int' and 'NoneType'")
    case Some(age) =>
      Ok(Bmr(u.weightKg, u.heightCm, age, u.gender) * ActivityMultiplier(u.experienceLevel) * GoalFactor(u.fitnessGoal))
  }

  /** A heavier user with the same other details needs more energy. */
  lemma CaloricNeedsGrowWithWeight(u: UserFitnessInput, heavier: real)
    requires u.age.Some? && heavier > u.weightKg
    ensures CaloricNeeds(u.(weightKg := heavier)).value > CaloricNeeds(u).value
  {
    var a, g := ActivityMultiplier(u.experienceLevel), GoalFactor(u.fitnessGoal);
    var b1 := Bmr(u.weightKg, u.heightCm, u.age.value, u.gender);
    var b2 := Bmr(heavier, u.heightCm, u.age.value, u.gender);
    assert b2 - b1 == 10.0 * (heavier - u.weightKg);
    assert a * g > 0.0;
    assert b2 * a * g - b1 * a * g == (b2 - b1) * (a * g);
  }

  // ---------------------------------------------------------------------------
  // get_macro_ratios

  datatype Macros = Macros(protein: real, carbs: real, fat: real)

  /** The goal's protein/carbs/fat split, or 0.3/0.4/0.3 for any other goal. */
  function MacroRatios(goal: Option<string>): (m: Macros)
    ensures goal == Some("lose_weight") ==> m == Macros(0.4, 0.3, 0.3)
    ensures goal == Some("build_muscle") ==> m == Macros(0.35, 0.4, 0.25)
    ensures goal != Some("lose_weight") && goal != Some("build_muscle") ==> m == Macros(0.3, 0.4, 0.3)
  {
    match goal
    case Some("lose_weight") => Macros(0.4, 0.3, 0.3)
    case Some("build_muscle") => Macros(0.35, 0.4, 0.25)
    case Some("stay_fit") => Macros(0.3, 0.4, 0.3)
    case _ => Macros(0.3, 0.4, 0.3)
  }

  /** Every split accounts for all of the energy. */
  lemma MacroRatiosSumToOne(goal: Option<string>)
    ensures var m := MacroRatios(goal); m.protein + m.carbs + m.fat == 1.0
  {
  }

  // ---------------------------------------------------------------------------
  // select_meals

  /** The `meal_type` column: the four types the day is built from, and any
      other string, which no query of the day asks for. */
  datatype MealType = Breakfast | Lunch | Dinner | Snack | OtherType(name: string)

  datatype Meal = Meal(id: int, name: string, mealType: MealType,
                       calories: real, proteinG: real, carbsG: real, fatG: real, tags: seq<string>)

  /** One entry of a day's plan: the meal's figures after portion scaling. */
  datatype PlannedMeal = PlannedMeal(id: int, name: string, mealType: MealType,
                                     calories: real, proteinG: real, carbsG: real, fatG: real,
                                     portionSizeMultiplier: real)

  const MEAL_TYPES: seq<MealType> := [Breakfast, Lunch, Dinner, Snack]

  /** Position of a meal type in the day. */
  function TypeRank(t: MealType): nat {
    match t
    case Breakfast => 0
    case Lunch => 1
    case Dinner => 2
    case Snack => 3
    case OtherType(_) => 4
  }

  /** The meals of type `t` whose id is not used yet, in catalogue order. */
  function Candidates(available: seq<Meal>, t: MealType, used: set<int>): (c: seq<Meal>)
    ensures |c| <= |available|
    ensures forall i | 0 <= i < |c| :: c[i] in available && c[i].mealType == t && c[i].id !in used
    ensures forall i | 0 <= i < |available| && available[i].mealType == t && available[i].id !in used ::
      available[i] in c
  {
    if |available| == 0 then []
    else
      var rest := Candidates(available[1..], t, used);
      assert forall i | 1 <= i < |available| :: available[i] == available[1..][i - 1];
      var m := available[0];
      if m.mealType == t && m.id !in used then [m] + rest else rest
  }

  /** `random.choice(candidates)`: the candidate at position `n`, counting
      round the list, so that every candidate can be the one chosen. */
  function Choose(c: seq<Meal>, n: nat): (m: Meal)
    requires |c| > 0
    ensures m in c
    ensures m == c[n % |c|]
    decreases n
  {
    if n < |c| then c[n] else ModShift(n, |c|); Choose(c, n - |c|)
  }

  /** Counting once round the list lands on the same position. */
  lemma ModShift(n: nat, k: nat)
    requires 0 < k <= n
    ensures (n - k) % k == n % k
  {
    ModOf(n - k, k, n / k - 1, n % k);
  }

  /** The remainder is the unique `r` in `0..k-1` with `x == q * k + r`. */
  lemma ModOf(x: int, k: int, q: int, r: int)
    requires k > 0 && 0 <= r < k && x == q * k + r
    ensures x % k == r
  {
    var d := q - x / k;
    assert d * k == x % k - r;
    assert d >= 1 ==> d * k >= k;
    assert d <= -1 ==> d * k <= -k;
  }

  /** The loop over meal types: at most one meal per type, a type without a
      candidate is skipped, and a chosen id is not offered again that day. */
  function PickMeals(types: seq<MealType>, available: seq<Meal>, used: set<int>, pick: seq<Meal> -> nat): (r: seq<Meal>)
    ensures |r| <= |types|
    ensures forall i | 0 <= i < |r| :: r[i] in available && r[i].id !in used
    ensures forall i | 0 <= i < |r| :: r[i].mealType in types
    ensures forall i, j | 0 <= i < j < |r| :: r[i].id != r[j].id
    decreases |types|
  {
    if |types| == 0 then []
    else
      var c := Candidates(available, types[0], used);
      if |c| == 0 then PickMeals(types[1..], available, used, pick)
      else
        var m := Choose(c, pick(c));
        var rest := PickMeals(types[1..], available, used + {m.id}, pick);
        assert forall i | 0 <= i < |rest| :: rest[i].id != m.id;
        [m] + rest
  }

  /** The meals' types strictly increase under `rank`. */
  predicate RankIncreasing(meals: seq<Meal>, rank: MealType -> nat) {
    forall i, j | 0 <= i < j < |meals| :: rank(meals[i].mealType) < rank(meals[j].mealType)
  }

  /** Chosen meals follow the order of the types: for any ranking under
      which the types strictly increase (as breakfast, lunch, dinner, snack
      do), the chosen meals' types strictly increase too, so each type
      appears at most once and in that order. */
  lemma {:induction false} PickMealsOrdered(types: seq<MealType>, available: seq<Meal>, used: set<int>, pick: seq<Meal> -> nat, rank: MealType -> nat)
    requires forall i, j | 0 <= i < j < |types| :: rank(types[i]) < rank(types[j])
    ensures RankIncreasing(PickMeals(types, available, used, pick), rank)
    decreases |types|
  {
    if |types| > 0 {
      var c := Candidates(available, types[0], used);
      var r := PickMeals(types, available, used, pick);
      if |c| == 0 {
        PickMealsOrdered(types[1..], available, used, pick, rank);
        assert r == PickMeals(types[1..], available, used, pick);
      } else {
        var m := Choose(c, pick(c));
        PickMealsOrdered(types[1..], available, used + {m.id}, pick, rank);
        var rest := PickMeals(types[1..], available, used + {m.id}, pick);
        forall k | 0 <= k < |rest| ensures rank(m.mealType) < rank(rest[k].mealType) {
          var j :| 0 <= j < |types[1..]| && types[1..][j] == rest[k].mealType;
          assert types[j + 1] == rest[k].mealType;
        }
        assert r == [m] + rest;
        RankIncreasingCons(m, rest, rank);
      }
    }
  }

  lemma RankIncreasingCons(m: Meal, rest: seq<Meal>, rank: MealType -> nat)
    requires RankIncreasing(rest, rank)
    requires forall k | 0 <= k < |rest| :: rank(m.mealType) < rank(rest[k].mealType)
    ensures RankIncreasing([m] + rest, rank)
  {
    var r := [m] + rest;
    forall i, j | 0 <= i < j < |r| ensures rank(r[i].mealType) < rank(r[j].mealType) {
      assert r[j] == rest[j - 1];
      if i > 0 {
        assert r[i] == rest[i - 1];
      }
    }
  }

  /** No meal type is listed twice. */
  predicate DistinctTypes(types: seq<MealType>) {
    forall i, j | 0 <= i < j < |types| :: types[i] != types[j]
  }

  /** Two meals with the same id are the same meal. */
  predicate IdsIdentify(available: seq<Meal>) {
    forall i, j | 0 <= i < |available| && 0 <= j < |available| && available[i].id == available[j].id ::
      available[i] == available[j]
  }

  /** Some available meal of type `t` has an id not used yet. */
  predicate Servable(t: MealType, available: seq<Meal>, used: set<int>) {
    exists i | 0 <= i < |available| :: available[i].mealType == t && available[i].id !in used
  }

  /** Every type is servable. */
  predicate AllServable(types: seq<MealType>, available: seq<Meal>, used: set<int>) {
    forall k | 0 <= k < |types| :: Servable(types[k], available, used)
  }

  /** A type is skipped only when it has no unused candidate: when ids
      identify meals and every type has a meal not used yet, every type is
      served. */
  lemma {:induction false} PickMealsComplete(types: seq<MealType>, available: seq<Meal>, used: set<int>, pick: seq<Meal> -> nat)
    requires DistinctTypes(types) && IdsIdentify(available) && AllServable(types, available, used)
    ensures |PickMeals(types, available, used, pick)| == |types|
    decreases |types|
  {
    if |types| > 0 {
      var m := PickFirst(types, available, used, pick);
      AllStillServable(types, available, used, m);
      assert DistinctTypes(types[1..]);
      PickMealsComplete(types[1..], available, used + {m.id}, pick);
    }
  }

  /** With an unused meal of the first type, the first pick is one of the
      available meals of that type, followed by the picks for the other
      types. */
  lemma PickFirst(types: seq<MealType>, available: seq<Meal>, used: set<int>, pick: seq<Meal> -> nat) returns (m: Meal)
    requires |types| > 0 && AllServable(types, available, used)
    ensures m in available && m.mealType == types[0]
    ensures PickMeals(types, available, used, pick) == [m] + PickMeals(types[1..], available, used + {m.id}, pick)
  {
    var c := Candidates(available, types[0], used);
    var w0 :| 0 <= w0 < |available| && available[w0].mealType == types[0] && available[w0].id !in used;
    assert available[w0] in c;
    m := Choose(c, pick(c));
    var ic :| 0 <= ic < |c| && c[ic] == m;
  }

  /** Taking a meal of the first type leaves every later type servable. */
  lemma AllStillServable(types: seq<MealType>, available: seq<Meal>, used: set<int>, m: Meal)
    requires |types| > 0 && DistinctTypes(types) && IdsIdentify(available) && AllServable(types, available, used)
    requires m in available && m.mealType == types[0]
    ensures AllServable(types[1..], available, used + {m.id})
  {
    var rest := types[1..];
    forall k | 0 <= k < |rest| ensures Servable(rest[k], available, used + {m.id}) {
      assert rest[k] == types[k + 1];
      StillAvailable(types, available, used, m, k + 1);
    }
  }

  /** After `m`, of the first type, is taken, a later type still has an
      unused meal: ids identify meals and the types differ. */
  lemma StillAvailable(types: seq<MealType>, available: seq<Meal>, used: set<int>, m: Meal, k: int)
    requires 0 < k < |types| && types[0] != types[k]
    requires m in available && m.mealType == types[0]
    requires IdsIdentify(available) && Servable(types[k], available, used)
    ensures Servable(types[k], available, used + {m.id})
  {
    var w :| 0 <= w < |available| && available[w].mealType == types[k] && available[w].id !in used;
    var im :| 0 <= im < |available| && available[im] == m;
    assert available[w].id != m.id;
  }

  function SumCalories(meals: seq<Meal>): real {
    if |meals| == 0 then 0.0 else meals[0].calories + SumCalories(meals[1..])
  }

  /** `max(0.5, min(2.0, x))`. */
  function Clamp(x: real): (c: real)
    ensures 0.5 <= c <= 2.0
    ensures 0.5 <= x <= 2.0 ==> c == x
    ensures x < 0.5 ==> c == 0.5
    ensures x > 2.0 ==> c == 2.0
  {
    if x < 0.5 then 0.5 else if x > 2.0 then 2.0 else x
  }

  /** The portion multiplier of the day: the clamped ratio of the target to
      the chosen meals' calories when both are positive, 1.0 otherwise. */
  function PortionMultiplier(meals: seq<Meal>, dailyCalories: real): (m: real)
    ensures 0.5 <= m <= 2.0
    ensures !(SumCalories(meals) > 0.0 && dailyCalories > 0.0) ==> m == 1.0
    ensures SumCalories(meals) > 0.0 && dailyCalories > 0.0 ==> m == Clamp(dailyCalories / SumCalories(meals))
  {
    var total := SumCalories(meals);
    if total > 0.0 && dailyCalories > 0.0 then Clamp(dailyCalories / total) else 1.0
  }

  function Scale(m: Meal, k: real): (p: PlannedMeal)
    ensures p.id == m.id && p.name == m.name && p.mealType == m.mealType
    ensures p.calories == m.calories * k && p.portionSizeMultiplier == k
  {
    PlannedMeal(m.id, m.name, m.mealType, m.calories * k, m.proteinG * k, m.carbsG * k, m.fatG * k, k)
  }

  /** Every meal scaled by the same multiplier. */
  function ScaleAll(meals: seq<Meal>, k: real): (r: seq<PlannedMeal>)
    ensures |r| == |meals|
    ensures forall i | 0 <= i < |r| :: r[i] == Scale(meals[i], k)
  {
    if |meals| == 0 then [] else [Scale(meals[0], k)] + ScaleAll(meals[1..], k)
  }

  /** What scaling keeps of the chosen meals: ids, types and their order,
      with one common multiplier. */
  lemma ScaleAllKeeps(meals: seq<Meal>, k: real)
    requires forall i, j | 0 <= i < j < |meals| :: meals[i].id != meals[j].id
    requires RankIncreasing(meals, TypeRank)
    ensures var r := ScaleAll(meals, k);
      && (forall i, j | 0 <= i < j < |r| :: r[i].id != r[j].id)
      && (forall i, j | 0 <= i < j < |r| :: TypeRank(r[i].mealType) < TypeRank(r[j].mealType))
      && (forall i | 0 <= i < |r| :: r[i].portionSizeMultiplier == k)
  {
    var r := ScaleAll(meals, k);
    forall i, j | 0 <= i < j < |r| ensures TypeRank(r[i].mealType) < TypeRank(r[j].mealType) {
      assert r[i].mealType == meals[i].mealType && r[j].mealType == meals[j].mealType;
    }
  }

  /** `select_meals` after the query: the chosen meals in type order, every
      one scaled by the same multiplier. */
  function SelectMeals(available: seq<Meal>, dailyCalories: real, pick: seq<Meal> -> nat): (r: seq<PlannedMeal>)
    ensures |r| <= |MEAL_TYPES|
    ensures forall i, j | 0 <= i < j < |r| :: r[i].id != r[j].id
    ensures forall i, j | 0 <= i < j < |r| :: TypeRank(r[i].mealType) < TypeRank(r[j].mealType)
    ensures forall i | 0 <= i < |r| :: 0.5 <= r[i].portionSizeMultiplier <= 2.0
    ensures forall i, j | 0 <= i < |r| && 0 <= j < |r| :: r[i].portionSizeMultiplier == r[j].portionSizeMultiplier
  {
    var chosen := PickMeals(MEAL_TYPES, available, {}, pick);
    PickedInTypeOrder(available, pick);
    var k := PortionMultiplier(chosen, dailyCalories);
    SelectionShape(chosen, k);
    ScaleAll(chosen, k)
  }

  /** The meals picked for a day come in breakfast, lunch, dinner, snack
      order. */
  lemma PickedInTypeOrder(available: seq<Meal>, pick: seq<Meal> -> nat)
    ensures RankIncreasing(PickMeals(MEAL_TYPES, available, {}, pick), TypeRank)
  {
    MealTypesRanked();
    PickMealsOrdered(MEAL_TYPES, available, {}, pick, TypeRank);
  }

  lemma MealTypesRanked()
    ensures forall i, j | 0 <= i < j < |MEAL_TYPES| :: TypeRank(MEAL_TYPES[i]) < TypeRank(MEAL_TYPES[j])
  {
  }

  /** The shape `SelectMeals` promises, from what the chosen meals satisfy. */
  lemma SelectionShape(chosen: seq<Meal>, k: real)
    requires |chosen| <= |MEAL_TYPES| && 0.5 <= k <= 2.0
    requires forall i, j | 0 <= i < j < |chosen| :: chosen[i].id != chosen[j].id
    requires RankIncreasing(chosen, TypeRank)
    ensures var r := ScaleAll(chosen, k);
      && |r| <= |MEAL_TYPES|
      && (forall i, j | 0 <= i < j < |r| :: r[i].id != r[j].id)
      && (forall i, j | 0 <= i < j < |r| :: TypeRank(r[i].mealType) < TypeRank(r[j].mealType))
      && (forall i | 0 <= i < |r| :: 0.5 <= r[i].portionSizeMultiplier <= 2.0)
      && (forall i, j | 0 <= i < |r| && 0 <= j < |r| :: r[i].portionSizeMultiplier == r[j].portionSizeMultiplier)
  {
    ScaleAllKeeps(chosen, k);
  }

  function SumPlanned(meals: seq<PlannedMeal>): real {
    if |meals| == 0 then 0.0 else meals[0].calories + SumPlanned(meals[1..])
  }

  lemma {:induction false} SumScaled(meals: seq<Meal>, k: real)
    ensures SumPlanned(ScaleAll(meals, k)) == SumCalories(meals) * k
  {
    if |meals| > 0 {
      SumScaled(meals[1..], k);
      var r, rest := ScaleAll(meals, k), ScaleAll(meals[1..], k);
      assert r[1..] == rest && r[0] == Scale(meals[0], k);
      assert SumPlanned(r) == r[0].calories + SumPlanned(rest);
      assert SumCalories(meals) == meals[0].calories + SumCalories(meals[1..]);
      SumStep(meals[0], k, SumCalories(meals), SumCalories(meals[1..]), SumPlanned(rest));
    }
  }

  /** Scaling distributes over one more meal. */
  lemma SumStep(m: Meal, k: real, total: real, rest: real, scaledRest: real)
    requires total == m.calories + rest && scaledRest == rest * k
    ensures Scale(m, k).calories + scaledRest == total * k
  {
  }

  /** A target within a factor of two of the total is left unclamped. */
  lemma RatioInRange(target: real, total: real)
    requires total > 0.0 && total * 0.5 <= target <= total * 2.0
    ensures 0.5 <= target / total <= 2.0
    ensures total * (target / total) == target
  {
    var k := target / total;
    assert k * total == target;
  }

  /** When the chosen meals are within a factor of two of the target, the
      scaled meals add up to the target exactly. */
  lemma PortionHitsTarget(chosen: seq<Meal>, dailyCalories: real)
    requires var total := SumCalories(chosen);
      total > 0.0 && total * 0.5 <= dailyCalories <= total * 2.0
    ensures SumPlanned(ScaleAll(chosen, PortionMultiplier(chosen, dailyCalories))) == dailyCalories
  {
    var total := SumCalories(chosen);
    RatioInRange(dailyCalories, total);
    var k := dailyCalories / total;
    assert PortionMultiplier(chosen, dailyCalories) == k;
    SumScaled(chosen, k);
  }

  /** The same for the whole selection of a day. */
  lemma SelectMealsHitsTarget(available: seq<Meal>, dailyCalories: real, pick: seq<Meal> -> nat)
    requires var total := SumCalories(PickMeals(MEAL_TYPES, available, {}, pick));
      total > 0.0 && total * 0.5 <= dailyCalories <= total * 2.0
    ensures SumPlanned(SelectMeals(available, dailyCalories, pick)) == dailyCalories
  {
    var chosen := PickMeals(MEAL_TYPES, available, {}, pick);
    PortionHitsTarget(chosen, dailyCalories);
    assert SelectMeals(available, dailyCalories, pick) == ScaleAll(chosen, PortionMultiplier(chosen, dailyCalories));
  }

  // ---------------------------------------------------------------------------
  // generate_nutrition_plan

  const WEEK_DAYS: seq<string> := ["Monday", "Tuesday", "Wednesday", "Thursday", "Friday", "Saturday", "Sunday"]

  datatype DayPlan = DayPlan(day: string, meals: seq<PlannedMeal>)

  /** The ids of a day's meals. */
  function Ids(meals: seq<PlannedMeal>): set<int> {
    if |meals| == 0 then {} else {meals[0].id} + Ids(meals[1..])
  }

  lemma {:induction false} InIds(meals: seq<PlannedMeal>, x: int)
    ensures x in Ids(meals) <==> exists i | 0 <= i < |meals| :: meals[i].id == x
  {
    if |meals| > 0 {
      InIds(meals[1..], x);
      if exists i | 0 <= i < |meals| :: meals[i].id == x {
        var i :| 0 <= i < |meals| && meals[i].id == x;
        if i > 0 {
          assert meals[1..][i - 1].id == x;
        }
      }
    }
  }

  /** The stored dietary preferences that shape the meal query. */
  datatype DietPrefs = DietPrefs(isVegan: bool, isVegetarian: bool, allergies: seq<string>)

  /** The WHERE clause of the meal query for one meal: a vegan user gets
      meals tagged "vegan"; otherwise a vegetarian user gets meals tagged
      "vegetarian"; with allergies, no tag of the meal may be one of them.
      Without stored preferences every meal qualifies. */
  predicate Admits(prefs: Option<DietPrefs>, m: Meal) {
    match prefs
    case None => true
    case Some(p) =>
      && (if p.isVegan then "vegan" in m.tags else p.isVegetarian ==> "vegetarian" in m.tags)
      && forall a | a in p.allergies :: a !in m.tags
  }

  /** The rows the meal query returns: the catalogue meals the diet admits
      whose id is not excluded, in catalogue order. */
  function Query(catalog: seq<Meal>, prefs: Option<DietPrefs>, excluded: set<int>): (r: seq<Meal>)
    ensures forall i | 0 <= i < |r| :: r[i] in catalog && Admits(prefs, r[i]) && r[i].id !in excluded
    ensures forall i | 0 <= i < |catalog| && Admits(prefs, catalog[i]) && catalog[i].id !in excluded ::
      catalog[i] in r
  {
    if |catalog| == 0 then []
    else
      var rest := Query(catalog[1..], prefs, excluded);
      assert forall i | 1 <= i < |catalog| :: catalog[i] == catalog[1..][i - 1];
      if Admits(prefs, catalog[0]) && catalog[0].id !in excluded then [catalog[0]] + rest else rest
  }

  /** A meal id served by a day's selection: one of a catalogue meal that the
      diet admits and that was not excluded. */
  predicate ServedFrom(x: int, catalog: seq<Meal>, prefs: Option<DietPrefs>, excluded: set<int>) {
    x !in excluded && exists j | 0 <= j < |catalog| :: catalog[j].id == x && Admits(prefs, catalog[j])
  }

  /** Every id a day's selection serves comes from the query's rows. */
  lemma SelectionFromQuery(catalog: seq<Meal>, prefs: Option<DietPrefs>, excluded: set<int>,
                           dailyCalories: real, pick: seq<Meal> -> nat)
    ensures forall x | x in Ids(SelectMeals(Query(catalog, prefs, excluded), dailyCalories, pick)) ::
      ServedFrom(x, catalog, prefs, excluded)
  {
    forall x | x in Ids(SelectMeals(Query(catalog, prefs, excluded), dailyCalories, pick))
      ensures ServedFrom(x, catalog, prefs, excluded)
    {
      SelectedIdAvailable(Query(catalog, prefs, excluded), dailyCalories, pick, x);
      QueriedIdServed(catalog, prefs, excluded, x);
    }
  }

  /** An id a day's selection serves is the id of one of the available
      meals. */
  lemma SelectedIdAvailable(available: seq<Meal>, dailyCalories: real, pick: seq<Meal> -> nat, x: int)
    requires x in Ids(SelectMeals(available, dailyCalories, pick))
    ensures exists j | 0 <= j < |available| :: available[j].id == x
  {
    var chosen := PickMeals(MEAL_TYPES, available, {}, pick);
    var r := SelectMeals(available, dailyCalories, pick);
    assert r == ScaleAll(chosen, PortionMultiplier(chosen, dailyCalories));
    InIds(r, x);
    var i :| 0 <= i < |r| && r[i].id == x;
    assert r[i].id == chosen[i].id && chosen[i] in available;
    var j :| 0 <= j < |available| && available[j] == chosen[i];
  }

  /** The id of a row of the query is served from the catalogue. */
  lemma QueriedIdServed(catalog: seq<Meal>, prefs: Option<DietPrefs>, excluded: set<int>, x: int)
    requires exists j | 0 <= j < |Query(catalog, prefs, excluded)| :: Query(catalog, prefs, excluded)[j].id == x
    ensures ServedFrom(x, catalog, prefs, excluded)
  {
    var avail := Query(catalog, prefs, excluded);
    var j :| 0 <= j < |avail| && avail[j].id == x;
    var k :| 0 <= k < |catalog| && catalog[k] == avail[j];
  }

  /** The selection of day `d` given the ids excluded so far: the query
      over the catalogue minus those ids, then `select_meals`. */
  function DaySelection(catalog: seq<Meal>, prefs: Option<DietPrefs>, dailyCalories: real,
                        pick: nat -> seq<Meal> -> nat): (select: (nat, set<int>) -> seq<PlannedMeal>)
  {
    (d: nat, excluded: set<int>) => SelectMeals(Query(catalog, prefs, excluded), dailyCalories, pick(d))
  }

  lemma DaySelectionServed(catalog: seq<Meal>, prefs: Option<DietPrefs>, dailyCalories: real,
                            pick: nat -> seq<Meal> -> nat)
    ensures forall d: nat, ex: set<int>, x | x in Ids(DaySelection(catalog, prefs, dailyCalories, pick)(d, ex)) ::
      ServedFrom(x, catalog, prefs, ex)
  {
    forall d: nat, ex: set<int>, x | x in Ids(DaySelection(catalog, prefs, dailyCalories, pick)(d, ex))
      ensures ServedFrom(x, catalog, prefs, ex)
    {
      SelectionFromQuery(catalog, prefs, ex, dailyCalories, pick(d));
    }
  }

  /** The loop over the days from `d` on: each day's meals are selected with
      the ids excluded so far, and then join the exclusion. */
  function PlanFrom(d: nat, excluded: set<int>, select: (nat, set<int>) -> seq<PlannedMeal>): (r: seq<DayPlan>)
    requires d <= |WEEK_DAYS|
    ensures |r| == |WEEK_DAYS| - d
    ensures forall i | 0 <= i < |r| :: r[i].day == WEEK_DAYS[d + i]
    decreases |WEEK_DAYS| - d
  {
    if d == |WEEK_DAYS| then []
    else
      var meals := select(d, excluded);
      [DayPlan(WEEK_DAYS[d], meals)] + PlanFrom(d + 1, excluded + Ids(meals), select)
  }

  /** `generate_nutrition_plan` once the target, the stored preferences, the
      catalogue and the ids used in the last three days are known. */
  function NutritionPlan(catalog: seq<Meal>, prefs: Option<DietPrefs>, recent: set<int>, dailyCalories: real,
                         pick: nat -> seq<Meal> -> nat): (r: seq<DayPlan>)
    ensures |r| == 7
    ensures forall i | 0 <= i < 7 :: r[i].day == WEEK_DAYS[i]
  {
    PlanFrom(0, recent, DaySelection(catalog, prefs, dailyCalories, pick))
  }

  lemma DisjointFromPart(a: set<int>, b: set<int>, c: set<int>)
    requires a !! (b + c)
    ensures a !! b
  {
  }

  /** No day of `r` serves an excluded id, and no id is served on two days. */
  predicate Fresh(r: seq<DayPlan>, excluded: set<int>) {
    && (forall i | 0 <= i < |r| :: Ids(r[i].meals) !! excluded)
    && (forall i, j | 0 <= i < j < |r| :: Ids(r[i].meals) !! Ids(r[j].meals))
  }

  /** Every selection avoids the ids it is told to exclude. */
  ghost predicate SelectAvoids(select: (nat, set<int>) -> seq<PlannedMeal>) {
    forall d': nat, ex: set<int> :: Ids(select(d', ex)) !! ex
  }

  /** If every day's selection avoids the ids excluded before it, every meal
      served from day `d` on avoids the ids excluded at day `d`, and no id is
      served on two different days. */
  lemma {:induction false} PlanFromFresh(d: nat, excluded: set<int>, select: (nat, set<int>) -> seq<PlannedMeal>)
    requires d <= |WEEK_DAYS|
    requires SelectAvoids(select)
    ensures Fresh(PlanFrom(d, excluded, select), excluded)
    decreases |WEEK_DAYS| - d
  {
    if d < |WEEK_DAYS| {
      var meals := select(d, excluded);
      assert Ids(meals) !! excluded;
      PlanFromFresh(d + 1, excluded + Ids(meals), select);
      var rest := PlanFrom(d + 1, excluded + Ids(meals), select);
      assert PlanFrom(d, excluded, select) == [DayPlan(WEEK_DAYS[d], meals)] + rest;
      FreshCons(DayPlan(WEEK_DAYS[d], meals), rest, excluded);
    }
  }

  /** One day in front of a fresh rest of the week: the week stays fresh if
      the day avoids the exclusion and the rest avoids the exclusion plus the
      day's meals. */
  lemma FreshCons(first: DayPlan, rest: seq<DayPlan>, excluded: set<int>)
    requires Ids(first.meals) !! excluded
    requires Fresh(rest, excluded + Ids(first.meals))
    ensures Fresh([first] + rest, excluded)
  {
    var r := [first] + rest;
    forall i | 0 <= i < |r| ensures Ids(r[i].meals) !! excluded {
      if i > 0 {
        assert r[i] == rest[i - 1];
        DisjointFromPart(Ids(rest[i - 1].meals), excluded, Ids(first.meals));
      }
    }
    forall i, j | 0 <= i < j < |r| ensures Ids(r[i].meals) !! Ids(r[j].meals) {
      assert r[j] == rest[j - 1];
      if i == 0 {
        DisjointFromPart(Ids(rest[j - 1].meals), Ids(first.meals), excluded);
      } else {
        assert r[i] == rest[i - 1];
      }
    }
  }

  /** No meal of the week was used in the last three days, and no meal is
      served on two days of the week. */
  lemma NutritionPlanVariety(catalog: seq<Meal>, prefs: Option<DietPrefs>, recent: set<int>, dailyCalories: real,
                             pick: nat -> seq<Meal> -> nat)
    ensures var r := NutritionPlan(catalog, prefs, recent, dailyCalories, pick);
      (forall i | 0 <= i < 7 :: Ids(r[i].meals) !! recent) &&
      (forall i, j | 0 <= i < j < 7 :: Ids(r[i].meals) !! Ids(r[j].meals))
  {
    var select := DaySelection(catalog, prefs, dailyCalories, pick);
    DaySelectionServed(catalog, prefs, dailyCalories, pick);
    assert SelectAvoids(select) by {
      forall d': nat, ex: set<int> ensures Ids(select(d', ex)) !! ex {
        forall x | x in Ids(select(d', ex)) ensures x !in ex {
          assert ServedFrom(x, catalog, prefs, ex);
        }
      }
    }
    PlanFromFresh(0, recent, select);
    assert NutritionPlan(catalog, prefs, recent, dailyCalories, pick) == PlanFrom(0, recent, select);
  }

  /** The set excluded before day `d`: the recent ids and every id served on
      an earlier day. It only grows from one day to the next. */
  function ExcludedBefore(plan: seq<DayPlan>, recent: set<int>, d: nat): (s: set<int>)
    requires d <= |plan|
    ensures recent <= s
    ensures d > 0 ==> ExcludedBefore(plan, recent, d - 1) <= s
  {
    if d == 0 then recent else ExcludedBefore(plan, recent, d - 1) + Ids(plan[d - 1].meals)
  }

  /** The days of the plan from `d` on are the loop restarted at `d` with
      everything excluded before it. */
  lemma {:induction false} PlanSuffix(recent: set<int>, select: (nat, set<int>) -> seq<PlannedMeal>, d: nat)
    requires d <= 7
    ensures var r := PlanFrom(0, recent, select);
      r[d..] == PlanFrom(d, ExcludedBefore(r, recent, d), select)
  {
    var r := PlanFrom(0, recent, select);
    if d > 0 {
      PlanSuffix(recent, select, d - 1);
      var ex := ExcludedBefore(r, recent, d - 1);
      var tail := PlanFrom(d - 1, ex, select);
      assert r[d - 1..] == tail;
      assert r[d..] == tail[1..];
      assert r[d - 1] == tail[0];
    }
  }

  /** Day `d` of the plan is exactly the selection over the query that
      excludes everything served before it (and the recent ids). */
  lemma PlanDayUsesExclusion(catalog: seq<Meal>, prefs: Option<DietPrefs>, recent: set<int>, dailyCalories: real,
                             pick: nat -> seq<Meal> -> nat, d: nat)
    requires d < 7
    ensures var r := NutritionPlan(catalog, prefs, recent, dailyCalories, pick);
      r[d].meals == SelectMeals(Query(catalog, prefs, ExcludedBefore(r, recent, d)), dailyCalories, pick(d))
  {
    var select := DaySelection(catalog, prefs, dailyCalories, pick);
    var r := PlanFrom(0, recent, select);
    PlanSuffix(recent, select, d);
    assert r[d] == r[d..][0];
  }

  /** Every meal of the week is a catalogue meal that the stored diet admits. */
  lemma PlanMealsAdmitted(catalog: seq<Meal>, prefs: Option<DietPrefs>, recent: set<int>, dailyCalories: real,
                          pick: nat -> seq<Meal> -> nat, d: nat, x: int)
    requires d < 7
    requires x in Ids(NutritionPlan(catalog, prefs, recent, dailyCalories, pick)[d].meals)
    ensures exists j | 0 <= j < |catalog| :: catalog[j].id == x && Admits(prefs, catalog[j])
  {
    var r := NutritionPlan(catalog, prefs, recent, dailyCalories, pick);
    PlanDayUsesExclusion(catalog, prefs, recent, dailyCalories, pick, d);
    SelectionFromQuery(catalog, prefs, ExcludedBefore(r, recent, d), dailyCalories, pick(d));
    assert ServedFrom(x, catalog, prefs, ExcludedBefore(r, recent, d));
  }

  // ---------------------------------------------------------------------------
  // load_recent_meal_ids

  /** `list(set(filter(None, ids)))` over the `meal_id` of every stored meal
      of the recent plans: missing ids and the id 0 are dropped, duplicates
      collapse. */
  function RecentIds(plans: seq<seq<Option<int>>>): (r: set<int>)
    ensures forall x :: x in r <==> x != 0 && exists i, j | 0 <= i < |plans| && 0 <= j < |plans[i]| :: plans[i][j] == Some(x)
  {
    if |plans| == 0 then {}
    else
      var rest := RecentIds(plans[1..]);
      assert forall i | 1 <= i < |plans| :: plans[i] == plans[1..][i - 1];
      NonZeroIds(plans[0]) + rest
  }

  function NonZeroIds(ids: seq<Option<int>>): (r: set<int>)
    ensures forall x :: x in r <==> x != 0 && exists j | 0 <= j < |ids| :: ids[j] == Some(x)
  {
    if |ids| == 0 then {}
    else
      var rest := NonZeroIds(ids[1..]);
      assert forall j | 1 <= j < |ids| :: ids[j] == ids[1..][j - 1];
      (if ids[0].Some? && ids[0].value != 0 then {ids[0].value} else {}) + rest
  }
}

=== FILE: onboarding.dfy ===
/** The validating onboarding screens: the profile form
    (frontend/src/screens/onboarding/UserInfoScreen.js), the optional body fat
    entry (BodyFatScreen.js) and the strength baseline (StrengthScreen.js).
    Each `handleNext` either refuses with an alert, here `Err`, or hands the
    collected profile to the next screen, here `Ok(Nav(...))`. */
module Onboarding {
  import opened Wrappers
  import opened Json
  import opened Text
  import opened Forms
  import opened Models
  import opened Schemas

  // ---------------------------------------------------------------------------
  // UserInfoScreen

  /** The form: name and gender as typed or picked, the numbers as fields. */
  datatype UserForm = UserForm(name: string, age: Input, height: Input, weight: Input, gender: string)

  const REQUIRED_FIELDS: string := "Please fill in all required fields."
  const NOT_NUMBERS: string := "Age, height, and weight must be valid numbers."

  /** `isFormValid`, which enables the button: the four required fields are
      non-empty. */
  predicate IsFormValid(form: UserForm) {
    form.name != "" && Filled(form.height) && Filled(form.weight) && form.gender != ""
  }

  /** The numeric checks: height and weight, and age when it was given. */
  predicate NumbersValid(form: UserForm) {
    !form.height.NonNumeric? && !form.weight.NonNumeric? && !(Filled(form.age) && form.age.NonNumeric?)
  }

  /** `formattedData`: name and gender as given, height and weight through
      `parseFloat`, and `age` through `parseInt` only when it was entered. */
  function FormatUser(form: UserForm): (d: Obj)
    requires form.height.Numeric? && form.weight.Numeric? && !form.age.NonNumeric?
    ensures d.Keys == {"name", "height_cm", "weight_kg", "gender"} + (if form.age.Numeric? then {"age"} else {})
    ensures d["name"] == JStr(form.name) && d["gender"] == JStr(form.gender)
    ensures d["height_cm"] == JNum(form.height.value) && d["weight_kg"] == JNum(form.weight.value)
    ensures form.age.Numeric? ==> d["age"] == JInt(Trunc(form.age.value))
  {
    var base := map["name" := JStr(form.name), "height_cm" := JNum(form.height.value),
                    "weight_kg" := JNum(form.weight.value), "gender" := JStr(form.gender)];
    if form.age.Numeric? then base["age" := JInt(Trunc(form.age.value))] else base
  }

  /** `handleNext`. When editing, the stored profile (`stored`, `None` when
      nothing is stored) is overlaid with the new data and stamped with
      `updatedAt` (`now`), and the screen goes back; otherwise the formatted
      data alone goes on to the body fat screen. */
  function UserInfoNext(form: UserForm, isEditing: bool, stored: Option<Obj>, now: Value): (r: Result<Nav>)
    ensures r == Err(REQUIRED_FIELDS) <==> !IsFormValid(form)
    ensures r.Ok? <==> IsFormValid(form) && NumbersValid(form)
    ensures r.Ok? && !isEditing ==> r.value.route == BodyFat && r.value.userData == FormatUser(form)
    ensures r.Ok? && !isEditing ==> ("age" in r.value.userData <==> Filled(form.age))
    ensures r.Ok? && isEditing ==> r.value.route == GoBack
    ensures r.Ok? && isEditing ==>
      var saved := r.value.userData;
      && saved.Keys == SpreadOpt(stored).Keys + FormatUser(form).Keys + {"updatedAt"}
      && saved["updatedAt"] == now
      && (forall k | k in FormatUser(form) && k != "updatedAt" :: saved[k] == FormatUser(form)[k])
      && (forall k | k in SpreadOpt(stored) && k !in FormatUser(form) && k != "updatedAt" ::
            saved[k] == SpreadOpt(stored)[k])
  {
    if !IsFormValid(form) then Err(REQUIRED_FIELDS)
    else if !NumbersValid(form) then Err(NOT_NUMBERS)
    else
      var data := FormatUser(form);
      if isEditing then Ok(Nav(GoBack, Spread(Spread(SpreadOpt(stored), data), map["updatedAt" := now])))
      else Ok(Nav(BodyFat, data))
  }

  // ---------------------------------------------------------------------------
  // BodyFatScreen

  /** `handleNext`: an empty field passes the profile on untouched; otherwise
      the entry must be a number from 0 to 100 inclusive and is added as
      `fat_percentage`. */
  function BodyFatNext(fat: Input, userData: Option<Obj>): (r: Result<Nav>)
    ensures r.Ok? <==> fat.Blank? || (fat.Numeric? && 0.0 <= fat.value <= 100.0)
    ensures r.Ok? ==> r.value.route == ExperienceLevel
    ensures fat.Blank? ==> r.Ok? && r.value.userData == SpreadOpt(userData)
    ensures r.Ok? && fat.Numeric? ==>
      && r.value.userData.Keys == SpreadOpt(userData).Keys + {"fat_percentage"}
      && r.value.userData["fat_percentage"] == JNum(fat.value)
      && forall k | k in SpreadOpt(userData) && k != "fat_percentage" :: r.value.userData[k] == SpreadOpt(userData)[k]
  {
    match fat
    case Blank => Ok(Nav(ExperienceLevel, SpreadOpt(userData)))
    case NonNumeric => Err("Please enter a valid body fat percentage (0-100).")
    case Numeric(v) =>
      if v < 0.0 || v > 100.0 then Err("Please enter a valid body fat percentage (0-100).")
      else Ok(Nav(ExperienceLevel, Spread(SpreadOpt(userData), map["fat_percentage" := JNum(v)])))
  }

  /** The profile the first two screens build reads back, field by field,
      the way the backend's profile schema reads it: the typed name and
      gender, the entered height and weight, and a body fat that is absent
      when skipped and the entered value otherwise. */
  lemma ProfileThroughBodyFat(form: UserForm, fat: Input, now: Value)
    requires UserInfoNext(form, false, None, now).Ok?
    requires BodyFatNext(fat, Some(UserInfoNext(form, false, None, now).value.userData)).Ok?
    ensures var d := BodyFatNext(fat, Some(UserInfoNext(form, false, None, now).value.userData)).value.userData;
      && ReqStr(d, "name") == Ok(form.name)
      && ReqStr(d, "gender") == Ok(form.gender)
      && ReqFloat(d, "height_cm") == Ok(form.height.value)
      && ReqFloat(d, "weight_kg") == Ok(form.weight.value)
      && OptFloat(d, "fat_percentage") == (if fat.Blank? then Ok(None) else Ok(Some(fat.value)))
  {
    var u := UserInfoNext(form, false, None, now).value.userData;
    assert u == FormatUser(form);
    assert "fat_percentage" !in u;
  }

  // ---------------------------------------------------------------------------
  // StrengthScreen

  const GYM_FIELDS: seq<string> := ["bench_press_max", "squat_max", "deadlift_max"]
  const HOME_FIELDS: seq<string> := ["pushups_reps", "pullups_reps", "bodyweight_squats_reps"]

  /** The fields the screen asks for. */
  function Fields(isGym: bool): seq<string> {
    if isGym then GYM_FIELDS else HOME_FIELDS
  }

  /** The strength form, field name to field. */
  type StrengthForm = map<string, Input>

  /** The form the screen starts with: the three fields of its kind, empty. */
  function InitialStrength(isGym: bool): (form: StrengthForm)
    ensures form.Keys == {Fields(isGym)[0], Fields(isGym)[1], Fields(isGym)[2]}
    ensures forall f | f in form :: form[f] == Blank
  {
    var fs := Fields(isGym);
    map[fs[0] := Blank, fs[1] := Blank, fs[2] := Blank]
  }

  /** A field passes when it is present, filled, numeric and not negative. */
  predicate StrengthValid(form: StrengthForm, f: string) {
    f in form && form[f].Numeric? && form[f].value >= 0.0
  }

  /** The `for ... of fields` loop: the first field that fails, if any. */
  function FirstInvalid(fields: seq<string>, form: StrengthForm): (r: Option<nat>)
    ensures r.Some? ==> r.value < |fields| && !StrengthValid(form, fields[r.value])
    ensures r.Some? ==> forall j | 0 <= j < r.value :: StrengthValid(form, fields[j])
    ensures r.None? <==> forall j | 0 <= j < |fields| :: StrengthValid(form, fields[j])
  {
    if |fields| == 0 then None
    else if !StrengthValid(form, fields[0]) then Some(0)
    else
      match FirstInvalid(fields[1..], form)
      case None => None
      case Some(k) => Some(k + 1)
  }

  /** `field.replace('_', ' ')`: only the first underscore is replaced. */
  function ReplaceFirstUnderscore(s: string): (r: string)
    ensures !Contains(s, "_") ==> r == s
    ensures Contains(s, "_") ==>
      (&& |r| == |s| && r[Find(s, "_").value] == ' '
       && forall j | 0 <= j < |s| && j != Find(s, "_").value :: r[j] == s[j])
  {
    match Find(s, "_")
    case None => s
    case Some(i) => s[..i] + " " + s[i + 1..]
  }

  /** `parseFloat` of every entry of the form; a field that is not a number
      would give NaN, which JSON carries as null. */
  function FormatStrength(form: StrengthForm): (d: Obj)
    ensures d.Keys == form.Keys
    ensures forall f | f in form && form[f].Numeric? :: d[f] == JNum(form[f].value)
  {
    map f | f in form :: if form[f].Numeric? then JNum(form[f].value) else JNull
  }

  /** `handleNext`. Without a profile carrying a truthy `workoutType` the
      screen shows an error and cannot go on. A "gym" profile must give the
      three barbell maxima and goes to the gym equipment screen with
      `gym_strength`; any other type must give the three bodyweight counts
      and goes to the home equipment screen with `home_strength`. The first
      field that fails is named in the alert. */
  function StrengthNext(userData: Option<Obj>, form: StrengthForm): (r: Result<Nav>)
    ensures userData.None? || !PropTruthy(userData.value, "workoutType") ==> r.Err?
    ensures userData.Some? && PropTruthy(userData.value, "workoutType") ==>
      var isGym := userData.value["workoutType"] == JStr("gym");
      var fields := Fields(isGym);
      && (r.Ok? <==> forall j | 0 <= j < |fields| :: StrengthValid(form, fields[j]))
      && (r.Err? ==>
            (&& FirstInvalid(fields, form).Some?
             && r.error == "Please enter a valid number for " + ReplaceFirstUnderscore(fields[FirstInvalid(fields, form).value]) + "."))
      && (r.Ok? ==> r.value.route == (if isGym then GymEquipment else Equipment))
      && (r.Ok? ==> var key := if isGym then "gym_strength" else "home_strength";
            && r.value.userData.Keys == userData.value.Keys + {key}
            && r.value.userData[key] == JObj(FormatStrength(form))
            && forall k | k in userData.value && k != key :: r.value.userData[k] == userData.value[k])
  {
    if userData.None? || !PropTruthy(userData.value, "workoutType") then
      Err("Error: workoutType not set.")
    else
      var isGym := userData.value["workoutType"] == JStr("gym");
      var fields := Fields(isGym);
      match FirstInvalid(fields, form)
      case Some(k) => Err("Please enter a valid number for " + ReplaceFirstUnderscore(fields[k]) + ".")
      case None =>
        var key := if isGym then "gym_strength" else "home_strength";
        Ok(Nav(if isGym then GymEquipment else Equipment,
               Spread(userData.value, map[key := JObj(FormatStrength(form))])))
  }

  /** Filling the gym form field by field from its empty start with valid
      maxima gives a `gym_strength` that the backend's strength schema reads
      back as exactly those three numbers. */
  lemma GymStrengthAccepted(userData: Obj, bench: real, squat: real, deadlift: real)
    requires PropTruthy(userData, "workoutType") && userData["workoutType"] == JStr("gym")
    requires bench >= 0.0 && squat >= 0.0 && deadlift >= 0.0
    ensures var form := InitialStrength(true)["bench_press_max" := Numeric(bench)]
                          ["squat_max" := Numeric(squat)]["deadlift_max" := Numeric(deadlift)];
      && StrengthNext(Some(userData), form).Ok?
      && ValidateGymStrength(StrengthNext(Some(userData), form).value.userData["gym_strength"]) ==
           Ok(GymStrength(bench, squat, deadlift))
  {
    var form := InitialStrength(true)["bench_press_max" := Numeric(bench)]
                  ["squat_max" := Numeric(squat)]["deadlift_max" := Numeric(deadlift)];
    assert forall j | 0 <= j < |GYM_FIELDS| :: StrengthValid(form, GYM_FIELDS[j]);
    var d := FormatStrength(form);
    assert d["bench_press_max"] == JNum(bench);
    assert d["squat_max"] == JNum(squat);
    assert d["deadlift_max"] == JNum(deadlift);
  }

  /** Filling the home form with counts that are not negative always gets
      past the screen. The backend's home strength schema then reads the
      payload exactly when every count is a whole number, and reads back
      those three numbers. */
  lemma HomeStrengthAccepted(userData: Obj, pushups: real, pullups: real, squats: real)
    requires PropTruthy(userData, "workoutType") && userData["workoutType"] != JStr("gym")
    requires pushups >= 0.0 && pullups >= 0.0 && squats >= 0.0
    ensures var form := InitialStrength(false)["pushups_reps" := Numeric(pushups)]
                          ["pullups_reps" := Numeric(pullups)]["bodyweight_squats_reps" := Numeric(squats)];
      && StrengthNext(Some(userData), form).Ok?
      && var v := ValidateHomeStrength(StrengthNext(Some(userData), form).value.userData["home_strength"]);
         && (v.Ok? <==> Whole(pushups) && Whole(pullups) && Whole(squats))
         && (v.Ok? ==> v.value == HomeStrength(pushups.Floor, pullups.Floor, squats.Floor))
  {
    var form := InitialStrength(false)["pushups_reps" := Numeric(pushups)]
                  ["pullups_reps" := Numeric(pullups)]["bodyweight_squats_reps" := Numeric(squats)];
    assert forall j | 0 <= j < |HOME_FIELDS| :: StrengthValid(form, HOME_FIELDS[j]);
    var d := FormatStrength(form);
    assert d["pushups_reps"] == JNum(pushups);
    assert d["pullups_reps"] == JNum(pullups);
    assert d["bodyweight_squats_reps"] == JNum(squats);
  }

  /** An untouched form is always refused, naming its first field. */
  lemma EmptyStrengthRefused(userData: Obj, isGym: bool)
    requires PropTruthy(userData, "workoutType")
    requires isGym <==> userData["workoutType"] == JStr("gym")
    ensures StrengthNext(Some(userData), InitialStrength(isGym)).Err?
    ensures FirstInvalid(Fields(isGym), InitialStrength(isGym)) == Some(0)
  {
    var fields := Fields(isGym);
    assert fields[0] in InitialStrength(isGym);
    assert !StrengthValid(InitialStrength(isGym), fields[0]);
  }
}

=== FILE: progression.dfy ===
/** The two feedback rules of backend/workout_generator.py that do not call
    the language model: `apply_slight_progression`, which moves every exercise
    of a day up one notch, and `needs_modification`, which decides from the
    feedback whether the day must be regenerated instead. */
module Progression {
  import opened Wrappers
  import opened Models
  import opened Weights

  // ---------------------------------------------------------------------------
  // apply_slight_progression

  /** One more repetition, unless the exercise is "AMRAP". */
  function NextReps(r: Reps): (r': Reps)
    ensures r.Amrap? <==> r'.Amrap?
    ensures r.Count? ==> r'.n == r.n + 1
  {
    match r
    case Count(n) => Count(n + 1)
    case Amrap => Amrap
  }

  /** Whether the weight step can be taken: a missing weight is not one of
      the pass-through strings, so the source calls `.replace` on `None` and
      raises; an unreadable string makes `float` raise. */
  predicate WeightSteps(e: Exercise) {
    e.weight.Some? && StepWeight(e.weight.value, e.name).Ok?
  }

  /** One exercise after the progression step. */
  function ProgressExercise(e: Exercise): (r: Result<Exercise>)
    ensures r.Ok? <==> WeightSteps(e)
    ensures r.Ok? ==> r.value.name == e.name && r.value.sets == e.sets && r.value.reps == NextReps(e.reps)
    ensures r.Ok? ==> r.value.weight == Some(StepWeight(e.weight.value, e.name).value)
  {
    match e.weight
    case None => Err("'NoneType' object has no attribute 'replace'")
    case Some(w) =>
      match StepWeight(w, e.name)
      case Err(msg) => Err(msg)
      case Ok(w') => Ok(Exercise(e.name, e.sets, NextReps(e.reps), Some(w')))
  }

  function ProgressAll(exs: seq<Exercise>): (r: Result<seq<Exercise>>)
    ensures r.Ok? <==> forall i | 0 <= i < |exs| :: WeightSteps(exs[i])
    ensures r.Ok? ==> |r.value| == |exs|
    ensures r.Ok? ==> forall i | 0 <= i < |exs| :: ProgressExercise(exs[i]) == Ok(r.value[i])
  {
    if |exs| == 0 then Ok([])
    else
      match ProgressExercise(exs[0])
      case Err(msg) => Err(msg)
      case Ok(e) =>
        match ProgressAll(exs[1..])
        case Err(msg) => Err(msg)
        case Ok(rest) => Ok([e] + rest)
  }

  /** `apply_slight_progression(workout)`: the same day with the same
      exercises in the same order, names and sets unchanged, one more rep for
      every counted exercise, pass-through weights kept and every other
      weight one grid step up. The first exercise whose weight cannot be
      stepped makes the whole call fail. */
  function ApplySlightProgression(w: DailyWorkout): (r: Result<DailyWorkout>)
    ensures r.Ok? <==> forall i | 0 <= i < |w.exercises| :: WeightSteps(w.exercises[i])
    ensures r.Ok? ==> r.value.day == w.day && |r.value.exercises| == |w.exercises|
    ensures r.Ok? ==> forall i | 0 <= i < |w.exercises| ::
      var e, e' := w.exercises[i], r.value.exercises[i];
      && e'.name == e.name && e'.sets == e.sets
      && (e.reps.Amrap? ==> e'.reps.Amrap?)
      && (e.reps.Count? ==> e'.reps == Count(e.reps.n + 1))
      && (e.weight.value in SENTINELS ==> e'.weight == e.weight)
      && (e.weight.value !in SENTINELS ==> e'.weight == Some(StepWeight(e.weight.value, e.name).value))
      && e'.weight.Some?
  {
    match ProgressAll(w.exercises)
    case Err(msg) => Err(msg)
    case Ok(exs) =>
      assert forall i | 0 <= i < |w.exercises| :: Progressed(w.exercises[i], exs[i]) by {
        forall i | 0 <= i < |w.exercises| ensures Progressed(w.exercises[i], exs[i]) {
          ProgressedOne(w.exercises[i], exs[i]);
        }
      }
      Ok(DailyWorkout(w.day, exs))
  }

  /** What one progressed exercise keeps and changes. */
  predicate Progressed(e: Exercise, e': Exercise) {
    && e'.name == e.name && e'.sets == e.sets
    && (e.reps.Amrap? ==> e'.reps.Amrap?)
    && (e.reps.Count? ==> e'.reps == Count(e.reps.n + 1))
    && (e.weight.Some? && e.weight.value in SENTINELS ==> e'.weight == e.weight)
    && (WeightSteps(e) ==> e'.weight == Some(StepWeight(e.weight.value, e.name).value))
    && e'.weight.Some?
  }

  lemma ProgressedOne(e: Exercise, e': Exercise)
    requires ProgressExercise(e) == Ok(e')
    ensures Progressed(e, e')
  {
  }

  /** Grid weights written as the rounding writes them go up by exactly one
      step: 5 kg for barbell lifts, 2.5 kg for the rest. */
  lemma ProgressionOnGrid(w: DailyWorkout, tenths: seq<int>)
    requires |tenths| == |w.exercises|
    requires forall i | 0 <= i < |w.exercises| ::
      w.exercises[i].weight == Some(FormatTenths(tenths[i])) &&
      tenths[i] % Increment(ClassOf(w.exercises[i].name)) == 0
    ensures ApplySlightProgression(w).Ok?
    ensures forall i | 0 <= i < |w.exercises| ::
      ApplySlightProgression(w).value.exercises[i].weight ==
      Some(FormatTenths(tenths[i] + Increment(ClassOf(w.exercises[i].name))))
  {
    forall i | 0 <= i < |w.exercises|
      ensures StepWeight(FormatTenths(tenths[i]), w.exercises[i].name) ==
        Ok(FormatTenths(tenths[i] + Increment(ClassOf(w.exercises[i].name))))
    {
      StepOnGrid(tenths[i], w.exercises[i].name);
    }
  }

  // ---------------------------------------------------------------------------
  // needs_modification

  /** `{e.name: (e.sets, e.reps) for e in exercises}`: a later exercise with
      the same name overwrites an earlier one. */
  function Prescribed(exs: seq<Exercise>): map<string, (int, Reps)>
    decreases |exs|
  {
    if |exs| == 0 then map[]
    else
      var last := exs[|exs| - 1];
      Prescribed(exs[..|exs| - 1])[last.name := (last.sets, last.reps)]
  }

  /** The entry for a name is that of the LAST exercise carrying it, and
      every name of the workout has an entry. */
  lemma {:induction false} PrescribedLastWins(exs: seq<Exercise>, i: int)
    requires 0 <= i < |exs|
    requires forall j | i < j < |exs| :: exs[j].name != exs[i].name
    ensures exs[i].name in Prescribed(exs)
    ensures Prescribed(exs)[exs[i].name] == (exs[i].sets, exs[i].reps)
    decreases |exs|
  {
    if i < |exs| - 1 {
      PrescribedLastWins(exs[..|exs| - 1], i);
    }
  }

  /** Only names of the workout get an entry. */
  lemma {:induction false} PrescribedKeys(exs: seq<Exercise>, name: string)
    ensures name in Prescribed(exs) <==> exists j | 0 <= j < |exs| :: exs[j].name == name
    decreases |exs|
  {
    if |exs| > 0 {
      var init := exs[..|exs| - 1];
      PrescribedKeys(init, name);
      if exists j | 0 <= j < |init| :: init[j].name == name {
        var j :| 0 <= j < |init| && init[j].name == name;
        assert exs[j].name == name;
      }
      if exists j | 0 <= j < |exs| :: exs[j].name == name {
        var j :| 0 <= j < |exs| && exs[j].name == name;
        if j < |exs| - 1 {
          assert init[j].name == name;
        }
      }
    }
  }

  /** `prescribed.get(name, (0, 0))`. */
  function Lookup(prescribed: map<string, (int, Reps)>, name: string): (int, Reps) {
    if name in prescribed then prescribed[name] else (0, Count(0))
  }

  /** The per-entry test: difficulty 1, 2, 4 or 5, or, when neither the
      completed nor the prescribed reps are "AMRAP", fewer sets or fewer reps
      than prescribed. */
  predicate Triggers(f: ExerciseFeedback, prescribed: map<string, (int, Reps)>) {
    var (sets, reps) := Lookup(prescribed, f.name);
    || f.difficulty in {1, 2, 4, 5}
    || (f.repsCompleted.Count? && reps.Count? &&
        (f.setsCompleted < sets || f.repsCompleted.n < reps.n))
  }

  /** The loop of `needs_modification`: scan the entries in order and answer
      true at the first one that triggers. */
  function Scan(entries: seq<ExerciseFeedback>, prescribed: map<string, (int, Reps)>): bool {
    if |entries| == 0 then false
    else if Triggers(entries[0], prescribed) then true
    else Scan(entries[1..], prescribed)
  }

  function NeedsModification(feedback: DailyWorkoutFeedback, previous: DailyWorkout): bool {
    Scan(feedback.feedback, Prescribed(previous.exercises))
  }

  /** The scan answers true exactly when some entry triggers. */
  lemma {:induction false} ScanExists(entries: seq<ExerciseFeedback>, prescribed: map<string, (int, Reps)>)
    ensures Scan(entries, prescribed) <==> exists i | 0 <= i < |entries| :: Triggers(entries[i], prescribed)
  {
    if |entries| > 0 {
      ScanExists(entries[1..], prescribed);
      if exists i | 0 <= i < |entries[1..]| :: Triggers(entries[1..][i], prescribed) {
        var i :| 0 <= i < |entries[1..]| && Triggers(entries[1..][i], prescribed);
        assert Triggers(entries[i + 1], prescribed);
      }
      if exists i | 0 <= i < |entries| :: Triggers(entries[i], prescribed) {
        var i :| 0 <= i < |entries| && Triggers(entries[i], prescribed);
        if i > 0 {
          assert Triggers(entries[1..][i - 1], prescribed);
        }
      }
    }
  }

  /** `needs_modification` is true exactly when some feedback entry has
      difficulty 1, 2, 4 or 5, or falls short of its prescription in sets or
      reps with no "AMRAP" on either side; unknown names are held against
      (0, 0), and no feedback at all means no modification. */
  lemma NeedsModificationIff(feedback: DailyWorkoutFeedback, previous: DailyWorkout)
    ensures NeedsModification(feedback, previous) <==>
      exists i | 0 <= i < |feedback.feedback| :: Triggers(feedback.feedback[i], Prescribed(previous.exercises))
    ensures |feedback.feedback| == 0 ==> !NeedsModification(feedback, previous)
  {
    ScanExists(feedback.feedback, Prescribed(previous.exercises));
  }

  /** With an "AMRAP" on either side, only the difficulty matters: the sets
      shortfall is not checked either. */
  lemma AmrapSkipsShortfall(f: ExerciseFeedback, prescribed: map<string, (int, Reps)>)
    requires f.repsCompleted.Amrap? || Lookup(prescribed, f.name).1.Amrap?
    ensures Triggers(f, prescribed) <==> f.difficulty in {1, 2, 4, 5}
  {
  }
}

=== FILE: schemas.dfy ===
/** Request and response validation (backend/schemas.py): the pydantic field
    constraints as validity predicates, and validators that read a JSON body
    into the record types of `Models`, filling in the declared defaults. */
module Schemas {
  import opened Wrappers
  import opened Json
  import opened Models
  import Seqs

  const GENDERS: set<string> := {"male", "female", "other"}

  const FITNESS_GOALS: set<string> :=
    {"lose_weight", "build_muscle", "stay_fit", "improve_endurance", "increase_flexibility"}

  const EXPERIENCE_LEVELS: set<int> := {1, 2, 3}

  /** `difficulty: Literal[1, 2, 3, 4, 5]`. */
  const DIFFICULTIES: set<int> := {1, 2, 3, 4, 5}

  /** `experience_level` when the field is omitted (beginner). */
  const DEFAULT_EXPERIENCE_LEVEL: int := 1

  /** The constraints `UserFitnessInputSchema` places on a profile. */
  predicate ValidUser(u: UserFitnessInput) {
    && (u.age.None? || u.age.value >= 1)
    && (u.experienceLevel.None? || u.experienceLevel.value in EXPERIENCE_LEVELS)
    && (u.fitnessGoal.None? || u.fitnessGoal.value in FITNESS_GOALS)
    && u.gender in GENDERS
  }

  /** The constraints `ExerciseFeedbackSchema` places on one feedback entry. */
  predicate ValidFeedback(f: ExerciseFeedback) {
    1 <= f.difficulty <= 5 && (f.sorenessLevel.None? || 1 <= f.sorenessLevel.value <= 5)
  }

  predicate ValidDailyFeedback(d: DailyWorkoutFeedback) {
    forall i | 0 <= i < |d.feedback| :: ValidFeedback(d.feedback[i])
  }

  // ---------------------------------------------------------------------------
  // Field readers (a missing key and a wrongly typed value are validation errors)

  function ReqStr(o: Obj, key: string): (r: Result<string>)
    ensures r.Ok? <==> key in o && o[key].JStr?
    ensures r.Ok? ==> o[key] == JStr(r.value)
  {
    if key in o && o[key].JStr? then Ok(o[key].s) else Err(key + ": string required")
  }

  function ReqInt(o: Obj, key: string): (r: Result<int>)
    ensures r.Ok? <==> key in o && (o[key].JInt? || (o[key].JNum? && Whole(o[key].r)))
    ensures r.Ok? ==> o[key] == JInt(r.value) || o[key] == JNum(r.value as real)
  {
    if key in o then LaxInt(o[key]) else Err(key + ": field required")
  }

  /** A `Literal` of integers: read from a JSON integer only, which must be
      one of `allowed`. */
  function ReqLiteral(o: Obj, key: string, allowed: set<int>): (r: Result<int>)
    ensures r.Ok? <==> key in o && o[key].JInt? && o[key].i in allowed
    ensures r.Ok? ==> o[key] == JInt(r.value)
  {
    if key in o && o[key].JInt? && o[key].i in allowed then Ok(o[key].i)
    else Err(key + ": value not permitted")
  }

  /** A `float` field also accepts an integer. */
  function FloatOf(v: Value): Result<real> {
    match v
    case JNum(r) => Ok(r)
    case JInt(n) => Ok(n as real)
    case _ => Err("number required")
  }

  function ReqFloat(o: Obj, key: string): Result<real> {
    if key in o then FloatOf(o[key]) else Err(key + ": field required")
  }

  /** `Optional[float] = None`. */
  function OptFloat(o: Obj, key: string): Result<Option<real>> {
    if key !in o || o[key] == JNull then Ok(None)
    else var r :- FloatOf(o[key]); Ok(Some(r))
  }

  /** `Optional[str] = None`. */
  function OptStrField(o: Obj, key: string): Result<Option<string>> {
    if key !in o || o[key] == JNull then Ok(None)
    else if o[key].JStr? then Ok(Some(o[key].s))
    else Err(key + ": string required")
  }

  /** `Optional[int]` restricted to `allowed`, with `default` when the key is
      missing and `None` for an explicit null; the integer is read as in
      `LaxInt`. */
  function OptIntIn(o: Obj, key: string, allowed: int -> bool, default: Option<int>): (r: Result<Option<int>>)
    ensures r.Ok? && r.value.Some? ==> allowed(r.value.value) || (key !in o && default == r.value)
    ensures key in o && o[key] != JNull ==> (r.Ok? <==> LaxInt(o[key]).Ok? && allowed(LaxInt(o[key]).value))
  {
    if key !in o then Ok(default)
    else if o[key] == JNull then Ok(None)
    else
      match LaxInt(o[key])
      case Ok(n) => if allowed(n) then Ok(Some(n)) else Err(key + ": value not permitted")
      case Err(e) => Err(e)
  }

  /** `Optional[Literal[...]]` with `default` when the key is missing and
      `None` for an explicit null. */
  function OptLiteral(o: Obj, key: string, allowed: set<int>, default: Option<int>): (r: Result<Option<int>>)
    ensures r.Ok? && r.value.Some? ==> r.value.value in allowed || (key !in o && default == r.value)
    ensures key in o && o[key] != JNull ==> (r.Ok? <==> o[key].JInt? && o[key].i in allowed)
  {
    if key !in o then Ok(default)
    else if o[key] == JNull then Ok(None)
    else if o[key].JInt? && o[key].i in allowed then Ok(Some(o[key].i))
    else Err(key + ": value not permitted")
  }

  /** A `List[str]` field: every element must be a string. */
  function StrList(items: seq<Value>): (r: Result<seq<string>>)
    ensures r.Ok? ==> StrArray(r.value).items == items
  {
    if |items| == 0 then Ok([])
    else if !items[0].JStr? then Err("string required")
    else
      var rest :- StrList(items[1..]);
      assert StrArray([items[0].s] + rest).items == [items[0]] + StrArray(rest).items;
      Ok([items[0].s] + rest)
  }

  lemma {:induction false} StrListRoundTrip(xs: seq<string>)
    ensures StrList(StrArray(xs).items) == Ok(xs)
  {
    if |xs| > 0 {
      StrListRoundTrip(xs[1..]);
      assert StrArray(xs).items[1..] == StrArray(xs[1..]).items;
      assert [xs[0]] + xs[1..] == xs;
    }
  }

  /** Validate every element of a JSON list with `f`, keeping order. */
  function ListOf<T>(items: seq<Value>, f: Value -> Result<T>): (r: Result<seq<T>>)
    ensures r.Ok? ==> |r.value| == |items|
    ensures r.Ok? ==> forall i | 0 <= i < |items| :: f(items[i]) == Ok(r.value[i])
    ensures r.Ok? <==> forall i | 0 <= i < |items| :: f(items[i]).Ok?
  {
    if |items| == 0 then Ok([])
    else
      match f(items[0])
      case Err(e) => Err(e)
      case Ok(x) =>
        match ListOf(items[1..], f)
        case Err(e) => Err(e)
        case Ok(rest) => Ok([x] + rest)
  }

  /** Decoding a list of encoded elements gives back the list exactly when
      every element decodes back to itself. */
  lemma {:induction false} ListOfMap<T>(xs: seq<T>, enc: T -> Value, dec: Value -> Result<T>)
    requires forall i | 0 <= i < |xs| :: dec(enc(xs[i])).Ok? ==> dec(enc(xs[i])) == Ok(xs[i])
    ensures ListOf(Seqs.Map(xs, enc), dec) == Ok(xs) <==>
      forall i | 0 <= i < |xs| :: dec(enc(xs[i])) == Ok(xs[i])
  {
    var items := Seqs.Map(xs, enc);
    if forall i | 0 <= i < |xs| :: dec(enc(xs[i])) == Ok(xs[i]) {
      assert forall i | 0 <= i < |items| :: dec(items[i]).Ok?;
      var r := ListOf(items, dec);
      assert forall i | 0 <= i < |xs| :: Ok(r.value[i]) == Ok(xs[i]);
      assert r.value == xs;
    }
  }

  // ---------------------------------------------------------------------------
  // Schemas

  /** `ExerciseSchema`: `reps` is an int or "AMRAP", `weight` is optional and
      defaults to "N/A". */
  function ValidateExercise(v: Value): (r: Result<Exercise>)
    ensures r.Ok? ==> v.JObj?
    ensures r.Ok? && "weight" !in v.fields ==> r.value.weight == Some(DEFAULT_WEIGHT)
    ensures r.Ok? ==> "reps" in v.fields && RepsFromJson(v.fields["reps"]) == Ok(r.value.reps)
  {
    if !v.JObj? then Err("object required")
    else
      var o := v.fields;
      var name :- ReqStr(o, "name");
      var sets :- ReqInt(o, "sets");
      var reps :- if "reps" in o then RepsFromJson(o["reps"]) else Err("reps: field required");
      var weight :- if "weight" !in o then Ok(Some(DEFAULT_WEIGHT)) else OptStrField(o, "weight");
      Ok(Exercise(name, sets, reps, weight))
  }

  /** `DailyWorkoutSchema`. */
  function ValidateDailyWorkout(v: Value): (r: Result<DailyWorkout>)
    ensures r.Ok? ==> v.JObj? && "exercises" in v.fields && v.fields["exercises"].JArr?
    ensures r.Ok? ==> |r.value.exercises| == |v.fields["exercises"].items|
  {
    if !v.JObj? then Err("object required")
    else
      var o := v.fields;
      var day :- ReqStr(o, "day");
      if "exercises" !in o || !o["exercises"].JArr? then Err("exercises: list required")
      else
        var exercises :- ListOf(o["exercises"].items, ValidateExercise);
        Ok(DailyWorkout(day, exercises))
  }

  /** `ExerciseFeedbackSchema`: difficulty is one of 1..5, soreness is optional
      and within 1..5 when present, notes are optional. */
  function ValidateExerciseFeedback(v: Value): (r: Result<ExerciseFeedback>)
    ensures r.Ok? ==> ValidFeedback(r.value)
    ensures r.Ok? ==> v.JObj? && "reps_completed" in v.fields && RepsFromJson(v.fields["reps_completed"]) == Ok(r.value.repsCompleted)
  {
    if !v.JObj? then Err("object required")
    else
      var o := v.fields;
      var name :- ReqStr(o, "name");
      var sets :- ReqInt(o, "sets_completed");
      var reps :- if "reps_completed" in o then RepsFromJson(o["reps_completed"])
                  else Err("reps_completed: field required");
      var difficulty :- ReqLiteral(o, "difficulty", DIFFICULTIES);
      var notes :- OptStrField(o, "notes");
      var soreness :- OptIntIn(o, "soreness_level", (n: int) => 1 <= n <= 5, None);
      Ok(ExerciseFeedback(name, sets, reps, difficulty, notes, soreness))
  }

  /** `DailyWorkoutFeedbackSchema`. */
  function ValidateDailyWorkoutFeedback(v: Value): (r: Result<DailyWorkoutFeedback>)
    ensures r.Ok? ==> ValidDailyFeedback(r.value)
  {
    if !v.JObj? then Err("object required")
    else
      var o := v.fields;
      var day :- ReqStr(o, "day");
      if "feedback" !in o || !o["feedback"].JArr? then Err("feedback: list required")
      else
        var entries :- ListOf(o["feedback"].items, ValidateExerciseFeedback);
        Ok(DailyWorkoutFeedback(day, entries))
  }

  function ValidateGymStrength(v: Value): Result<GymStrength> {
    if !v.JObj? then Err("object required")
    else
      var bench :- ReqFloat(v.fields, "bench_press_max");
      var squat :- ReqFloat(v.fields, "squat_max");
      var deadlift :- ReqFloat(v.fields, "deadlift_max");
      Ok(GymStrength(bench, squat, deadlift))
  }

  function ValidateHomeStrength(v: Value): Result<HomeStrength> {
    if !v.JObj? then Err("object required")
    else
      var pushups :- ReqInt(v.fields, "pushups_reps");
      var pullups :- ReqInt(v.fields, "pullups_reps");
      var squats :- ReqInt(v.fields, "bodyweight_squats_reps");
      Ok(HomeStrength(pushups, pullups, squats))
  }

  function OptNested<T>(o: Obj, key: string, f: Value -> Result<T>): Result<Option<T>> {
    if key !in o || o[key] == JNull then Ok(None)
    else var x :- f(o[key]); Ok(Some(x))
  }

  /** `UserFitnessInputSchema`: every accepted profile satisfies `ValidUser`;
      an omitted `experience_level` becomes 1 and an omitted `fitness_goal`
      or `age` becomes `None`. */
  function ValidateUser(v: Value): (r: Result<UserFitnessInput>)
    ensures r.Ok? ==> ValidUser(r.value)
    ensures r.Ok? && v.JObj? && "experience_level" !in v.fields ==> r.value.experienceLevel == Some(DEFAULT_EXPERIENCE_LEVEL)
    ensures r.Ok? && v.JObj? && "age" !in v.fields ==> r.value.age.None?
    ensures r.Ok? && v.JObj? && "fitness_goal" !in v.fields ==> r.value.fitnessGoal.None?
  {
    if !v.JObj? then Err("object required")
    else
      var o := v.fields;
      var name :- ReqStr(o, "name");
      var age :- OptIntIn(o, "age", (n: int) => n >= 1, None);
      var height :- ReqFloat(o, "height_cm");
      var weight :- ReqFloat(o, "weight_kg");
      var fat :- OptFloat(o, "fat_percentage");
      var level :- OptLiteral(o, "experience_level", EXPERIENCE_LEVELS, Some(DEFAULT_EXPERIENCE_LEVEL));
      var equipment :- if "equipment" in o && o["equipment"].JArr? then StrList(o["equipment"].items) else Err("equipment: list required");
      var goal :- OptStrField(o, "fitness_goal");
      if goal.Some? && goal.value !in FITNESS_GOALS then Err("fitness_goal: value not permitted")
      else
        var gender :- ReqStr(o, "gender");
        if gender !in GENDERS then Err("gender: value not permitted")
        else
          var gym :- OptNested(o, "gym_strength", ValidateGymStrength);
          var home :- OptNested(o, "home_strength", ValidateHomeStrength);
          Ok(UserFitnessInput(name, age, height, weight, fat, level, equipment, goal, gender, gym, home))
  }

  // ---------------------------------------------------------------------------
  // Serialise, then validate

  /** A workout's `dict()` validates back to the same workout: count, order and
      every field of every exercise survive. */
  lemma DailyWorkoutRoundTrip(w: DailyWorkout)
    ensures ValidateDailyWorkout(DailyWorkoutToDict(w)) == Ok(w)
  {
    forall i | 0 <= i < |w.exercises|
      ensures ValidateExercise(ExerciseToDict(w.exercises[i])) == Ok(w.exercises[i])
    {
    }
    ListOfMap(w.exercises, ExerciseToDict, ValidateExercise);
  }

  lemma ExerciseFeedbackRoundTrip(f: ExerciseFeedback)
    ensures ValidateExerciseFeedback(ExerciseFeedbackToDict(f)) == Ok(f) <==> ValidFeedback(f)
    ensures ValidateExerciseFeedback(ExerciseFeedbackToDict(f)).Ok? ==>
      ValidateExerciseFeedback(ExerciseFeedbackToDict(f)) == Ok(f)
  {
    var o := ExerciseFeedbackToDict(f).fields;
    RepsReadBack(f.repsCompleted);
  }

  /** Feedback for a day survives `dict()` and validation exactly when every
      entry satisfies the schema's difficulty and soreness bounds. */
  lemma DailyFeedbackRoundTrip(d: DailyWorkoutFeedback)
    ensures ValidateDailyWorkoutFeedback(DailyWorkoutFeedbackToDict(d)) == Ok(d) <==> ValidDailyFeedback(d)
  {
    forall i | 0 <= i < |d.feedback|
      ensures var r := ValidateExerciseFeedback(ExerciseFeedbackToDict(d.feedback[i]));
        (r.Ok? ==> r == Ok(d.feedback[i])) && (r == Ok(d.feedback[i]) <==> ValidFeedback(d.feedback[i]))
    {
      ExerciseFeedbackRoundTrip(d.feedback[i]);
    }
    ListOfMap(d.feedback, ExerciseFeedbackToDict, ValidateExerciseFeedback);
  }

  /** A profile's `dict()` validates back to the same profile exactly when the
      profile satisfies the schema's constraints. */
  lemma UserRoundTrip(u: UserFitnessInput)
    ensures ValidateUser(UserToDict(u)) == Ok(u) <==> ValidUser(u)
  {
    if ValidUser(u) {
      assert UserToDict(u) == JObj(UserFields(u));
      UserFieldsValidate(u);
    }
  }

  /** The fields of a valid profile pass every check of `ValidateUser`. */
  lemma UserFieldsValidate(u: UserFitnessInput)
    requires ValidUser(u)
    ensures ValidateUser(JObj(UserFields(u))) == Ok(u)
  {
    UserFieldsPlain(u);
    UserFieldsOptional(u);
    UserFieldsNested(u);
    ValidateUserFields(UserFields(u), u);
  }

  /** The required entries of a profile's fields read back unchanged. */
  lemma UserFieldsPlain(u: UserFitnessInput)
    ensures var o := UserFields(u);
      && ReqStr(o, "name") == Ok(u.name) && ReqStr(o, "gender") == Ok(u.gender)
      && ReqFloat(o, "height_cm") == Ok(u.heightCm) && ReqFloat(o, "weight_kg") == Ok(u.weightKg)
      && "equipment" in o && o["equipment"].JArr? && StrList(o["equipment"].items) == Ok(u.equipment)
  {
    UserDictText(u);
    UserDictBody(u);
    StrListRoundTrip(u.equipment);
  }

  /** The optional scalar entries of a valid profile's fields read back
      unchanged. */
  lemma UserFieldsOptional(u: UserFitnessInput)
    requires ValidUser(u)
    ensures var o := UserFields(u);
      && OptIntIn(o, "age", (n: int) => n >= 1, None) == Ok(u.age)
      && OptLiteral(o, "experience_level", EXPERIENCE_LEVELS, Some(DEFAULT_EXPERIENCE_LEVEL))
         == Ok(u.experienceLevel)
      && OptFloat(o, "fat_percentage") == Ok(u.fatPercentage)
      && OptStrField(o, "fitness_goal") == Ok(u.fitnessGoal)
  {
    var o := UserFields(u);
    UserDictOptInts(u);
    UserDictOptOthers(u);
    OptIntInOf(o, "age", (n: int) => n >= 1, None, u.age);
    OptLiteralOf(o, "experience_level", EXPERIENCE_LEVELS, Some(DEFAULT_EXPERIENCE_LEVEL), u.experienceLevel);
    OptFloatOf(o, "fat_percentage", u.fatPercentage);
    OptStrFieldOf(o, "fitness_goal", u.fitnessGoal);
  }

  /** The strength entries of a profile's fields read back unchanged. */
  lemma UserFieldsNested(u: UserFitnessInput)
    ensures var o := UserFields(u);
      && OptNested(o, "gym_strength", ValidateGymStrength) == Ok(u.gymStrength)
      && OptNested(o, "home_strength", ValidateHomeStrength) == Ok(u.homeStrength)
  {
    UserDictNested(u);
    GymOf(UserFields(u), u.gymStrength);
    HomeOf(UserFields(u), u.homeStrength);
  }

  /** The text entries of a profile's fields. */
  lemma UserDictText(u: UserFitnessInput)
    ensures var o := UserFields(u);
      && "name" in o && o["name"] == JStr(u.name) && "gender" in o && o["gender"] == JStr(u.gender)
      && "equipment" in o && o["equipment"] == StrArray(u.equipment)
  {
  }

  /** The measurement entries of a profile's fields. */
  lemma UserDictBody(u: UserFitnessInput)
    ensures var o := UserFields(u);
      && "height_cm" in o && o["height_cm"] == JNum(u.heightCm)
      && "weight_kg" in o && o["weight_kg"] == JNum(u.weightKg)
  {
  }

  /** The optional integer entries of a profile's fields. */
  lemma UserDictOptInts(u: UserFitnessInput)
    ensures var o := UserFields(u);
      && "age" in o && o["age"] == OptInt(u.age)
      && "experience_level" in o && o["experience_level"] == OptInt(u.experienceLevel)
  {
  }

  /** The other optional scalar entries of a profile's fields. */
  lemma UserDictOptOthers(u: UserFitnessInput)
    ensures var o := UserFields(u);
      && "fat_percentage" in o && o["fat_percentage"] == OptNum(u.fatPercentage)
      && "fitness_goal" in o && o["fitness_goal"] == OptStr(u.fitnessGoal)
  {
  }

  /** The strength entries of a profile's fields. */
  lemma UserDictNested(u: UserFitnessInput)
    ensures var o := UserFields(u);
      && "gym_strength" in o && o["gym_strength"] == OptGym(u.gymStrength)
      && "home_strength" in o && o["home_strength"] == OptHome(u.homeStrength)
  {
  }

  lemma OptIntInOf(o: Obj, key: string, allowed: int -> bool, default: Option<int>, x: Option<int>)
    requires key in o && o[key] == OptInt(x) && (x.Some? ==> allowed(x.value))
    ensures OptIntIn(o, key, allowed, default) == Ok(x)
  {
  }

  lemma OptLiteralOf(o: Obj, key: string, allowed: set<int>, default: Option<int>, x: Option<int>)
    requires key in o && o[key] == OptInt(x) && (x.Some? ==> x.value in allowed)
    ensures OptLiteral(o, key, allowed, default) == Ok(x)
  {
  }

  lemma OptFloatOf(o: Obj, key: string, x: Option<real>)
    requires key in o && o[key] == OptNum(x)
    ensures OptFloat(o, key) == Ok(x)
  {
  }

  lemma OptStrFieldOf(o: Obj, key: string, x: Option<string>)
    requires key in o && o[key] == OptStr(x)
    ensures OptStrField(o, key) == Ok(x)
  {
  }

  lemma GymOf(o: Obj, g: Option<GymStrength>)
    requires "gym_strength" in o
    requires o["gym_strength"] == OptGym(g)
    ensures OptNested(o, "gym_strength", ValidateGymStrength) == Ok(g)
  {
  }

  lemma HomeOf(o: Obj, h: Option<HomeStrength>)
    requires "home_strength" in o
    requires o["home_strength"] == OptHome(h)
    ensures OptNested(o, "home_strength", ValidateHomeStrength) == Ok(h)
  {
  }

  /** `ValidateUser` accepts an object whose every field reads back as the
      corresponding field of a valid profile. */
  lemma ValidateUserFields(o: Obj, u: UserFitnessInput)
    requires ValidUser(u)
    requires ReqStr(o, "name") == Ok(u.name) && ReqStr(o, "gender") == Ok(u.gender)
    requires OptIntIn(o, "age", (n: int) => n >= 1, None) == Ok(u.age)
    requires ReqFloat(o, "height_cm") == Ok(u.heightCm) && ReqFloat(o, "weight_kg") == Ok(u.weightKg)
    requires OptFloat(o, "fat_percentage") == Ok(u.fatPercentage)
    requires OptLiteral(o, "experience_level", EXPERIENCE_LEVELS, Some(DEFAULT_EXPERIENCE_LEVEL))
      == Ok(u.experienceLevel)
    requires "equipment" in o && o["equipment"].JArr? && StrList(o["equipment"].items) == Ok(u.equipment)
    requires OptStrField(o, "fitness_goal") == Ok(u.fitnessGoal)
    requires OptNested(o, "gym_strength", ValidateGymStrength) == Ok(u.gymStrength)
    requires OptNested(o, "home_strength", ValidateHomeStrength) == Ok(u.homeStrength)
    ensures ValidateUser(JObj(o)) == Ok(u)
  {
  }
}

=== FILE: seqs.dfy ===
/** Sequence helpers standing in for Python list comprehensions and the
    JavaScript `filter`/`includes` used across the application. */
module Seqs {

  /** `[x for x in s if keep(x)]` / `s.filter(keep)`: the elements of `s` that
      satisfy `keep`, in their original order. */
  function Filter<T>(s: seq<T>, keep: T -> bool): (r: seq<T>)
    ensures |r| <= |s|
    ensures forall i | 0 <= i < |r| :: r[i] in s && keep(r[i])
    ensures forall i | 0 <= i < |s| && keep(s[i]) :: s[i] in r
    ensures multiset(r) <= multiset(s)
  {
    if |s| == 0 then []
    else
      assert s == [s[0]] + s[1..];
      if keep(s[0]) then [s[0]] + Filter(s[1..], keep)
      else Filter(s[1..], keep)
  }

  lemma FilterAppend<T>(a: seq<T>, b: seq<T>, keep: T -> bool)
    ensures Filter(a + b, keep) == Filter(a, keep) + Filter(b, keep)
  {
    if |a| > 0 {
      assert (a + b)[1..] == a[1..] + b;
      FilterAppend(a[1..], b, keep);
    } else {
      assert a + b == b;
    }
  }

  /** Filtering with a predicate that every element already satisfies changes nothing. */
  lemma FilterAll<T>(s: seq<T>, keep: T -> bool)
    requires forall i | 0 <= i < |s| :: keep(s[i])
    ensures Filter(s, keep) == s
  {
    if |s| > 0 {
      FilterAll(s[1..], keep);
    }
  }

  /** No element occurs twice. */
  predicate NoDuplicates<T(==)>(s: seq<T>) {
    forall i, j | 0 <= i < j < |s| :: s[i] != s[j]
  }

  /** How often `x` occurs in a sequence with a first element split off. */
  lemma CountCons<T>(s: seq<T>, x: T)
    requires |s| > 0
    ensures multiset(s)[x] == (if s[0] == x then 1 else 0) + multiset(s[1..])[x]
  {
    assert s == [s[0]] + s[1..];
  }

  /** A sequence is the part before position `i`, the element there, and the
      part after it. */
  lemma Around<T>(s: seq<T>, i: int)
    requires 0 <= i < |s|
    ensures s == s[..i] + ([s[i]] + s[i + 1..])
  {
  }

  lemma FilterNoDuplicates<T>(s: seq<T>, keep: T -> bool)
    requires NoDuplicates(s)
    ensures NoDuplicates(Filter(s, keep))
  {
    if |s| > 0 {
      FilterNoDuplicates(s[1..], keep);
      assert s[0] !in s[1..];
    }
  }

  /** `xs.map(f)`. */
  function Map<T, U>(s: seq<T>, f: T -> U): (r: seq<U>)
    ensures |r| == |s|
    ensures forall i | 0 <= i < |s| :: r[i] == f(s[i])
  {
    if |s| == 0 then [] else [f(s[0])] + Map(s[1..], f)
  }
}

=== FILE: text.dfy ===
/** String operations the application relies on, with the exact semantics of
    the host languages: Python's `in`, `str.split`, `str.replace` and
    `str.strip`, JavaScript's `String.prototype.split`, `trim` and
    `Array.prototype.join`, and decimal rendering of integers. */
module Text {
  import opened Wrappers

  /** `pat` occurs in `s` starting at index `i`. */
  predicate OccursAt(s: string, pat: string, i: int) {
    0 <= i && i + |pat| <= |s| && s[i..i + |pat|] == pat
  }

  /** `s.startswith(pat)`. */
  predicate IsPrefix(pat: string, s: string) {
    |pat| <= |s| && s[..|pat|] == pat
  }

  lemma OccursShift(s: string, pat: string, j: int)
    requires |s| > 0 && j >= 0
    ensures OccursAt(s[1..], pat, j) <==> OccursAt(s, pat, j + 1)
  {
    if 0 <= j && j + |pat| <= |s[1..]| {
      assert s[1..][j..j + |pat|] == s[j + 1..j + 1 + |pat|];
    }
  }

  /** Index of the first occurrence of `pat` in `s`, if any. */
  function Find(s: string, pat: string): (r: Option<nat>)
    ensures r.Some? ==> OccursAt(s, pat, r.value)
    ensures r.Some? ==> forall j | 0 <= j < r.value :: !OccursAt(s, pat, j)
    ensures r.None? ==> forall j | 0 <= j <= |s| :: !OccursAt(s, pat, j)
    decreases |s|
  {
    if IsPrefix(pat, s) then
      assert OccursAt(s, pat, 0);
      Some(0)
    else if |s| == 0 then
      None
    else
      var rest := Find(s[1..], pat);
      forall j | 0 <= j < |s[1..]| + 1
        ensures OccursAt(s[1..], pat, j) <==> OccursAt(s, pat, j + 1)
      {
        OccursShift(s, pat, j);
      }
      if rest.Some? then
        assert OccursAt(s, pat, rest.value + 1);
        assert forall j | 1 <= j < rest.value + 1 :: !OccursAt(s, pat, j) by {
          forall j | 1 <= j < rest.value + 1 ensures !OccursAt(s, pat, j) {
            OccursShift(s, pat, j - 1);
          }
        }
        Some(rest.value + 1)
      else
        assert forall i | 0 <= i <= |s| :: !OccursAt(s, pat, i) by {
          forall i | 0 <= i <= |s| ensures !OccursAt(s, pat, i) {
            if i > 0 {
              OccursShift(s, pat, i - 1);
            }
          }
        }
        None
  }

  /** Python `pat in s` for strings. */
  predicate Contains(s: string, pat: string) {
    Find(s, pat).Some?
  }

  /** Position where the first piece of `s.split(sep)` ends. */
  function FirstCut(s: string, sep: string): (k: nat)
    ensures k <= |s|
  {
    match Find(s, sep)
    case Some(i) => i
    case None => |s|
  }

  /** Python `s.split(sep)` (and JavaScript `s.split(sep)`) for a non-empty
      separator: the pieces between non-overlapping occurrences, left to right. */
  function Split(s: string, sep: string): (parts: seq<string>)
    requires |sep| > 0
    ensures |parts| >= 1
    ensures parts[0] == s[..FirstCut(s, sep)]
    ensures |parts| >= 2 <==> Contains(s, sep)
    decreases |s|
  {
    match Find(s, sep)
    case None => [s]
    case Some(i) => [s[..i]] + Split(s[i + |sep|..], sep)
  }

  /** The second piece of a split is what lies between the first and the second
      occurrence of the separator. */
  lemma SplitSecond(s: string, sep: string, i: nat)
    requires |sep| > 0 && Find(s, sep) == Some(i)
    ensures |Split(s, sep)| >= 2
    ensures Split(s, sep)[1] == s[i + |sep|..][..FirstCut(s[i + |sep|..], sep)]
  {
    var rest := s[i + |sep|..];
    var parts := Split(rest, sep);
    SplitAt(s, sep, i);
    assert ([s[..i]] + parts)[1] == parts[0];
  }

  /** One step of `Split` at a known first occurrence. */
  lemma SplitAt(s: string, sep: string, i: nat)
    requires |sep| > 0 && Find(s, sep) == Some(i)
    ensures Split(s, sep) == [s[..i]] + Split(s[i + |sep|..], sep)
  {
  }

  /** JavaScript `xs.join(sep)` (Python `sep.join(xs)`). */
  function Join(xs: seq<string>, sep: string): string {
    if |xs| == 0 then ""
    else if |xs| == 1 then xs[0]
    else xs[0] + sep + Join(xs[1..], sep)
  }

  /** Joining the pieces of a split with the same separator gives back the
      original string. */
  lemma {:induction false} JoinSplit(s: string, sep: string)
    requires |sep| > 0
    ensures Join(Split(s, sep), sep) == s
    decreases |s|
  {
    match Find(s, sep)
    case None =>
    case Some(i) =>
      var rest := s[i + |sep|..];
      JoinSplit(rest, sep);
      assert s == s[..i] + sep + rest by {
        assert s[i..i + |sep|] == sep;
      }
  }

  /** Python `s.replace(pat, by)`: every non-overlapping occurrence, scanning
      left to right, is replaced. */
  function ReplaceAll(s: string, pat: string, repl: string): string
    requires |pat| > 0
    decreases |s|
  {
    if |s| == 0 then ""
    else if IsPrefix(pat, s) then repl + ReplaceAll(s[|pat|..], pat, repl)
    else [s[0]] + ReplaceAll(s[1..], pat, repl)
  }

  /** A prefix free of the pattern's first character is left untouched by a
      replacement. */
  lemma {:induction false} ReplaceSkipsPrefix(s: string, t: string, pat: string, repl: string)
    requires |pat| > 0
    requires forall i | 0 <= i < |s| :: s[i] != pat[0]
    ensures ReplaceAll(s + t, pat, repl) == s + ReplaceAll(t, pat, repl)
    decreases |s|
  {
    if |s| > 0 {
      assert (s + t)[0] == s[0];
      assert !IsPrefix(pat, s + t);
      assert (s + t)[1..] == s[1..] + t;
      ReplaceSkipsPrefix(s[1..], t, pat, repl);
    } else {
      assert s + t == t;
    }
  }

  // ---------------------------------------------------------------------------
  // Whitespace trimming

  /** Characters Python's `str.isspace` accepts (what `str.strip()` removes). */
  predicate PyIsSpace(c: char) {
    var n := c as int;
    (9 <= n <= 13) || (28 <= n <= 32) || n == 0x85 || n == 0xA0 || n == 0x1680
    || (0x2000 <= n <= 0x200A) || n == 0x2028 || n == 0x2029 || n == 0x202F
    || n == 0x205F || n == 0x3000
  }

  /** Characters JavaScript's `String.prototype.trim` removes (WhiteSpace and
      LineTerminator of ECMA-262). */
  predicate JsIsSpace(c: char) {
    var n := c as int;
    (9 <= n <= 13) || n == 32 || n == 0xA0 || n == 0x1680
    || (0x2000 <= n <= 0x200A) || n == 0x2028 || n == 0x2029 || n == 0x202F
    || n == 0x205F || n == 0x3000 || n == 0xFEFF
  }

  /** No surrounding whitespace under the given whitespace class. */
  predicate Stripped(s: string, isSpace: char -> bool) {
    |s| == 0 || (!isSpace(s[0]) && !isSpace(s[|s| - 1]))
  }

  /** Every character of `s` from `lo` up to `hi` is whitespace. */
  predicate AllSpace(s: string, lo: int, hi: int, isSpace: char -> bool) {
    forall k | lo <= k < hi && 0 <= k < |s| :: isSpace(s[k])
  }

  /** The first position at or after `i` that is not whitespace, or `|s|`. */
  function SkipSpace(s: string, i: nat, isSpace: char -> bool): (k: nat)
    requires i <= |s|
    ensures i <= k <= |s|
    ensures k < |s| ==> !isSpace(s[k])
    ensures AllSpace(s, i, k, isSpace)
    decreases |s| - i
  {
    if i < |s| && isSpace(s[i]) then SkipSpace(s, i + 1, isSpace) else i
  }

  /** The end of `s[..j]` once its trailing whitespace is dropped. */
  function BackSpace(s: string, j: nat, isSpace: char -> bool): (e: nat)
    requires j <= |s|
    ensures e <= j
    ensures e > 0 ==> !isSpace(s[e - 1])
    ensures AllSpace(s, e, j, isSpace)
    decreases j
  {
    if j > 0 && isSpace(s[j - 1]) then BackSpace(s, j - 1, isSpace) else j
  }

  /** Number of leading whitespace characters. */
  function LeftCut(s: string, isSpace: char -> bool): (k: nat)
    ensures k <= |s|
    ensures k < |s| ==> !isSpace(s[k])
    ensures AllSpace(s, 0, k, isSpace)
  {
    SkipSpace(s, 0, isSpace)
  }

  /** Remove leading and trailing whitespace: Python `strip()` with
      `PyIsSpace`, JavaScript `trim()` with `JsIsSpace`. The result is a slice
      of `s` that starts at `LeftCut`, has only whitespace outside it, and has
      no surrounding whitespace itself. */
  function Strip(s: string, isSpace: char -> bool): (r: string)
    ensures Stripped(r, isSpace)
    ensures LeftCut(s, isSpace) + |r| <= |s|
    ensures r == s[LeftCut(s, isSpace)..LeftCut(s, isSpace) + |r|]
    ensures AllSpace(s, 0, LeftCut(s, isSpace), isSpace)
    ensures AllSpace(s, LeftCut(s, isSpace) + |r|, |s|, isSpace)
  {
    var l := LeftCut(s, isSpace);
    var e := BackSpace(s, |s|, isSpace);
    if l == |s| then []
    else
      assert !isSpace(s[l]);
      assert l < e;
      s[l..e]
  }

  /** Stripping a string that has no surrounding whitespace returns it unchanged. */
  lemma StripFixpoint(s: string, isSpace: char -> bool)
    requires Stripped(s, isSpace)
    ensures Strip(s, isSpace) == s
  {
  }

  // ---------------------------------------------------------------------------
  // Decimal digits

  predicate IsDigit(c: char) {
    '0' <= c <= '9'
  }

  predicate AllDigits(s: string) {
    forall i | 0 <= i < |s| :: IsDigit(s[i])
  }

  function DigitChar(d: nat): (c: char)
    requires d < 10
    ensures IsDigit(c)
  {
    ('0' as int + d) as char
  }

  function DigitValue(c: char): (d: nat)
    requires IsDigit(c)
    ensures d < 10 && DigitChar(d) == c
  {
    c as int - '0' as int
  }

  /** The value of a string of decimal digits (leading zeros allowed). */
  function DigitsValue(s: string): nat
    requires AllDigits(s)
    decreases |s|
  {
    if |s| == 0 then 0 else DigitsValue(s[..|s| - 1]) * 10 + DigitValue(s[|s| - 1])
  }

  /** Python `str(n)` / JavaScript `String(n)` for a natural number. */
  function NatToString(n: nat): (s: string)
    ensures |s| > 0 && AllDigits(s)
    ensures DigitsValue(s) == n
    decreases n
  {
    if n < 10 then [DigitChar(n)]
    else
      var s := NatToString(n / 10) + [DigitChar(n % 10)];
      assert s[..|s| - 1] == NatToString(n / 10);
      s
  }

  /** Decimal rendering of an integer with a leading `-` when negative. */
  function IntToString(n: int): (s: string)
    ensures |s| > 0
    ensures n >= 0 ==> AllDigits(s) && DigitsValue(s) == n
    ensures n < 0 ==> s[0] == '-' && AllDigits(s[1..]) && DigitsValue(s[1..]) == -n
  {
    if n >= 0 then NatToString(n) else "-" + NatToString(-n)
  }
}

=== FILE: weights.dfy ===
/** Snapping exercise weights to the gym grid (backend/workout_generator.py,
    `round_to_standard_weight` and the weight step of `apply_slight_progression`).

    Weights are kept as integers in tenths of a kilogram, and a parsed weight
    string as an exact decimal `mantissa / 10^places`, so the grid arithmetic
    is exact. Python's `round` rounds half to even; `RoundHalfEven` does the
    same on an integer quotient. */
module Weights {
  import opened Wrappers
  import opened Text

  /** The weight strings that are passed through untouched. */
  const SENTINELS: set<string> := {"N/A", "bodyweight"}

  /** Barbell lifts never go below the empty 20 kg bar (in tenths of a kg). */
  const BARBELL_FLOOR: int := 200

  /** Which rule a name selects. */
  datatype WeightClass = Barbell | Dumbbell | Other

  /** Barbell: "Barbell" in the name, or "Press" without "Dumbbell". Then
      "Dumbbell", "Raise" or "Extension". Everything else is `Other`. */
  function ClassOf(name: string): WeightClass {
    if Contains(name, "Barbell") || (Contains(name, "Press") && !Contains(name, "Dumbbell")) then Barbell
    else if Contains(name, "Dumbbell") || Contains(name, "Raise") || Contains(name, "Extension") then Dumbbell
    else Other
  }

  /** Grid step in tenths of a kg: 5 kg for barbells, 2.5 kg otherwise. */
  function Increment(c: WeightClass): (inc: int)
    ensures inc > 0 && BARBELL_FLOOR % inc == 0
    ensures c == Barbell ==> inc == 50
    ensures c != Barbell ==> inc == 25
  {
    if c == Barbell then 50 else 25
  }

  function Pow10(n: nat): (p: int)
    ensures p >= 1
  {
    if n == 0 then 1 else 10 * Pow10(n - 1)
  }

  // ---------------------------------------------------------------------------
  // Rounding

  /** `q` is what Python's `round(n / d)` returns: the nearest integer, and the
      even one of the two on a tie. */
  predicate NearestEven(n: int, d: int, q: int)
    requires d > 0
  {
    var e := n - q * d;
    -d <= 2 * e <= d && ((2 * e == d || 2 * e == -d) ==> q % 2 == 0)
  }

  function RoundHalfEven(n: int, d: int): (q: int)
    requires d > 0
    ensures NearestEven(n, d, q)
  {
    var q, r := n / d, n % d;
    assert n - q * d == r;
    if 2 * r < d then q
    else if 2 * r > d then q + 1
    else if q % 2 == 0 then q
    else q + 1
  }

  /** There is only one such integer, so `RoundHalfEven` is the rounding. */
  lemma NearestEvenUnique(n: int, d: int, q: int, q': int)
    requires d > 0 && NearestEven(n, d, q) && NearestEven(n, d, q')
    ensures q == q'
  {
    var e, e' := n - q * d, n - q' * d;
    var k := q' - q;
    assert k * d == e - e' by {
      assert q' * d == q * d + k * d;
    }
    SmallMultiple(k, d);
  }

  /** A multiple of `d` within `d` of zero comes from -1, 0 or 1. */
  lemma SmallMultiple(k: int, d: int)
    requires d > 0 && -d <= k * d <= d
    ensures -1 <= k <= 1
  {
  }

  /** A quotient that is already exact is returned as is. */
  lemma RoundExact(n: int, d: int, q: int)
    requires d > 0 && n == q * d
    ensures RoundHalfEven(n, d) == q
  {
    NearestEvenUnique(n, d, q, RoundHalfEven(n, d));
  }

  lemma MultipleMod(q: int, inc: int)
    requires inc == 25 || inc == 50
    ensures (q * inc) % inc == 0
  {
    if inc == 25 {
      assert (q * 25) % 25 == 0;
    } else {
      assert (q * 50) % 50 == 0;
    }
  }

  // ---------------------------------------------------------------------------
  // Weight strings

  /** An exact decimal number `mantissa / 10^places`. */
  datatype Decimal = Decimal(mantissa: int, places: nat)

  /** Unsigned decimal notation: digits, and an optional `.` followed by
      digits, with at least one digit in all. */
  function ParseUnsigned(body: string): (r: Option<Decimal>)
    ensures r.Some? ==> r.value.mantissa >= 0
  {
    var cut := FirstCut(body, ".");
    var intPart := body[..cut];
    var frac := if cut < |body| then body[cut + 1..] else "";
    if AllDigits(intPart) && AllDigits(frac) && |intPart| + |frac| > 0 then
      Some(Decimal(DigitsValue(intPart + frac), |frac|))
    else None
  }

  /** Python `float(s)` for plain decimal notation: an optional sign in front
      of an unsigned decimal. */
  function ParseDecimal(s: string): (r: Option<Decimal>)
    ensures r.Some? && r.value.mantissa < 0 ==> |s| > 0 && s[0] == '-'
  {
    if |s| > 0 && s[0] == '-' then
      match ParseUnsigned(s[1..])
      case Some(d) => Some(Decimal(-d.mantissa, d.places))
      case None => None
    else if |s| > 0 && s[0] == '+' then ParseUnsigned(s[1..])
    else ParseUnsigned(s)
  }

  /** `float(weight.replace("kg", ""))`, including the surrounding whitespace
      that `float` ignores. */
  function ParseKg(weight: string): Option<Decimal> {
    ParseDecimal(Strip(ReplaceAll(weight, "kg", ""), PyIsSpace))
  }

  /** `f"{x:.1f}"` for `t` tenths: an optional minus sign, the whole part,
      a dot and the tenths digit. */
  function FormatNumber(t: int): (s: string)
    ensures |s| >= 3 && IsDigit(s[|s| - 1]) && (s[0] == '-' || IsDigit(s[0]))
    ensures forall i | 0 <= i < |s| :: s[i] == '-' || s[i] == '.' || IsDigit(s[i])
  {
    var n := if t < 0 then -t else t;
    var unsigned := NatToString(n / 10) + "." + [DigitChar(n % 10)];
    if t < 0 then "-" + unsigned else unsigned
  }

  /** `f"{x:.1f}kg"` for a weight of `t` tenths of a kg. */
  function FormatTenths(t: int): (s: string)
    ensures |s| >= 5 && s[|s| - 2..] == "kg"
  {
    FormatNumber(t) + "kg"
  }

  lemma FindFirstDot(digits: string, rest: string)
    requires AllDigits(digits)
    ensures Find(digits + "." + rest, ".") == Some(|digits|)
  {
    var s := digits + "." + rest;
    assert OccursAt(s, ".", |digits|) by {
      assert s[|digits|..|digits| + 1] == ".";
    }
    forall j | 0 <= j < |digits| ensures !OccursAt(s, ".", j) {
      assert s[j] == digits[j];
      assert s[j..j + 1] == [s[j]];
    }
  }

  /** Removing "kg" from a formatted weight leaves the number in front of it. */
  lemma StripKgSuffix(body: string)
    requires forall i | 0 <= i < |body| :: body[i] != 'k'
    ensures ReplaceAll(body + "kg", "kg", "") == body
  {
    ReplaceSkipsPrefix(body, "kg", "kg", "");
    assert ReplaceAll("kg", "kg", "") == "" by {
      assert IsPrefix("kg", "kg");
      assert "kg"[2..] == "";
    }
    assert body + "" == body;
  }

  /** Digits, a dot and one more digit read as a one-place decimal whose
      mantissa is all the digits together. */
  lemma ParseOnePlace(digits: string, c: char)
    requires AllDigits(digits) && |digits| > 0 && IsDigit(c)
    ensures ParseUnsigned(digits + "." + [c]) == Some(Decimal(DigitsValue(digits + [c]), 1))
  {
    FindFirstDot(digits, [c]);
    DotParts(digits, [c]);
    assert AllDigits([c]);
  }

  /** The two sides of a dot placed between `a` and `b`. */
  lemma DotParts(a: string, b: string)
    ensures (a + "." + b)[..|a|] == a && (a + "." + b)[|a| + 1..] == b
  {
  }

  /** The value of digits followed by one more digit. */
  lemma DigitsValueSnoc(digits: string, b: nat)
    requires AllDigits(digits) && b < 10
    ensures AllDigits(digits + [DigitChar(b)])
    ensures DigitsValue(digits + [DigitChar(b)]) == DigitsValue(digits) * 10 + b
  {
    var whole := digits + [DigitChar(b)];
    assert whole[..|whole| - 1] == digits;
  }

  /** The unsigned part of a formatted weight reads back as its tenths. */
  lemma ParseUnsignedTenths(n: nat)
    ensures ParseUnsigned(NatToString(n / 10) + "." + [DigitChar(n % 10)]) == Some(Decimal(n, 1))
  {
    var digits := NatToString(n / 10);
    ParseOnePlace(digits, DigitChar(n % 10));
    DigitsValueSnoc(digits, n % 10);
  }

  lemma ParseNumber(t: int)
    ensures ParseDecimal(FormatNumber(t)) == Some(Decimal(t, 1))
  {
    var n: nat := if t < 0 then -t else t;
    var unsigned := NatToString(n / 10) + "." + [DigitChar(n % 10)];
    ParseUnsignedTenths(n);
    if t < 0 {
      assert FormatNumber(t)[1..] == unsigned;
    }
  }

  /** A formatted weight parses back to exactly the tenths it was made from. */
  lemma ParseFormat(t: int)
    ensures ParseKg(FormatTenths(t)) == Some(Decimal(t, 1))
  {
    var body := FormatNumber(t);
    StripKgSuffix(body);
    StripFixpoint(body, PyIsSpace);
    ParseNumber(t);
  }

  /** A formatted weight is never one of the pass-through strings. */
  lemma FormatNotSentinel(t: int)
    ensures FormatTenths(t) !in SENTINELS
  {
    var s := FormatTenths(t);
    assert s[|s| - 1] == 'g';
  }

  // ---------------------------------------------------------------------------
  // round_to_standard_weight

  /** `round(x / increment) * increment`, floored at 20 kg for barbells, in
      tenths of a kg: a nearest multiple of the class's step (ties to an even
      multiple) to the decimal's value. */
  function SnapTenths(d: Decimal, c: WeightClass): (t: int)
    ensures t % Increment(c) == 0
    ensures c == Barbell ==> t >= BARBELL_FLOOR
    ensures exists q :: (NearestEven(d.mantissa * 10, Pow10(d.places) * Increment(c), q) &&
      t == (if c == Barbell && q * Increment(c) < BARBELL_FLOOR then BARBELL_FLOOR else q * Increment(c)))
  {
    var inc := Increment(c);
    var n, den := d.mantissa * 10, Pow10(d.places) * inc;
    var q := RoundHalfEven(n, den);
    MultipleMod(q, inc);
    assert NearestEven(n, den, q);
    if c == Barbell && q * inc < BARBELL_FLOOR then BARBELL_FLOOR else q * inc
  }

  /** `round_to_standard_weight(weight, name)`: the two pass-through strings
      come back unchanged, anything `float` cannot read is a `ValueError`, and
      every other weight is snapped to the grid of the name's class and
      printed with one decimal and a "kg" suffix. */
  function RoundToStandardWeight(weight: string, name: string): (r: Result<string>)
    ensures weight in SENTINELS ==> r == Ok(weight)
    ensures weight !in SENTINELS ==> (r.Ok? <==> ParseKg(weight).Some?)
    ensures weight !in SENTINELS && r.Ok? ==>
      r.value == FormatTenths(SnapTenths(ParseKg(weight).value, ClassOf(name)))
  {
    if weight in SENTINELS then Ok(weight)
    else
      match ParseKg(weight)
      case None => Err("could not convert string to float")
      case Some(d) => Ok(FormatTenths(SnapTenths(d, ClassOf(name))))
  }

  /** Snapping an on-grid weight of the right class changes nothing. */
  lemma SnapOnGrid(t: int, c: WeightClass)
    requires t % Increment(c) == 0 && (c == Barbell ==> t >= BARBELL_FLOOR)
    ensures SnapTenths(Decimal(t, 1), c) == t
  {
    var inc := Increment(c);
    var q := t / inc;
    assert t * 10 == q * (10 * inc);
    RoundExact(t * 10, Pow10(1) * inc, q);
  }

  /** Re-rounding a rounded weight returns the same string. */
  lemma RoundIdempotent(weight: string, name: string)
    ensures RoundToStandardWeight(weight, name).Ok? ==>
      RoundToStandardWeight(RoundToStandardWeight(weight, name).value, name) == RoundToStandardWeight(weight, name)
  {
    if weight !in SENTINELS && ParseKg(weight).Some? {
      var t := SnapTenths(ParseKg(weight).value, ClassOf(name));
      FormatNotSentinel(t);
      ParseFormat(t);
      SnapOnGrid(t, ClassOf(name));
    }
  }

  /** The Dumbbell/Raise/Extension branch and the fallback branch compute the
      same thing: only whether a name is in the barbell class matters. */
  lemma NonBarbellBranchesAgree(weight: string, name1: string, name2: string)
    requires ClassOf(name1) != Barbell && ClassOf(name2) != Barbell
    ensures RoundToStandardWeight(weight, name1) == RoundToStandardWeight(weight, name2)
  {
    if weight !in SENTINELS && ParseKg(weight).Some? {
      var d := ParseKg(weight).value;
      var t1, t2 := SnapTenths(d, ClassOf(name1)), SnapTenths(d, ClassOf(name2));
      var n, den := d.mantissa * 10, Pow10(d.places) * 25;
      var q1 :| NearestEven(n, den, q1) && t1 == q1 * 25;
      var q2 :| NearestEven(n, den, q2) && t2 == q2 * 25;
      NearestEvenUnique(n, den, q1, q2);
    }
  }

  // ---------------------------------------------------------------------------
  // The weight step of apply_slight_progression

  /** `round((x + increment) / increment) * increment` in tenths of a kg: the
      multiple of the step nearest to one step above the decimal's value, with
      no barbell floor. */
  function StepTenths(d: Decimal, c: WeightClass): (t: int)
    ensures t % Increment(c) == 0
    ensures exists q :: (NearestEven(d.mantissa * 10 + Increment(c) * Pow10(d.places), Pow10(d.places) * Increment(c), q) &&
      t == q * Increment(c))
  {
    var inc := Increment(c);
    var n, den := d.mantissa * 10 + inc * Pow10(d.places), Pow10(d.places) * inc;
    var q := RoundHalfEven(n, den);
    MultipleMod(q, inc);
    assert NearestEven(n, den, q);
    q * inc
  }

  /** The new weight string of one exercise: pass-through strings stay, an
      unreadable weight is a `ValueError`, any other weight moves up one step. */
  function StepWeight(weight: string, name: string): (r: Result<string>)
    ensures weight in SENTINELS ==> r == Ok(weight)
    ensures weight !in SENTINELS ==> (r.Ok? <==> ParseKg(weight).Some?)
    ensures weight !in SENTINELS && r.Ok? ==>
      r.value == FormatTenths(StepTenths(ParseKg(weight).value, ClassOf(name)))
  {
    if weight in SENTINELS then Ok(weight)
    else
      match ParseKg(weight)
      case None => Err("could not convert string to float")
      case Some(d) => Ok(FormatTenths(StepTenths(d, ClassOf(name))))
  }

  lemma StepTenthsOnGrid(t: int, c: WeightClass)
    requires t % Increment(c) == 0
    ensures StepTenths(Decimal(t, 1), c) == t + Increment(c)
  {
    if c == Barbell {
      var q := t / 50 + 1;
      assert t * 10 + 500 == q * 500;
      RoundExact(t * 10 + 500, 500, q);
    } else {
      var q := t / 25 + 1;
      assert t * 10 + 250 == q * 250;
      RoundExact(t * 10 + 250, 250, q);
    }
  }

  /** An on-grid weight goes up by exactly one step (5 kg for barbells, 2.5 kg
      otherwise), with no 20 kg floor. */
  lemma StepOnGrid(t: int, name: string)
    requires t % Increment(ClassOf(name)) == 0
    ensures StepWeight(FormatTenths(t), name) == Ok(FormatTenths(t + Increment(ClassOf(name))))
  {
    FormatNotSentinel(t);
    ParseFormat(t);
    StepTenthsOnGrid(t, ClassOf(name));
  }

  /** Off the grid the half-to-even rule can move a weight by more or less than
      one step: 22.5 kg on a barbell lift becomes 30 kg, 27.5 kg becomes 30 kg. */
  lemma StepOffGridTies(name: string)
    requires ClassOf(name) == Barbell
    ensures StepWeight(FormatTenths(225), name) == Ok(FormatTenths(300))
    ensures StepWeight(FormatTenths(275), name) == Ok(FormatTenths(300))
  {
    FormatNotSentinel(225);
    ParseFormat(225);
    FormatNotSentinel(275);
    ParseFormat(275);
    StepTenthsTies();
  }

  /** 22.5 + 5 = 27.5 and 27.5 + 5 = 32.5 are both ties between multiples of
      5, and both resolve to the even multiple 6 × 5 = 30. */
  lemma StepTenthsTies()
    ensures StepTenths(Decimal(225, 1), Barbell) == 300
    ensures StepTenths(Decimal(275, 1), Barbell) == 300
  {
    assert Pow10(1) == 10;
    assert RoundHalfEven(2750, 500) == 6;
    assert RoundHalfEven(3250, 500) == 6;
  }
}

=== FILE: workout_context.dfy ===
/** The in-app workout state (frontend/src/context/WorkoutContext.js): the
    list of workouts, the workout in progress and the history of completed
    ones, with the three transitions the provider exposes. Workouts are the
    JSON objects the screens pass around; `now` stands for `new Date()`. */
module WorkoutContext {
  import opened Wrappers
  import opened Json

  datatype Context = Context(workouts: seq<Obj>, current: Option<Obj>, history: seq<Obj>)

  const INITIAL: Context := Context([], None, [])

  /** `ex[key] || fallback`. */
  function OrDefault(ex: Obj, key: string, fallback: Value): (v: Value)
    ensures PropTruthy(ex, key) ==> v == ex[key]
    ensures !PropTruthy(ex, key) ==> v == fallback
  {
    if PropTruthy(ex, key) then ex[key] else fallback
  }

  /** The own properties `{...ex}` copies: those of an object, none for
      `null`, a number or a boolean. */
  function OwnProps(ex: Value): Obj {
    if ex.JObj? then ex.fields else map[]
  }

  /** One exercise as `startWorkout` prepares it: a copy that is not yet
      completed, with falsy sets, reps and weight replaced by 3, 12 and 0.
      Reading `sets` of `null` raises. */
  function StartExercise(ex: Value): (r: Result<Obj>)
    ensures r.Err? <==> ex == JNull
    ensures r.Ok? ==>
      && r.value.Keys == OwnProps(ex).Keys + {"completed", "sets", "reps", "weight"}
      && r.value["completed"] == JBool(false)
      && r.value["sets"] == OrDefault(OwnProps(ex), "sets", JInt(3))
      && r.value["reps"] == OrDefault(OwnProps(ex), "reps", JInt(12))
      && r.value["weight"] == OrDefault(OwnProps(ex), "weight", JInt(0))
      && forall k | k in OwnProps(ex) && k !in {"completed", "sets", "reps", "weight"} :: r.value[k] == OwnProps(ex)[k]
  {
    if ex == JNull then Err("Cannot read properties of null (reading 'sets')")
    else
      var own := OwnProps(ex);
      Ok(Spread(own, map["completed" := JBool(false), "sets" := OrDefault(own, "sets", JInt(3)),
                         "reps" := OrDefault(own, "reps", JInt(12)), "weight" := OrDefault(own, "weight", JInt(0))]))
  }

  function StartExercises(items: seq<Value>): (r: Result<seq<Value>>)
    ensures r.Ok? <==> forall i | 0 <= i < |items| :: items[i] != JNull
    ensures r.Ok? ==> |r.value| == |items|
    ensures r.Ok? ==> forall i | 0 <= i < |items| :: r.value[i] == JObj(StartExercise(items[i]).value)
  {
    if |items| == 0 then Ok([])
    else
      var first :- StartExercise(items[0]);
      var rest :- StartExercises(items[1..]);
      Ok([JObj(first)] + rest)
  }

  /** `startWorkout(workout)`: the workout in progress becomes a copy of
      `workout` stamped with `startTime`, its exercises prepared one by one
      in the same order. `workout.exercises` must be an array. */
  function StartWorkout(c: Context, workout: Obj, now: Value): (r: Result<Context>)
    ensures r.Ok? <==>
      (&& "exercises" in workout && workout["exercises"].JArr?
       && forall i | 0 <= i < |workout["exercises"].items| :: workout["exercises"].items[i] != JNull)
    ensures r.Ok? ==> r.value.workouts == c.workouts && r.value.history == c.history && r.value.current.Some?
    ensures r.Ok? ==>
      var cur := r.value.current.value;
      && cur.Keys == workout.Keys + {"startTime"}
      && cur["startTime"] == now
      && cur["exercises"] == JArr(StartExercises(workout["exercises"].items).value)
      && forall k | k in workout && k !in {"startTime", "exercises"} :: cur[k] == workout[k]
  {
    if "exercises" !in workout then Err("Cannot read properties of undefined (reading 'map')")
    else if !workout["exercises"].JArr? then Err("workout.exercises.map is not a function")
    else
      var exercises :- StartExercises(workout["exercises"].items);
      Ok(Context(c.workouts,
                 Some(Spread(workout, map["startTime" := now, "exercises" := JArr(exercises)])),
                 c.history))
  }

  /** `completeWorkout()`: with a workout in progress, a completed copy
      stamped with `endTime` goes to the front of the history and nothing is
      in progress any more; without one, nothing changes. */
  function CompleteWorkout(c: Context, now: Value): (r: Context)
    ensures c.current.None? ==> r == c
    ensures c.current.Some? ==> r.current.None? && r.workouts == c.workouts
    ensures c.current.Some? ==> |r.history| == |c.history| + 1 && r.history[1..] == c.history
    ensures c.current.Some? ==>
      && r.history[0].Keys == c.current.value.Keys + {"endTime", "completed"}
      && r.history[0]["completed"] == JBool(true) && r.history[0]["endTime"] == now
      && forall k | k in c.current.value && k !in {"endTime", "completed"} :: r.history[0][k] == c.current.value[k]
  {
    match c.current
    case None => c
    case Some(w) =>
      Context(c.workouts, None, [Spread(w, map["endTime" := now, "completed" := JBool(true)])] + c.history)
  }

  /** `addWorkout(workout)`: appended; the rest is untouched. */
  function AddWorkout(c: Context, workout: Obj): (r: Context)
    ensures |r.workouts| == |c.workouts| + 1 && r.workouts[..|c.workouts|] == c.workouts
    ensures r.workouts[|c.workouts|] == workout
    ensures r.current == c.current && r.history == c.history
  {
    Context(c.workouts + [workout], c.current, c.history)
  }

  // ---------------------------------------------------------------------------
  // Properties across transitions

  /** An explicit zero is falsy, so it is replaced like a missing value. */
  lemma ZeroSetsAndRepsDefault(ex: Obj)
    requires "sets" in ex && ex["sets"] == JInt(0) && "reps" in ex && ex["reps"] == JInt(0)
    ensures StartExercise(JObj(ex)).value["sets"] == JInt(3)
    ensures StartExercise(JObj(ex)).value["reps"] == JInt(12)
  {
  }

  /** A started workout that is then completed lands at the front of the
      history, marked completed, with the prepared exercises, and nothing is
      left in progress. */
  lemma StartThenComplete(c: Context, workout: Obj, start: Value, end: Value)
    requires StartWorkout(c, workout, start).Ok?
    ensures var done := CompleteWorkout(StartWorkout(c, workout, start).value, end);
      && done.current.None?
      && done.workouts == c.workouts
      && done.history[1..] == c.history
      && done.history[0]["completed"] == JBool(true)
      && done.history[0]["startTime"] == start
      && done.history[0]["exercises"] == JArr(StartExercises(workout["exercises"].items).value)
  {
  }

  /** Completing again, with nothing in progress, changes nothing. */
  lemma CompleteTwice(c: Context, t1: Value, t2: Value)
    ensures CompleteWorkout(CompleteWorkout(c, t1), t2) == CompleteWorkout(c, t1)
  {
  }

  datatype Action = Start(workout: Obj, at: Value) | Finish(at: Value) | Add(workout: Obj)

  /** One action; a start that raises leaves the state as it was. */
  function Step(c: Context, a: Action): Context {
    match a
    case Start(w, t) => (match StartWorkout(c, w, t) case Ok(c') => c' case Err(_) => c)
    case Finish(t) => CompleteWorkout(c, t)
    case Add(w) => AddWorkout(c, w)
  }

  function Run(c: Context, actions: seq<Action>): Context
    decreases |actions|
  {
    if |actions| == 0 then c else Run(Step(c, actions[0]), actions[1..])
  }

  /** The history keeps `oldH` at its end and the workout list keeps `oldW`
      at its start. */
  predicate Grown(c: Context, oldH: seq<Obj>, oldW: seq<Obj>) {
    && |c.history| >= |oldH| && c.history[|c.history| - |oldH|..] == oldH
    && |c.workouts| >= |oldW| && c.workouts[..|oldW|] == oldW
  }

  lemma StepGrows(c: Context, a: Action)
    ensures Grown(Step(c, a), c.history, c.workouts)
  {
    match a
    case Start(w, t) =>
      var r := StartWorkout(c, w, t);
      if r.Ok? {
        SameListsGrown(r.value, c);
      } else {
        SameListsGrown(c, c);
      }
    case Finish(t) =>
      var r := CompleteWorkout(c, t);
      if c.current.Some? {
        assert r.history[|r.history| - |c.history|..] == r.history[1..];
        assert r.workouts[..|c.workouts|] == r.workouts;
      } else {
        SameListsGrown(c, c);
      }
    case Add(w) =>
      var r := AddWorkout(c, w);
      assert r.history[|r.history| - |c.history|..] == r.history;
  }

  /** A state with the same history and workout list has grown from it. */
  lemma SameListsGrown(r: Context, c: Context)
    requires r.history == c.history && r.workouts == c.workouts
    ensures Grown(r, c.history, c.workouts)
  {
    assert r.history[|r.history| - |c.history|..] == r.history;
    assert r.workouts[..|c.workouts|] == r.workouts;
  }

  /** Growing is transitive. */
  lemma GrownTrans(c: Context, mid: Context, oldH: seq<Obj>, oldW: seq<Obj>)
    requires Grown(mid, oldH, oldW) && Grown(c, mid.history, mid.workouts)
    ensures Grown(c, oldH, oldW)
  {
    var n := |c.history| - |mid.history|;
    assert c.history[|c.history| - |oldH|..] == c.history[n..][|mid.history| - |oldH|..];
    assert c.workouts[..|oldW|] == c.workouts[..|mid.workouts|][..|oldW|];
  }

  /** The history and the workout list only grow: whatever they held before
      a run is still there afterwards, the history at its end and the list at
      its start. */
  lemma {:induction false} RunOnlyGrows(c: Context, actions: seq<Action>)
    ensures Grown(Run(c, actions), c.history, c.workouts)
    decreases |actions|
  {
    if |actions| > 0 {
      var next := Step(c, actions[0]);
      assert Run(c, actions) == Run(next, actions[1..]);
      StepGrows(c, actions[0]);
      RunOnlyGrows(next, actions[1..]);
      GrownTrans(Run(c, actions), next, c.history, c.workouts);
    }
  }

  /** Every entry of the history is marked completed. */
  predicate HistoryCompleted(c: Context) {
    forall i | 0 <= i < |c.history| :: "completed" in c.history[i] && c.history[i]["completed"] == JBool(true)
  }

  /** From any state whose history is all completed, the initial empty state
      among them, no run of actions puts an unfinished workout in the
      history. */
  lemma {:induction false} RunKeepsHistoryCompleted(c: Context, actions: seq<Action>)
    requires HistoryCompleted(c)
    ensures HistoryCompleted(Run(c, actions))
    decreases |actions|
  {
    if |actions| > 0 {
      var next := Step(c, actions[0]);
      assert HistoryCompleted(next) by {
        if actions[0].Finish? && c.current.Some? {
          forall i | 0 <= i < |next.history| ensures "completed" in next.history[i] && next.history[i]["completed"] == JBool(true) {
            if i > 0 {
              assert next.history[i] == c.history[i - 1];
            }
          }
        }
      }
      RunKeepsHistoryCompleted(next, actions[1..]);
    }
  }
}

=== FILE: wrappers.dfy ===
/** Failure-carrying return types shared by every module: `Option` for a value
    that may be absent (Python `None`, JavaScript `null`/`undefined`) and
    `Result` for an operation that can raise instead of returning. */
module Wrappers {

  datatype Option<+T> = None | Some(value: T)

  datatype Result<+R> = Ok(value: R) | Err(error: string) {
    predicate IsFailure() {
      Err?
    }

    function PropagateFailure<U>(): Result<U>
      requires Err?
    {
      Err(error)
    }

    function Extract(): R
      requires Ok?
    {
      value
    }
  }
}
